=== FILE: README.md ===
# jsonschemagen core, modelled in Dafny

This project models the core of `jsonschemagen`, a Go tool. The tool reads a Go package and turns one root type into a JSON Schema (draft 4) document. The model covers:

- **Package `generator`.** The recursive `generateSchemaForExpr` walk over type expressions, and the object, array, interface, simple and embedded-struct cases it dispatches to. It also covers:
  - the three definition caches (global, embedded, simple-type);
  - the `$ref`-or-inline decision (`shouldReturnRef`) and definition keys (`getDefinitionKey`, `defKeyFromPath`);
  - the doc-comment titles and descriptions;
  - the `@jsonSchema` annotation validator (`ValidateAndCreate`) and how its attributes are laid over a node;
  - the allOf/anyOf/oneOf/not resolution of type paths;
  - the `doGenerate` driver that publishes referenced definitions on the root.
- **Package `schema`.** The schema node types and their constructors and setters. It also covers the JSON document that `json.Marshal` writes for a node, and `FromJSON` with the `UnmarshalJSON` methods that read it back, including `BoolOrSchema`.
- **Package `cmd`.** The argument checks of the command line, the log level, and the helpers that turn a `$ref` into a file name, a variable name and a package/type pair.

Everything is pure: a Go method that mutates a schema becomes a function that returns the new node. The generator's caches are passed in and returned (`Caches`, `Out`). Go panics (a nil dereference, a failed type assertion, a slice out of range) are the failure `Panic`, separate from returned errors (`Error`). The generator's recursion has no static bound in Go, so the model carries a `fuel` argument, and running out of it is the failure `OutOfFuel`. Only `Error` is ever swallowed where Go ignores an error; `Panic` and `OutOfFuel` always propagate.

Modules, leaves first:

- `Results`: failures and results.
- `Dict`: Go maps as association lists.
- `Runes`: the Latin-1 part of package `unicode`.
- `Strs`: package `strings`.
- `GoStrconv`: `ParseBool`, `ParseInt`, `FormatInt`, `Quote` and the `NumError` messages.
- `Decls`: the loaded program, declarations, fields and type expressions.
- `TypeHelper`: type tables, identifiers, type paths, tags and declaration lookup.
- `Schema`: the schema nodes.
- `Host`: options and the foreign functions.
- `Annotation`: the `@jsonSchema` annotation.
- `SchemaAttrs`: definition keys, the ref policy, docs and attribute overlays.
- `Generator`: the recursive generator.
- `Generation`: the entry points.
- `Cli`: the command line.
- `JsonKeys`: the JSON field names.
- `Codec`: encoding and decoding.
- `CodecLaws`: the laws of the codec.

## Model

| member | source | states |
|---|---|---|
| Dict.Get | generator/generator.go:262 | a lookup finds a value exactly when the key is in the map, and the value found is stored under that key |
| Dict.Put | generator/generator.go:324 | after `m[k] = v`, `k` reads back `v`, every other key reads what it did before, and the key set gains exactly `k` |
| Dict.PutAll | generator/generator.go:300-302 | copying one map into another leaves keys outside the source unchanged, gives every key of the source the value of its last entry there (the later write wins), and the key set is the union of both |
| Dict.PutShape | generator/generator.go:324 | storing a new key appends one entry; storing an existing key keeps the entry order and length |
| Runes.FirstRune | generator/schema_attrs.go:23-27 | the first rune of a non-empty name is its first character; for an empty name it is neither upper case nor a letter, so the name counts as unexported |
| Runes.ToTitle | cmd/root.go:348 | title case of a Latin-1 rune: a-z and the accented lower-case letters become the upper-case letter 32 code points below, µ becomes U+039C and ÿ becomes U+0178; ª, º, ß (no single-rune title case), upper-case letters and non-letters are unchanged |
| Strs.IndexOf | generator/schema_attrs.go:52 | the first occurrence of a pattern, with -1 exactly when the string does not contain it |
| Strs.LastIndexOf | generator/schema_attrs.go:52-53 | the last occurrence of a pattern: no later position matches, and -1 exactly when there is none |
| Strs.LastRune | cmd/root.go:321-322 | the last occurrence of a one-character pattern holds that character, and no later character equals it |
| Strs.ReplaceRuneIsMap | generator/schema_attrs.go:56-57 | replacing every occurrence of a one-character pattern by one character maps each position independently |
| Strs.TrimSuffix | cmd/root.go:362 | the result plus the suffix is the input when the suffix is present; otherwise the input is unchanged |
| Strs.BeforeFirst | generator/schema_attrs.go:135 | `strings.Split(s, sep)[0]` is a prefix of `s` without `sep`, and it ends at the first `sep` or at the end of `s` |
| Strs.FirstField | generator/schema_attrs.go:137-141 | the first word of `strings.Fields` is the text right after the leading spaces, up to the next space or the end; it has no space, and it is empty exactly when the text is all space |
| Strs.StripSpaces | cmd/root.go:350-355 | dropping the space runes keeps only characters of the input and no space; a text without spaces is unchanged and an all-space text becomes empty |
| Strs.StripSpacesAppend | cmd/root.go:350-355 | dropping spaces works piece by piece on a concatenation, so every non-space rune is kept, in order |
| Strs.TitleAfter | cmd/root.go:348 | `strings.Title` upper-cases exactly the characters that follow a separator and keeps the length |
| Strs.Title | cmd/root.go:348 | `strings.Title` title-cases the first rune and every rune after a separator, keeps every other rune, and keeps the length |
| GoStrconv.ParseBool | generator/annotation.go:80-85 | true exactly for 1, t, T, TRUE, true and True; false exactly for 0, f, F, FALSE, false and False; everything else is rejected |
| GoStrconv.ParseInt64 | generator/annotation.go:145-150 | a text is accepted exactly when it is an optional sign and one or more digits whose value fits in 64 bits, and then the result is that value; a well-formed number outside the range is a range error; a malformed text is a syntax error, unless its leading digits already exceed the unsigned 64-bit range |
| GoStrconv.ParseFormatRoundTrip | generator/annotation.go:145-150 | every 64-bit integer written in decimal is read back as itself |
| GoStrconv.ParseIgnoresPlusAndZeros | generator/annotation.go:145-150 | a leading `+` and leading zeros do not change what a number parses to: `+7` and `007` give the same as `7` |
| GoStrconv.QuotePlain | generator/annotation.go:145-150 | `strconv.Quote` writes a text without quotes, backslashes or unprintable runes unchanged between double quotes |
| GoStrconv.NumErrorText | generator/annotation.go:145-150 | the message of a failed strconv parse names the function and the quoted text, and ends with `invalid syntax` or `value out of range` |
| Host.NewOptions | generator/generator.go:65-73 | the default options create definitions automatically, keep x-go-path, have no prefix and target draft 4 |
| JsonKeys.KeyOfName | schema/jsonschema.go:40-53 | every schema field is found again from its JSON name |
| JsonKeys.KeyNameInjective | schema/jsonschema.go:40-53 | no two schema fields share a JSON name |
| Schema.NewObjectSchema | schema/schema_object.go:93-102 | a new node is an object node that keeps the suppress-x-attributes flag it was given |
| Schema.NewMapSchema | schema/schema_map.go:4-9 | a map node is an object without properties or required names that allows additional properties |
| Schema.NewBoolOrSchema | schema/schema_object.go:13-29 | a boolean becomes that boolean without a schema; a schema becomes that schema with `false` |
| Schema.SetFormat | schema/schema_simple.go:59-61 | setting the format changes the format and nothing else |
| Schema.AddDefinition | schema/jsonschema.go:260-262 | a definition added under a key reads back under that key; other keys and every other field are unchanged |
| Schema.SetGoPath | schema/schema_object.go:210-216 | the Go path is recorded unless x-attributes are suppressed, in which case it stays empty; nothing else changes |
| Schema.AddRequiredField | schema/schema_object.go:174-176 | a required name is appended at the end of the list; nothing else changes |
| Schema.RefNode | generator/generator.go:266-267 | a reference node has the target as `$ref`, no type and no other content |
| Schema.SetterLaws | schema/jsonschema.go:205-297 | each basic setter changes its own field and nothing else; Clone is the identity on values |
| TypeHelper.TablesAgree | generator/type_helper.go:15-42 | the Go-type-to-JSON-type table and the JSON-type-to-Go-types table describe the same relation, in both directions |
| TypeHelper.IsIdent | generator/type_helper.go:105-116 | a name is an identifier exactly when every rune is a letter, a digit or `_` |
| TypeHelper.IsPackageType | generator/type_helper.go:118-137 | a package type path contains a slash, does not start with one, and ends in an exported identifier |
| TypeHelper.SplitPackageTypePath | generator/type_helper.go:139-145 | a package type path splits at its last slash into a non-empty package and an exported type name that join back to the path; anything else splits into two empty strings |
| TypeHelper.SplitJoin | generator/type_helper.go:139-145 | splitting a joined package and exported type name gives back the two parts |
| TypeHelper.JsonTagInfo | generator/type_helper.go:147-179 | a field is ignored exactly when its json tag is `-`; otherwise its property name is the tag's text before the first comma when that is not empty, and the Go name when the tag is absent, unquotable or has an empty name part |
| TypeHelper.FindDeclInFile | generator/type_helper.go:80-97 | a file yields a declaration exactly when it declares a type of that name, and the declaration found has that name and file |
| TypeHelper.FindDeclInPackage | generator/type_helper.go:44-73 | the hinted file is searched first; the lookup fails with an error exactly when no file of the package declares the name |
| TypeHelper.FindInOtherFiles | generator/type_helper.go:58-72 | the loop over the remaining files finds a later file declaring the name, or fails exactly when none does |
| Annotation.ParseKeySound | generator/annotation.go:79-277 | an attribute name selects only the switch case it spells |
| Annotation.ParseKeyName | generator/annotation.go:79-277 | every known attribute is selected by its own name |
| Annotation.FirstValue | generator/annotation.go:116-120 | reading `v[0]` succeeds exactly when the value list is non-empty, and crashes otherwise |
| Annotation.RefItems | generator/annotation.go:211-236 | an allOf/anyOf/oneOf list is accepted exactly when every item is a self reference, an identifier or a type path |
| Annotation.TypeItems | generator/annotation.go:237-245 | a type list is accepted exactly when every item is a JSON type name |
| Annotation.ParseOutcome | generator/annotation.go:79-275 | each switch case succeeds exactly when its value passes that attribute's check, and it then yields the converted first value; a non-empty value list never crashes |
| Annotation.ValidateFromSpec | generator/annotation.go:78-281 | with distinct names, the validation loop succeeds exactly when every attribute is known and valid, and then yields the field-wise reference record `Build` |
| Annotation.ValidateFromAny | generator/annotation.go:276-277 | an unknown attribute name always fails validation, and only an empty value list can crash it |
| Annotation.ValidateAndCreate | generator/annotation.go:68-282 | the annotation is accepted exactly when every attribute passes its check; then it is the reference record; an unknown name is an error |
| Annotation.ValidateIgnoresOrder | generator/annotation.go:78 | two iteration orders of the same attribute map give the same outcome and the same record |
| Annotation.BuildSame | generator/annotation.go:78 | the reference record depends only on the map, not on the order of its entries |
| Annotation.ValidateAll | generator/schema_attrs.go:452-457 | every annotation of a comment is validated; the list succeeds exactly when each one does |
| Annotation.AnnoFromDoc | generator/schema_attrs.go:450-467 | an empty comment has no annotation; a syntax error fails; otherwise the first `@jsonSchema` annotation is used, and the others must validate too; every error message starts by naming what the comment documents |
| Annotation.BoolAttr | generator/annotation.go:80-85 | a boolean attribute is its first value read by `ParseBool`; a missing value crashes, and a rejected one gives the `strconv.ParseBool` syntax error in the setting message |
| Annotation.IntAttr | generator/annotation.go:145-150 | an integer attribute is the value of its first text when that is a 64-bit number; otherwise the setting message carries the `strconv.ParseInt` syntax or range error; a missing value crashes |
| Annotation.FloatAttr | generator/annotation.go:116-121 | a number attribute is its first value read by `ParseFloat`; a rejection gives the `strconv.ParseFloat` error for that value in the setting message; a missing value crashes |
| Annotation.FieldAnno | generator/schema_attrs.go:445-468 | a named field's annotation is the one its doc comment carries, its error naming the field; none without a comment; for a nameless field a rejected annotation crashes on the missing name, and any other outcome is kept |
| Annotation.DeclAnno | generator/schema_attrs.go:470-499 | a declaration without doc comments has no annotation; the spec's own comment is read when it has one, otherwise its group's; an error message starts `error parsing annotation for object <name>: ` |
| Annotation.FieldIsRequired | generator/schema_attrs.go:431-443 | a field is required exactly when its annotation says `required=true`; a rejected annotation counts as not required |
| SchemaAttrs.IgnoreError | generator/schema_attrs.go:29 | an ignored annotation error reads as "no annotation"; a crash still propagates |
| SchemaAttrs.StripVendor | generator/schema_attrs.go:52-54 | the part after the last `/vendor/` is kept; it is a suffix of the key and no longer contains `/vendor/` |
| SchemaAttrs.EscapeKey | generator/schema_attrs.go:56-57 | `.` becomes `_` and `/` becomes `-`, position by position |
| SchemaAttrs.DefinitionKey | generator/schema_attrs.go:39-60 | a definition key has no `.` and no `/`, is no longer than the raw key, and has the same length when no vendor directory was cut |
| SchemaAttrs.NewDecl | generator/generator.go:75-86 | a new declaration carries its definition key |
| SchemaAttrs.FindDecl | generator/type_helper.go:44-73 | a declaration found in a package has the name looked for and is never the root; a missing one is an error |
| SchemaAttrs.ShouldReturnRef | generator/schema_attrs.go:14-37 | the root and unexported types are inlined; any other type is referenced exactly when definitions are automatic or its annotation names a definition |
| SchemaAttrs.KeepIfIdent | generator/schema_attrs.go:140-146 | a title or description survives only when its first word is an identifier |
| SchemaAttrs.DocParts | generator/schema_attrs.go:134-135 | the title is the synopsis, and the description is the first paragraph after it; slicing past the end crashes |
| SchemaAttrs.ObjectTitleAndDescription | generator/schema_attrs.go:114-160 | annotation title and description win; otherwise the title is the comment's synopsis and the description the text after it up to the first blank line, each dropped when its first word is not an identifier; a comment shorter than its synopsis plus one crashes; no comment leaves only the annotation's |
| SchemaAttrs.FieldDocOverride | generator/schema_attrs.go:74-98 | a field comment replaces the title only by its synopsis when that starts with an identifier, and the description only together with such a title |
| SchemaAttrs.FieldDocOverrideValue | generator/schema_attrs.go:74-98 | an empty synopsis, or one not led by an identifier, changes nothing; otherwise the synopsis becomes the title and the text after it up to the first blank line the description when non-empty and led by an identifier; a comment too short to slice crashes |
| SchemaAttrs.FieldTitleAndDescription | generator/schema_attrs.go:62-112 | the field annotation's title and description win; otherwise each is what the field comment makes of the object's title and description; a field without a name crashes |
| SchemaAttrs.FieldDocTitle | generator/schema_attrs.go:62-98 | without an annotation title, a field whose comment's synopsis is led by an identifier is titled by that synopsis, and any other field keeps the object's title |
| SchemaAttrs.AddDocsForField | generator/schema_attrs.go:162-176 | only title and description change, each only when the field's value is non-empty |
| SchemaAttrs.PopulateStringAttrs | generator/schema_attrs.go:311-329 | format and pattern are set when non-empty; the lengths are set when above the -1 sentinel; the core is untouched |
| SchemaAttrs.PopulateNumericAttrs | generator/schema_attrs.go:331-346 | a bound above -1 sets the bound together with its exclusive flag; multipleOf likewise; format and core are untouched |
| SchemaAttrs.SentinelAlwaysFires | generator/schema_attrs.go:321-345 | an annotation that does not mention a bound still writes that bound as 0, because unset numbers are 0, never -1 |
| SchemaAttrs.OptionalFieldAnno | generator/schema_attrs.go:268-282 | no field means no annotation; a field without a name crashes on `Names[0]` |
| SchemaAttrs.AddStringAttrsForField | generator/schema_attrs.go:267-287 | fails exactly when the field's annotation fails; otherwise the string node is populated from it, or unchanged without one |
| SchemaAttrs.AddNumericAttrsForField | generator/schema_attrs.go:289-309 | fails exactly when the field's annotation fails; otherwise the numeric node is populated from it, or unchanged without one |
| SchemaAttrs.AddArrayAttrsForField | generator/schema_attrs.go:348-377 | maxItems is set above 0 and minItems above -1; additionalItems and uniqueItems are always copied; the items are untouched |
| SchemaAttrs.FieldHasXof | generator/schema_attrs.go:550-564 | a field has a composition exactly when its annotation names allOf, anyOf or oneOf items |
| SchemaAttrs.DeclHasAnnotation | generator/schema_attrs.go:582-596 | a declaration has an annotation exactly when its comment carries one |
| Generator.StoreObject | generator/generator.go:332-343 | the finished object is cached under its key in the chosen cache; the other caches are untouched, and the cache invariant holds |
| Generator.BuiltinJsonType | generator/generator.go:539-543 | a name is built in exactly when it is a JSON type or a Go type of the table, and it maps to a JSON type |
| Generator.BuiltinNameIsJsonType | generator/generator.go:539-543 | a Go built-in maps to the JSON type its table entry names |
| Generator.GenSimple | generator/generator.go:557-582 | string and numeric JSON types get their node kinds, other types a simple node; a time gets date-time; only a failing field annotation fails it |
| Generator.GenBuiltIn | generator/generator.go:531-555 | a non-built-in name gives no node; a built-in gives a node of its JSON type, failing only when the field annotation fails |
| Generator.PopulateAliasAsWritten | generator/generator.go:405-416 | as written: an alias of a string or number type without an annotation crashes |
| Generator.PopulateAlias | generator/generator.go:405-416 | corrected: without an annotation the base node is kept; with one it agrees with the code as written |
| Generator.AliasWithoutAnnotationCrashes | generator/generator.go:399-416 | `type S string` without a doc comment crashes as written and yields the plain string node when corrected |
| Generator.SelectorDecl | generator/type_helper.go:75-78 | a selector resolves in the package its import names; an unknown import crashes |
| Generator.SettingFailure | generator/schema_attrs.go:232-262 | a composition error is wrapped as "error setting '…' for …"; a crash stays a crash |
| Generator.PathFailure | generator/schema_attrs.go:511-515 | a path that gives no schema fails with "unable to generate schema for path …"; a crash stays a crash |
| Generator.SetSlot | schema/jsonschema.go:283-297 | setting one composition keyword changes that keyword only |
| Generator.GenExpr | generator/generator.go:353-503 | the schema of a type expression is never nil; the caches only grow and keep their invariant |
| Generator.GenExprBase | generator/generator.go:353-377 | a node in the simple-type cache under the owner's key decides the result's kind, and otherwise the node the expression's shape yields does |
| Generator.GenExprNoField | generator/generator.go:353-377 | without a field, the result is the cached node with the caches unchanged, or else the shape's node with the caches its generation left |
| Generator.FinishExpr | generator/generator.go:491-502 | the finished schema keeps the kind of the node found; without a field it is that node with the caches unchanged; a non-empty annotation title or description of the field overrides the node's |
| Generator.GenExprFieldTitle | generator/generator.go:491-500 | a non-empty title in the field's annotation becomes the title of the field's schema |
| Generator.GenExprFieldDescription | generator/generator.go:491-500 | a non-empty description in the field's annotation becomes the description of the field's schema |
| Generator.GenShape | generator/generator.go:368-491 | a pointer to the owner is the self reference `#`; json.RawMessage is a map node; interface and map types are objects; array types are arrays; channels and functions give no node |
| Generator.GenPointer | generator/generator.go:432-444 | a field pointing at its own struct is `{"$ref": "#"}` and touches no cache |
| Generator.GenUnnamed | generator/generator.go:468-490 | arrays give array nodes, interfaces and maps object nodes, channel and function types nothing |
| Generator.GenIdent | generator/generator.go:376-387 | a built-in identifier gives its simple node; otherwise the declaration of that name is looked up in the owner's package, and a failed lookup fails |
| Generator.GenNamed | generator/generator.go:388-430 | a declaration in the simple-type cache gives the cached node; an alias of a built-in is generated once and cached |
| Generator.AliasBase | generator/generator.go:397-403 | an alias of a built-in type gets that built-in's simple node |
| Generator.GenAlias | generator/generator.go:399-426 | corrected: the alias node is the built-in node with the declaration's annotation applied, and it is stored in the simple-type cache under the declaration's key |
| Generator.GenSelector | generator/generator.go:446-466 | json.RawMessage is a map node; built-in selectors such as time.Time are simple nodes; a declaration it reports is the one its import and name select |
| Generator.GenArray | generator/generator.go:584-608 | an array node with the field's array attributes whose items are the non-nil element schema; an object element must pass the interface check |
| Generator.GenInterfaceForField | generator/generator.go:610-638 | without a composition or annotation, a map node that allows additional properties; otherwise an object node with the declaration's attributes; both pass the interface check |
| Generator.CheckInterface | generator/generator.go:633-635 | a rejected interface field turns a success into that error and leaves a failure alone |
| Generator.GenInterfaceForDecl | generator/generator.go:640-648 | an interface declaration gives an object node without properties |
| Generator.GenObject | generator/generator.go:247-351 | a cached object is returned, as `$ref` when it is referenced, without touching the caches; a new one is generated, cached under its key, and returned as `$ref` or inline by the ref policy |
| Generator.GenNewObject | generator/generator.go:275-351 | a new object is cached under its key with its declaration, and the result is `#/definitions/<key>` or the object, by the ref policy |
| Generator.GenFields | generator/generator.go:288-330 | the field loop changes only the node's required list, which it extends |
| Generator.FieldsProperties | generator/generator.go:288-330 | every listed field has its property; without embedded fields, the properties are exactly those of the exported, non-`-` fields, and the required names are exactly the `required=true` ones, in field order |
| Generator.FieldValues | generator/generator.go:288-330 | a property whose last contributor is a listed field, with no embedded field after it, holds the schema generated for that field's type; without embedded fields, a name no listed field uses keeps its earlier value |
| Generator.GenEmbedded | generator/generator.go:505-521 | an embedded field yields an object node; a shape other than name, selector or pointer crashes |
| Generator.GenEmbeddedDecl | generator/generator.go:523-528 | an embedded declaration that is not a struct fails with "unable to resolve embedded struct" |
| Generator.AddObjectAttrsForDecl | generator/schema_attrs.go:379-429 | only the docs are applied without an annotation; with one, id, property bounds, additionalProperties and the common attributes are applied; properties and required names are kept |
| Generator.ApplyObjectAnno | generator/schema_attrs.go:404-427 | the annotation's object attributes are applied, and properties, required names and the Go path are kept |
| Generator.SetObjectAnnoAttrs | generator/schema_attrs.go:404-418 | id when non-empty, maxProperties above 0, minProperties above -1, additionalProperties when given; nothing else changes |
| Generator.AdditionalProperties | generator/schema_attrs.go:416-426 | a boolean gives that boolean; a type path gives a schema and never `true` |
| Generator.AddCommonAttrsForField | generator/schema_attrs.go:178-197 | only the basic layer changes, and a field without an annotation is unchanged |
| Generator.AddCommonAttrsForDecl | generator/schema_attrs.go:199-217 | only the basic layer changes; a declaration without an annotation is unchanged, and a failing annotation is reported |
| Generator.AddCommonAttrs | generator/schema_attrs.go:219-265 | default, title and description are set when non-empty; on success each composition keyword holds one non-nil schema per path, or is untouched when none is named |
| Generator.AddCommonAttrsItems | generator/schema_attrs.go:219-265 | on success, each keyword that names paths holds exactly the list the path loop yields for those paths, run from caches grown from the starting ones |
| Generator.AddCommonAttrsFailure | generator/schema_attrs.go:219-265 | an error is "error setting '<keyword>' for <name>: ..." around the failure of the path loop of one keyword that names paths |
| Generator.ComposeFrom | generator/schema_attrs.go:232-262 | keywords before the current one are untouched, and on success the rest are composed |
| Generator.ComposeFromItems | generator/schema_attrs.go:232-262 | a keyword at or after the current one that names paths holds the path loop's list, run from the caches the composition has when it reaches that keyword |
| Generator.ComposeFromFailure | generator/schema_attrs.go:232-262 | a failure names the keyword whose path loop failed and wraps that loop's failure with the keyword and the name |
| Generator.Compose | generator/schema_attrs.go:232-262 | one keyword is resolved path by path; a failure leaves the node unchanged; other keywords are untouched |
| Generator.ComposeItems | generator/schema_attrs.go:232-262 | a composed keyword holds exactly the list the path loop yields for its paths |
| Generator.ComposeFailure | generator/schema_attrs.go:232-262 | a failed keyword reports "error setting '<keyword>' for <name>: ..." around its path loop's failure |
| Generator.PathLoop | generator/schema_attrs.go:501-519 | a successful loop yields one schema per remaining path after the earlier ones; with a lookup that never yields nil and never forgets a cache entry, so does the loop |
| Generator.LoopItem | generator/schema_attrs.go:501-519 | the loop's schema for path `k` is what the lookup yields for path `k` from the caches the loop has reached there |
| Generator.LoopFailure | generator/schema_attrs.go:501-519 | a failed loop reports "unable to generate schema for path '<path>': ..." for the first path whose lookup gave no schema, with that lookup's error or the nil rendering; every earlier path gave a schema |
| Generator.GenFromTypePaths | generator/schema_attrs.go:501-519 | a success holds one non-nil schema per path; the caches only grow |
| Generator.PathsItemAt | generator/schema_attrs.go:501-519 | schema `j` of the result is what path `j` resolves to, from caches grown from the starting ones, so the list follows the paths' order |
| Generator.PathsFailure | generator/schema_attrs.go:501-519 | a failure wraps, with the path's name, the error of the first path that yielded no schema, and every path before it resolved |
| Generator.PathsIdentItem | generator/schema_attrs.go:501-548 | the schema for an identifier path is the built-in type's node |
| Generator.GenFromTypePath | generator/schema_attrs.go:521-548 | an identifier gives its built-in node or nothing; a path into an unloaded package gives nothing |
| Generator.TypePathDecl | generator/schema_attrs.go:533-545 | in a loaded package, a missing declaration gives the lookup's error; otherwise the result and caches are those of generating the declaration's type |
| Generation.FindRootDecl | generator/generator.go:200-245 | the root is a type of that name declared in the base package, marked as the root; otherwise "root not found" |
| Generation.Publish | generator/generator.go:190-194 | publishing changes only the root's definitions, and succeeds when every ref decision does |
| Generation.PublishLaw | generator/generator.go:190-194 | after publishing, every referenced cache entry is a definition under its key, and every other key keeps its old value |
| Generation.GenerateRoot | generator/generator.go:184-195 | the root schema is a node stamped with the spec version, and the caches keep their invariant |
| Generation.GenerateRootDefinitions | generator/generator.go:184-195 | the root's definitions are exactly the referenced entries of the global cache the run left, over the generated root's own |
| Generation.InlineModePublishesNothing | generator/schema_attrs.go:32-36 | without automatic definitions and without a `definition` annotation, nothing is published |
| Generation.DoGenerate | generator/generator.go:175-198 | a missing root fails with "root not found"; a success is a node with the spec version |
| Generation.Generate | generator/generator.go:139-155 | a first run leaves caches that keep their invariant, and a success is a node stamped with the spec version |
| Generation.SubGenerate | generator/generator.go:158-173 | a later run forgets the object caches and keeps the simple-type cache |
| Generation.SubGenerateForgetsObjects | generator/generator.go:164-165 | a later run depends on earlier runs only through the simple-type cache |
| Generation.DefKeyFromPath | generator/generator.go:88-98 | a non-type path gives ""; a type path gives an escaped key without `.` or `/` |
| Generation.DefKeyFromPathAgrees | generator/generator.go:88-98 | a type path gives the same key that the generator computes for the declaration it names |
| Cli.GetLogLevel | cmd/root.go:108-122 | quiet wins, then verbose, then debug, else info, each as an if-and-only-if |
| Cli.IsIdent | cmd/root.go:289-300 | the loop accepts exactly the names that the generator's identifier test accepts |
| Cli.IsPackageString | cmd/root.go:302-313 | a package string neither starts nor ends with `/` |
| Cli.CheckArgs | cmd/root.go:134-155 | fewer than two arguments shows usage; a bad package or type name is an error naming it; otherwise a run with options from the flags |
| Cli.UnescapeKey | cmd/root.go:318-319 | `_` becomes `.` and `-` becomes `/`, position by position; on a key without `.` or `/`, the generator's escaping undoes it |
| Cli.RefToPackageAndType | cmd/root.go:315-326 | crashes exactly when the unescaped key has no `/`; otherwise splits at the last `/` |
| Cli.RefToPackageAndTypeInvertsEscape | cmd/root.go:315-326 | the key of a package and type name without `_` or `-` splits back into that package and type |
| Cli.RefToFilename | cmd/root.go:328-338 | the file name ends in `.json` and has no `.` or `/` before it; a reference without `#/definitions/` is kept rune by rune with `.` turned into `_` and `/` into `-`, and five runes (`.json`) appended |
| Cli.RootFilename | cmd/root.go:198 | the root schema's file for the package type path `<base package>/<root type>` is the definition key the generator gives that path, plus `.json` |
| Cli.KeyFilename | cmd/root.go:260 | a definitions-map key, which has no `.` or `/`, names the file `<key>.json` |
| Cli.DefinitionFile | cmd/root.go:328-338 | the reference `#/definitions/<key>` gives the file `<key>.json` |
| Cli.BreaksToSpaces | cmd/root.go:343-346 | `_`, `-`, `.` and `/` become spaces, position by position |
| Cli.RefToVarName | cmd/root.go:340-359 | the variable name has no word breaks or spaces, and is no longer than the reference without its prefix |
| Cli.RefToVarNameIsCamelJoin | cmd/root.go:340-359 | the variable name is the reference, without `#/definitions/`, with `_ - . /` and spaces dropped and each word's first rune title-cased |
| Cli.VarNameOfKey | cmd/root.go:340-359 | a definition reference `#/definitions/<key>` becomes its key joined in camel case, e.g. `p/T` becomes `PT` |
| Cli.PackageFromOutputDir | cmd/root.go:361-364 | the last path segment of the directory, ignoring a trailing slash |
| Codec.MarshalBoolOrSchema | schema/schema_object.go:32-41 | a BoolOrSchema is written as its schema when it has one, else as its boolean |
| Codec.UnmarshalBoolOrSchema | schema/schema_object.go:44-56 | any JSON other than an object reads as a boolean that is false only for `false`; an object is an error |
| Codec.ReadString | schema/jsonschema.go:123-134 | an absent key reads as ""; a string reads as itself; any other value crashes the type assertion |
| Codec.ReadBool | schema/schema_numeric.go:41-71 | an absent key reads as false; a boolean reads as itself; any other value crashes |
| Codec.ReadReal | schema/schema_numeric.go:41-71 | an absent key reads as 0; a number reads as itself; any other value crashes |
| Codec.Trunc | schema/schema_object.go:124 | `int64(float64)` truncates toward zero |
| Codec.ReadInt | schema/schema_object.go:123-126 | an integer field is the truncated number |
| Codec.ReadStrings | schema/schema_object.go:142-145 | a list of strings reads back exactly when every item is a string, and re-encodes to the same list |
| Codec.FromJson | schema/jsonschema.go:56-96 | `null` is the nil schema; any other non-object document is the json.Unmarshal error naming its kind (bool, number, string, array) |
| Codec.DecodeTyped | schema/jsonschema.go:68-87 | "string" gives a string node, "array" an array node, "integer" and "number" a numeric node, "boolean" a simple node, any other type nothing |
| Codec.DecodeCore | schema/jsonschema.go:109-203 | the basic layer never carries a default (the decoder has no `default` case) |
| Codec.ReadRequired | schema/schema_object.go:142-145 | an absent list reads as empty; a list read back re-encodes to the stored value |
| Codec.DecodeObject | schema/schema_object.go:104-152 | corrected: the basic layer is the common decoder's and its error is returned; the bounds are the integer parts of the document's numbers; properties, required names and additionalProperties are what their readers decode; no Go path and no suppression flag, since neither is read back |
| Codec.AdditionalPropertiesAsWritten | schema/schema_object.go:127-128 | as written: present exactly when the key is present, never a schema, and `true` only for `true` |
| Codec.SimpleLayerAsWritten | schema/schema_simple.go:26-49 | as written: an error in the basic layer is overwritten by the second unmarshal, leaving a nil basic layer |
| Codec.ReadDictIntoNil | schema/schema_object.go:129-140 | as written, after a failed basic layer: only an empty properties map reads without writing into the nil map |
| Codec.ObjectAsWritten | schema/schema_object.go:104-152 | as written: the basic layer is missing exactly when it failed, and additionalProperties is read as written |
| CodecLaws.EmitGet | schema/jsonschema.go:40-53 | the encoder writes each listed field under its own JSON name, and only present fields |
| CodecLaws.FieldOfEncoding | schema/jsonschema.go:40-53 | every JSON key of an encoded node holds exactly that field's value, or is absent when the field is omitted |
| CodecLaws.FieldsOfEncoding | schema/jsonschema.go:40-53 | FieldOfEncoding for every field at once |
| Codec.ToJson | schema/jsonschema.go:40-53 | `json.Marshal` writes a nil node as `null` and any other node as a JSON object |
| Codec.DecodeSimple | schema/schema_simple.go:26-49 | corrected: the basic layer is the common decoder's and its error is returned; the format is the document's string, or empty when absent |
| Codec.DecodeString | schema/schema_string.go:35-62 | corrected (through the simple decoder, whose as-written half is Codec.SimpleLayerAsWritten under Findings): the basic layer as for DecodeSimple; pattern is the document's string, and maxLength and minLength the integer parts of its numbers, each zero when absent |
| Codec.DecodeNumeric | schema/schema_numeric.go:41-69 | corrected (through the simple decoder, whose as-written half is Codec.SimpleLayerAsWritten under Findings): the basic layer as for DecodeSimple; the bounds and multipleOf are the document's numbers and both exclusive flags its booleans, each zero or false when absent |
| Codec.DecodeArray | schema/schema_array.go:39-76 | the basic layer is the common decoder's and its error is returned; the items are FromJSON of the `items` value, and a null `items` crashes; maxItems and minItems are the integer parts of the document's numbers, and both flags its booleans, each zero or false when absent |
| Codec.ReadItems | schema/schema_array.go:54-62 | a null `items` crashes on the interface conversion; any other value is decoded as a nested schema, and an absent one is nil |
| Codec.DecodeSimpleLayer | schema/schema_simple.go:26-49 | corrected: the basic layer is the common decoder's and its error is returned; the format is the document's string, or empty when absent |
| Codec.ReadAdditionalProperties | schema/schema_object.go:127-128 | corrected: absent gives none, a boolean is kept without a schema, an object is decoded as a schema (its error returned), and any other value gives false without a schema |
| CodecLaws.EncodingOmitsEmpty | schema/jsonschema.go:44-51 | `omitempty`: title, definitions and required are absent exactly when empty |
| CodecLaws.EncodingOmitsZero | schema/schema_string.go:21-25 | `omitempty`: maxLength is absent exactly when 0, exclusiveMaximum exactly when false, and only objects write additionalProperties |
| CodecLaws.MapSchemaEncoding | schema/schema_map.go:4-9 | a map node is written with `"type": "object"` and `"additionalProperties": true` |
| CodecLaws.FromJsonDispatch | schema/jsonschema.go:68-94 | `$ref` wins over a scalar type, while an object type is decoded as an object even with `$ref` |
| CodecLaws.DecodeListSpec | schema/jsonschema.go:135-146 | an allOf list decodes exactly when every item decodes, item by item in order |
| CodecLaws.DecodeDictSpec | schema/jsonschema.go:184-195 | every definition decodes under its own key, and the other keys are untouched |
| CodecLaws.RoundTrip | schema/jsonschema.go:56-96 | decoding the encoding of a canonical schema gives back the same schema |
| CodecLaws.ListRoundTrip | schema/jsonschema.go:135-146 | a list of canonical schemas round-trips |
| CodecLaws.DictRoundTrip | schema/jsonschema.go:184-195 | a map of canonical schemas round-trips, entries in order |
| CodecLaws.CoreRoundTrip | schema/jsonschema.go:109-203 | the basic layer of a canonical node round-trips |
| CodecLaws.BasicRoundTrip | schema/jsonschema.go:89-92 | a reference node round-trips through the `$ref` case |
| CodecLaws.SimpleRoundTrip | schema/schema_simple.go:26-49 | a simple node with its format round-trips |
| CodecLaws.StrRoundTrip | schema/schema_string.go:35-62 | a string node with its pattern and lengths round-trips |
| CodecLaws.NumericRoundTrip | schema/schema_numeric.go:41-71 | a numeric node with its bounds and flags round-trips |
| CodecLaws.ArrayRoundTrip | schema/schema_array.go:39-77 | an array node with its items and bounds round-trips |
| CodecLaws.ObjectRoundTrip | schema/schema_object.go:104-152 | an object node with its properties, required names, bounds and additionalProperties round-trips through the corrected decoder |
| CodecLaws.BoolOrSchemaBoolRoundTrip | schema/schema_object.go:32-56 | a BoolOrSchema without a schema round-trips |
| CodecLaws.SchemaAdditionalPropertiesLost | schema/schema_object.go:127-128 | as written, an additionalProperties schema reads back as `false` without a schema |
| CodecLaws.SimpleLayerSwallowsError | schema/schema_simple.go:30-37 | as written, `{"not": "x"}` decodes without error to a nil basic layer, although the basic layer fails |
| CodecLaws.SimpleLayerKeepsError | schema/schema_simple.go:30-37 | corrected: a failing basic layer fails the simple decoder with the same error |
| CodecLaws.ObjectSwallowsError | schema/schema_object.go:108-118 | as written, `{"not": "x"}` decodes to an object node without a basic layer, while the corrected decoder reports the error |
| CodecLaws.ObjectKeepsError | schema/schema_object.go:108-118 | corrected: a failing basic layer fails the object decoder with the same error |

## Left out

- Loading the program (`loadProgram`, go/loader, `IncludeTests`): the loaded program is an input value (`Decls.Program`), so the packages, files and declarations are given.
- The annotation parser (ganno) and `doc.Synopsis`: the parsed annotations of a comment, and the synopsis, are inputs. `strconv.ParseFloat`, `isSelfRef` and `ensureProperTypeForInterfaceField` are not part of this model. They are uninterpreted functions in `Host.Foreign`.
- Logging, timing, `writeSchemaFiles` and the cobra command set-up are I/O and are not modelled. `Cli.CheckArgs` returns "show usage" where the program prints usage and exits.
- Go map iteration order: every map is an association list read in insertion order. For the annotation validator the order is a parameter, and `Annotation.ValidateIgnoresOrder` shows it does not matter. For decoding, a document with several malformed keys reports the first failure in the order of the switch cases.
- Byte-level JSON is not modelled: documents are trees, and member order and duplicate keys are not represented. Numbers are reals, without float64 rounding. Integer fields are unbounded apart from the explicit truncation in `Codec.ReadInt`.
- Runes.ToTitle: exact only for Latin-1; every rune above U+00FF is classed as not a letter, not a digit and not a space.
- Fuel: `fuel` bounds the recursion, so a run that would recurse forever in Go ends in `OutOfFuel` here. Such runs are a struct whose field is an inline anonymous struct (it regenerates its owner), `type Node struct{ Children []*Node }` (the array element is generated without its field, so the `*Owner` self-reference test never applies), and two structs pointing at each other (`A{ B *B }`, `B{ A *A }`). All recurse because an object is cached only after its field loop. Properties are stated for results that are not `OutOfFuel`.
- The per-field and per-declaration annotation caches: they only memoise a pure computation, so `FieldAnno` and `DeclAnno` recompute.
- `Clone` is the identity: schema values cannot be shared, so a copy cannot be observed.
- SchemaAttrs.DocParts: the comment is sliced after the synopsis by counting runes; the program counts the synopsis's UTF-8 bytes, which differs when `doc.Synopsis` collapsed white space before a non-ASCII rune, and can split a rune. The same slice is made in SchemaAttrs.ObjectTitleAndDescription and SchemaAttrs.FieldDocOverride.
- Generator.GenEmbeddedDecl: the error shows the embedded type as Go source text, where the program formats the syntax node with `%#v`, whose pointers and positions are not modelled.
- Codec.DecodeCore: `default` is not read back, because the Go decoder has no `default` case; round trips are stated for schemas without a default.
- CodecLaws.RoundTrip: the Go path (`x-go-path`) and the suppress flag are not read back by Go either. The round trip is stated for objects with an empty Go path, and for additionalProperties either absent, `false` or `true`, or holding a non-boolean schema.
- Codec.UnmarshalBoolOrSchema: an object fails with the encoding/json type error. Decoding a schema inside BoolOrSchema needs an interface value that Go cannot allocate.
- Generator.GenExpr: the `parentKey` argument is dropped, because it is only passed along; so is the unused `field` argument of `generateObjectSchema`.
- Generator.GenAlias: an alias of a built-in type without an annotation crashes in Go (see Findings); the generator uses the corrected PopulateAlias, which keeps the built-in node.
- Generator.AddCommonAttrsItems: states a keyword's list as the path loop's result from the caches addCommonAttrs has reached; what item `j` of it is comes from Generator.PathsItemAt applied to that result, not from one lemma about addCommonAttrs.
- Generator.FieldsProperties: with an embedded field, the required list is only stated to extend the one the loop started from (OnlyRequiredGrows). Which names it gains, in what order, and the values of properties that come from an embedded struct depend on the embedded struct's own generation, and are not stated.
- GoStrconv.QuoteRune: `strconv.Quote` is exact for Latin-1; every rune above U+00FF is treated as printable and written unchanged.
- The inline struct type of a field (`struct{...}` as a field type) is generated as the owner declaration's object, as in Go; the model does not separate the two.

## Findings

| source | as written | input that shows it | evidently intended | confidence | as-written member | corrected member |
|---|---|---|---|---|---|---|
| generator/generator.go:405-416 | `populateStringAttrs` / `populateNumericAttrs` dereference the declaration's annotation even when it is nil | `type S string` without a doc comment, used as a field type | an alias without an annotation keeps the built-in node | high, not executed | Generator.PopulateAliasAsWritten | Generator.PopulateAlias |
| schema/schema_simple.go:30-37 | the error of the basic-layer unmarshal is overwritten by the second `json.Unmarshal`, leaving a nil basic layer | the members `{"not": "x"}` given to the simple decoder, or to the string or numeric decoder, which run it first | the basic-layer error is returned | high, not executed | Codec.SimpleLayerAsWritten | Codec.DecodeSimpleLayer |
| schema/schema_object.go:108-118 | the same overwrite in the object decoder; `Properties` then stays a nil map, and a later `"properties"` entry panics on assignment | the members `{"not": "x"}` given to the object decoder | the basic-layer error is returned | high, not executed | Codec.ObjectAsWritten | Codec.DecodeObject |
| schema/schema_object.go:127-128 | `NewBoolOrSchema(v)` with a decoded map is neither a bool nor a JSONSchema, so a schema under `additionalProperties` reads back as `false` | `{"type": "object", "additionalProperties": {"type": "string"}}` | the nested schema is decoded | medium, not executed | Codec.AdditionalPropertiesAsWritten | Codec.ReadAdditionalProperties |

The rows are shown by these lemmas:

- PopulateAliasAsWritten: Generator.AliasWithoutAnnotationCrashes.
- SimpleLayerAsWritten: CodecLaws.SimpleLayerSwallowsError and CodecLaws.SimpleLayerKeepsError. In Go the string and numeric decoders run the simple decoder for their embedded simple schema, so they inherit the swallowed error; the model's Codec.DecodeString and Codec.DecodeNumeric call the corrected Codec.DecodeSimpleLayer, and their "corrected" rows refer to this row's as-written half.
- ObjectAsWritten: CodecLaws.ObjectSwallowsError and CodecLaws.ObjectKeepsError.
- AdditionalPropertiesAsWritten: CodecLaws.SchemaAdditionalPropertiesLost. The corrected ReadAdditionalProperties is what CodecLaws.RoundTrip relies on.

## Notes on the code

- A later `SubGenerate` keeps the simple-type cache; only the global and embedded caches are reset (generator/generator.go:164-165).
- A bare identifier is looked up in the built-in table before the owner's package (generator/generator.go:379-386).
- A rejected field annotation does not always fail generation. It fails string, numeric and array fields, through their attribute readers. It is ignored for the common attributes, the docs and `required`.

=== FILE: annotation.dfy ===
/** The `@jsonSchema(...)` annotation: its record of typed attributes, the validator that
    turns the parser's attribute map into that record, and the lookup of the annotation
    of a doc comment. */
module Annotation {
  import opened Results
  import opened Dict
  import opened GoStrconv
  import opened Decls
  import opened TypeHelper
  import opened Host

  /** The additionalProperties attribute: a boolean, or a type path / JSON type name. */
  datatype BoolOrPath = BoolOrPath(isBool: bool, boolean: bool, path: string)

  /** The attributes the validator knows, one per case of its switch. */
  datatype AttrKey =
    Required
    | Id
    | Description
    | Definition
    | Title
    | Format
    | Default
    | Maximum
    | ExclusiveMaximum
    | Minimum
    | ExclusiveMinimum
    | MaxLength
    | MinLength
    | Pattern
    | MaxItems
    | MinItems
    | UniqueItems
    | MultipleOf
    | MaxProperties
    | MinProperties
    | Enum
    | AllOf
    | AnyOf
    | OneOf
    | Type
    | Not
    | AdditionalProperties
    | AdditionalItems

  /** Every attribute key. */
  const AllKeys: set<AttrKey> := {Required, Id, Description, Definition, Title, Format, Default, Maximum, ExclusiveMaximum, Minimum, ExclusiveMinimum, MaxLength, MinLength, Pattern, MaxItems, MinItems, UniqueItems, MultipleOf, MaxProperties, MinProperties, Enum, AllOf, AnyOf, OneOf, Type, Not, AdditionalProperties, AdditionalItems}

  lemma AllKeysComplete(key: AttrKey)
    ensures key in AllKeys
  {
  }

  /** The attribute name as the parser hands it over (lower case). */
  function KeyName(key: AttrKey): string {
    match key
    case Required => "required"
    case Id => "id"
    case Description => "description"
    case Definition => "definition"
    case Title => "title"
    case Format => "format"
    case Default => "default"
    case Maximum => "maximum"
    case ExclusiveMaximum => "exclusivemaximum"
    case Minimum => "minimum"
    case ExclusiveMinimum => "exclusiveminimum"
    case MaxLength => "maxlength"
    case MinLength => "minlength"
    case Pattern => "pattern"
    case MaxItems => "maxitems"
    case MinItems => "minitems"
    case UniqueItems => "uniqueitems"
    case MultipleOf => "multipleof"
    case MaxProperties => "maxproperties"
    case MinProperties => "minproperties"
    case Enum => "enum"
    case AllOf => "allof"
    case AnyOf => "anyof"
    case OneOf => "oneof"
    case Type => "type"
    case Not => "not"
    case AdditionalProperties => "additionalproperties"
    case AdditionalItems => "additionalitems"
  }

  /** The case of the switch an attribute name selects, if any. */
  function ParseKey(k: string): Option<AttrKey> {
    match k
    case "required" => Some(Required)
    case "id" => Some(Id)
    case "description" => Some(Description)
    case "definition" => Some(Definition)
    case "title" => Some(Title)
    case "format" => Some(Format)
    case "default" => Some(Default)
    case "maximum" => Some(Maximum)
    case "exclusivemaximum" => Some(ExclusiveMaximum)
    case "minimum" => Some(Minimum)
    case "exclusiveminimum" => Some(ExclusiveMinimum)
    case "maxlength" => Some(MaxLength)
    case "minlength" => Some(MinLength)
    case "pattern" => Some(Pattern)
    case "maxitems" => Some(MaxItems)
    case "minitems" => Some(MinItems)
    case "uniqueitems" => Some(UniqueItems)
    case "multipleof" => Some(MultipleOf)
    case "maxproperties" => Some(MaxProperties)
    case "minproperties" => Some(MinProperties)
    case "enum" => Some(Enum)
    case "allof" => Some(AllOf)
    case "anyof" => Some(AnyOf)
    case "oneof" => Some(OneOf)
    case "type" => Some(Type)
    case "not" => Some(Not)
    case "additionalproperties" => Some(AdditionalProperties)
    case "additionalitems" => Some(AdditionalItems)
    case _ => None
  }

  /** A name selects only the attribute it names. */
  lemma ParseKeySound(k: string)
    ensures ParseKey(k).Some? ==> KeyName(ParseKey(k).value) == k
  {
  }

  /** Every known attribute is selected by its own name. */
  lemma ParseKeyName(key: AttrKey)
    ensures ParseKey(KeyName(key)) == Some(key)
  {
  }

  /** The attributes whose value lists are read element by element; the others read
      only their first value. */
  predicate ListValued(key: AttrKey) {
    key.Enum? || key.AllOf? || key.AnyOf? || key.OneOf? || key.Type?
  }

  /** A validated attribute value, typed as the field it fills. */
  datatype AttrValue =
    | BoolValue(b: bool)
    | IntValue(i: int)
    | RealValue(r: real)
    | TextValue(s: string)
    | ListValue(items: seq<string>)
    | PropsValue(p: BoolOrPath)

  /** The validated annotation.  Each field of the program's record is the entry for its
      attribute; an attribute without an entry holds its zero value (false, 0, "", an empty
      list, no additionalProperties), which is what the record starts with. */
  datatype SchemaAnno = SchemaAnno(values: map<AttrKey, AttrValue>)
  {
    function Bool(key: AttrKey): bool {
      key in values && values[key].BoolValue? && values[key].b
    }

    function Int(key: AttrKey): int {
      if key in values && values[key].IntValue? then values[key].i else 0
    }

    function Real(key: AttrKey): real {
      if key in values && values[key].RealValue? then values[key].r else 0.0
    }

    function Text(key: AttrKey): string {
      if key in values && values[key].TextValue? then values[key].s else ""
    }

    function List(key: AttrKey): seq<string> {
      if key in values && values[key].ListValue? then values[key].items else []
    }

    function Props(): Option<BoolOrPath> {
      if AttrKey.AdditionalProperties in values && values[AttrKey.AdditionalProperties].PropsValue?
      then Some(values[AttrKey.AdditionalProperties].p)
      else None
    }
  }

  /** The record validation starts from: every field at its zero value. */
  const Fresh: SchemaAnno := SchemaAnno(map[])

  /** An allOf/anyOf/oneOf item: a self reference, an identifier or a package type path. */
  predicate ValidRef(ext: Foreign, item: string) {
    ext.isSelfRef(item) || IsIdent(item) || IsPackageType(item)
  }

  // ----- the validator, as the program runs it -----

  /** v[0], which crashes the program when the value list is empty. */
  function FirstValue(v: seq<string>): (r: Result<string>)
    ensures r.Ok? <==> |v| > 0
    ensures r.Ok? ==> r.value == v[0]
    ensures r.Fail? ==> r.failure.Panic?
  {
    if |v| == 0 then Fail(Panic("index out of range")) else Ok(v[0])
  }

  function SettingError(name: string, reason: string): Failure {
    Error("error setting @jsonSchema '" + name + "': " + reason)
  }

  /** A boolean attribute: its first value as strconv.ParseBool reads it. */
  function BoolAttr(name: string, v: seq<string>): (r: Result<bool>)
    ensures |v| == 0 ==> r.Fail? && r.failure.Panic?
    ensures |v| > 0 && ParseBool(v[0]).Some? ==> r == Ok(ParseBool(v[0]).value)
    ensures |v| > 0 && ParseBool(v[0]).None? ==>
      r == Fail(SettingError(name, NumErrorText("ParseBool", v[0], ErrSyntax)))
  {
    var s :- FirstValue(v);
    match ParseBool(s)
    case Some(b) => Ok(b)
    case None => Fail(SettingError(name, NumErrorText("ParseBool", s, ErrSyntax)))
  }

  /** An integer attribute: its first value as strconv.ParseInt(s, 10, 64) reads it. */
  function IntAttr(name: string, v: seq<string>): (r: Result<int>)
    ensures |v| == 0 ==> r.Fail? && r.failure.Panic?
    ensures |v| > 0 && IntSyntax(v[0]) && IsInt64(SignedValue(v[0])) ==> r == Ok(SignedValue(v[0]))
    ensures |v| > 0 && !IntSyntax(v[0]) && DigitsValue(DigitRun(Unsigned(v[0]))) <= Uint64Max ==>
      r == Fail(SettingError(name, NumErrorText("ParseInt", v[0], ErrSyntax)))
    ensures |v| > 0 && IntSyntax(v[0]) && !IsInt64(SignedValue(v[0])) ==>
      r == Fail(SettingError(name, NumErrorText("ParseInt", v[0], ErrRange)))
  {
    var s :- FirstValue(v);
    match ParseInt64(s)
    case Num(i) => Ok(i)
    case NumFail(e) => Fail(SettingError(name, NumErrorText("ParseInt", s, e)))
  }

  /** A number attribute: its first value as strconv.ParseFloat(s, 64) reads it. */
  function FloatAttr(ext: Foreign, name: string, v: seq<string>): (r: Result<real>)
    ensures |v| == 0 ==> r.Fail? && r.failure.Panic?
    ensures |v| > 0 && ext.parseFloat(v[0]).Num? ==> r == Ok(ext.parseFloat(v[0]).value)
    ensures |v| > 0 && ext.parseFloat(v[0]).NumFail? ==>
      r == Fail(SettingError(name, NumErrorText("ParseFloat", v[0], ext.parseFloat(v[0]).err)))
  {
    var s :- FirstValue(v);
    match ext.parseFloat(s)
    case Num(f) => Ok(f)
    case NumFail(e) => Fail(SettingError(name, NumErrorText("ParseFloat", s, e)))
  }

  /** The items of an allOf/anyOf/oneOf list: all of them, or an error naming the first bad one. */
  function RefItems(ext: Foreign, name: string, v: seq<string>): (r: Result<seq<string>>)
    ensures r.Ok? <==> forall i :: 0 <= i < |v| ==> ValidRef(ext, v[i])
    ensures r.Ok? ==> r.value == v
    ensures r.Fail? ==> r.failure.Error?
  {
    if |v| == 0 then Ok([])
    else if !ValidRef(ext, v[0]) then
      Fail(SettingError(name, "'" + v[0] + "' is not a valid ident or type selector"))
    else
      var rest :- RefItems(ext, name, v[1..]);
      assert v == [v[0]] + v[1..];
      Ok([v[0]] + rest)
  }

  /** The items of a type list: all of them, or an error naming the first non-JSON type. */
  function TypeItems(v: seq<string>): (r: Result<seq<string>>)
    ensures r.Ok? <==> forall i :: 0 <= i < |v| ==> IsJsonType(v[i])
    ensures r.Ok? ==> r.value == v
    ensures r.Fail? ==> r.failure.Error?
  {
    if |v| == 0 then Ok([])
    else if !IsJsonType(v[0]) then
      Fail(SettingError("type", "'" + v[0] + "' is not a valid JSON type"))
    else
      var rest :- TypeItems(v[1..]);
      assert v == [v[0]] + v[1..];
      Ok([v[0]] + rest)
  }

  /** The checking half of a case of ValidateAndCreate's switch: the attribute's value,
      converted to its field's type, or the error the case returns. */
  function ParseValue(ext: Foreign, key: AttrKey, v: seq<string>): Result<AttrValue> {
    match key
    case Required => var b :- BoolAttr("required", v); Ok(BoolValue(b))
    case Id => var s :- FirstValue(v); Ok(TextValue(s))
    case Description => var s :- FirstValue(v); Ok(TextValue(s))
    case Definition => var s :- FirstValue(v); Ok(TextValue(s))
    case Title => var s :- FirstValue(v); Ok(TextValue(s))
    case Format => var s :- FirstValue(v); Ok(TextValue(s))
    case Default => var s :- FirstValue(v); Ok(TextValue(s))
    case Maximum => var f :- FloatAttr(ext, "maximum", v); Ok(RealValue(f))
    case ExclusiveMaximum => var b :- BoolAttr("exclusiveMaximum", v); Ok(BoolValue(b))
    case Minimum => var f :- FloatAttr(ext, "minimum", v); Ok(RealValue(f))
    case ExclusiveMinimum => var b :- BoolAttr("exclusiveMinimum", v); Ok(BoolValue(b))
    case MaxLength => var i :- IntAttr("maxLength", v); Ok(IntValue(i))
    case MinLength => var i :- IntAttr("minLength", v); Ok(IntValue(i))
    case Pattern => var s :- FirstValue(v); Ok(TextValue(s))
    case MaxItems => var i :- IntAttr("maxItems", v); Ok(IntValue(i))
    case MinItems => var i :- IntAttr("minItems", v); Ok(IntValue(i))
    case UniqueItems => var b :- BoolAttr("uniqueItems", v); Ok(BoolValue(b))
    case MultipleOf => var f :- FloatAttr(ext, "multipleOf", v); Ok(RealValue(f))
    case MaxProperties => var i :- IntAttr("maxProperties", v); Ok(IntValue(i))
    case MinProperties => var i :- IntAttr("minProperties", v); Ok(IntValue(i))
    case Enum => Ok(ListValue(v))
    case AllOf => var items :- RefItems(ext, "allOf", v); Ok(ListValue(items))
    case AnyOf => var items :- RefItems(ext, "anyOf", v); Ok(ListValue(items))
    case OneOf => var items :- RefItems(ext, "oneOf", v); Ok(ListValue(items))
    case Type => var items :- TypeItems(v); Ok(ListValue(items))
    case Not => 
      var s :- FirstValue(v);
      if IsIdent(s) || IsPackageType(s) then Ok(TextValue(s))
      else Fail(SettingError("not", "'" + s + "' is not a valid ident or type selector"))
    case AdditionalProperties => 
      var s :- FirstValue(v);
      if ParseBool(s).Some? then Ok(PropsValue(BoolOrPath(true, ParseBool(s).value, "")))
      else if IsPackageType(s) || IsJsonType(s) then Ok(PropsValue(BoolOrPath(false, false, s)))
      else Fail(SettingError("additionalProperties", "must be a bool, jsonType, or typePath"))
    case AdditionalItems => var b :- BoolAttr("additionalItems", v); Ok(BoolValue(b))
  }

  /** The storing half of a case: strings are stored only when non-empty, list items are
      appended to what the field holds, everything else overwrites the field. */
  function Store(a: SchemaAnno, key: AttrKey, x: AttrValue): SchemaAnno {
    match x
    case TextValue(s) => if s != "" then SchemaAnno(a.values[key := x]) else a
    case ListValue(items) => SchemaAnno(a.values[key := ListValue(a.List(key) + items)])
    case _ => SchemaAnno(a.values[key := x])
  }

  /** One turn of the validation loop; an unknown name is an error. */
  function ApplyAttr(ext: Foreign, a: SchemaAnno, k: string, v: seq<string>): Result<SchemaAnno> {
    match ParseKey(k)
    case Some(key) => var x :- ParseValue(ext, key, v); Ok(Store(a, key, x))
    case None => Fail(Error("unknown @jsonSchema attribute '" + k + "'"))
  }

  /** The validation loop from entry `i` on, in the order the map is iterated. */
  function ValidateFrom(ext: Foreign, attrs: Attrs, i: nat, acc: SchemaAnno): Result<SchemaAnno>
    decreases |attrs| - i
  {
    if i >= |attrs| then Ok(acc)
    else
      var a :- ApplyAttr(ext, acc, attrs[i].key, attrs[i].val);
      ValidateFrom(ext, attrs, i + 1, a)
  }

  // ----- what each attribute must satisfy and what it contributes -----

  /** The value list of a known attribute passes that attribute's check. */
  predicate KeyOk(ext: Foreign, key: AttrKey, v: seq<string>) {
    match key
    case Required => |v| > 0 && ParseBool(v[0]).Some?
    case Id => |v| > 0
    case Description => |v| > 0
    case Definition => |v| > 0
    case Title => |v| > 0
    case Format => |v| > 0
    case Default => |v| > 0
    case Maximum => |v| > 0 && ext.parseFloat(v[0]).Num?
    case ExclusiveMaximum => |v| > 0 && ParseBool(v[0]).Some?
    case Minimum => |v| > 0 && ext.parseFloat(v[0]).Num?
    case ExclusiveMinimum => |v| > 0 && ParseBool(v[0]).Some?
    case MaxLength => |v| > 0 && ParseInt64(v[0]).Num?
    case MinLength => |v| > 0 && ParseInt64(v[0]).Num?
    case Pattern => |v| > 0
    case MaxItems => |v| > 0 && ParseInt64(v[0]).Num?
    case MinItems => |v| > 0 && ParseInt64(v[0]).Num?
    case UniqueItems => |v| > 0 && ParseBool(v[0]).Some?
    case MultipleOf => |v| > 0 && ext.parseFloat(v[0]).Num?
    case MaxProperties => |v| > 0 && ParseInt64(v[0]).Num?
    case MinProperties => |v| > 0 && ParseInt64(v[0]).Num?
    case Enum => true
    case AllOf => forall i :: 0 <= i < |v| ==> ValidRef(ext, v[i])
    case AnyOf => forall i :: 0 <= i < |v| ==> ValidRef(ext, v[i])
    case OneOf => forall i :: 0 <= i < |v| ==> ValidRef(ext, v[i])
    case Type => forall i :: 0 <= i < |v| ==> IsJsonType(v[i])
    case Not => |v| > 0 && (IsIdent(v[0]) || IsPackageType(v[0]))
    case AdditionalProperties => |v| > 0 && (ParseBool(v[0]).Some? || IsPackageType(v[0]) || IsJsonType(v[0]))
    case AdditionalItems => |v| > 0 && ParseBool(v[0]).Some?
  }

  /** The value an accepted attribute describes: its first value, converted to its field's
      type, or its whole list. */
  function Described(ext: Foreign, key: AttrKey, v: seq<string>): AttrValue
    requires KeyOk(ext, key, v)
  {
    if ListValued(key) then ListValue(v)
    else if key.Required? || key.ExclusiveMaximum? || key.ExclusiveMinimum? || key.UniqueItems? || key.AdditionalItems? then
      BoolValue(ParseBool(v[0]).value)
    else if key.Maximum? || key.Minimum? || key.MultipleOf? then RealValue(ext.parseFloat(v[0]).value)
    else if key.MaxLength? || key.MinLength? || key.MaxItems? || key.MinItems? || key.MaxProperties? || key.MinProperties? then
      IntValue(ParseInt64(v[0]).value)
    else if key.AdditionalProperties? then
      PropsValue(if ParseBool(v[0]).Some? then BoolOrPath(true, ParseBool(v[0]).value, "") else BoolOrPath(false, false, v[0]))
    else TextValue(v[0])
  }

  lemma ParseOutcome0(ext: Foreign, key: AttrKey, v: seq<string>)
    requires key.Required? || key.Id?
    ensures ParseValue(ext, key, v).Ok? <==> KeyOk(ext, key, v)
    ensures ParseValue(ext, key, v).Fail? && (ListValued(key) || |v| > 0) ==> ParseValue(ext, key, v).failure.Error?
    ensures ParseValue(ext, key, v).Ok? ==> ParseValue(ext, key, v).value == Described(ext, key, v)
  {
  }

  lemma ParseOutcome1(ext: Foreign, key: AttrKey, v: seq<string>)
    requires key.Description? || key.Definition?
    ensures ParseValue(ext, key, v).Ok? <==> KeyOk(ext, key, v)
    ensures ParseValue(ext, key, v).Fail? && (ListValued(key) || |v| > 0) ==> ParseValue(ext, key, v).failure.Error?
    ensures ParseValue(ext, key, v).Ok? ==> ParseValue(ext, key, v).value == Described(ext, key, v)
  {
  }

  lemma ParseOutcome2(ext: Foreign, key: AttrKey, v: seq<string>)
    requires key.Title? || key.Format?
    ensures ParseValue(ext, key, v).Ok? <==> KeyOk(ext, key, v)
    ensures ParseValue(ext, key, v).Fail? && (ListValued(key) || |v| > 0) ==> ParseValue(ext, key, v).failure.Error?
    ensures ParseValue(ext, key, v).Ok? ==> ParseValue(ext, key, v).value == Described(ext, key, v)
  {
  }

  lemma ParseOutcome3(ext: Foreign, key: AttrKey, v: seq<string>)
    requires key.Default? || key.Maximum?
    ensures ParseValue(ext, key, v).Ok? <==> KeyOk(ext, key, v)
    ensures ParseValue(ext, key, v).Fail? && (ListValued(key) || |v| > 0) ==> ParseValue(ext, key, v).failure.Error?
    ensures ParseValue(ext, key, v).Ok? ==> ParseValue(ext, key, v).value == Described(ext, key, v)
  {
  }

  lemma ParseOutcome4(ext: Foreign, key: AttrKey, v: seq<string>)
    requires key.ExclusiveMaximum? || key.Minimum?
    ensures ParseValue(ext, key, v).Ok? <==> KeyOk(ext, key, v)
    ensures ParseValue(ext, key, v).Fail? && (ListValued(key) || |v| > 0) ==> ParseValue(ext, key, v).failure.Error?
    ensures ParseValue(ext, key, v).Ok? ==> ParseValue(ext, key, v).value == Described(ext, key, v)
  {
  }

  lemma ParseOutcome5(ext: Foreign, key: AttrKey, v: seq<string>)
    requires key.ExclusiveMinimum? || key.MaxLength?
    ensures ParseValue(ext, key, v).Ok? <==> KeyOk(ext, key, v)
    ensures ParseValue(ext, key, v).Fail? && (ListValued(key) || |v| > 0) ==> ParseValue(ext, key, v).failure.Error?
    ensures ParseValue(ext, key, v).Ok? ==> ParseValue(ext, key, v).value == Described(ext, key, v)
  {
  }

  lemma ParseOutcome6(ext: Foreign, key: AttrKey, v: seq<string>)
    requires key.MinLength? || key.Pattern?
    ensures ParseValue(ext, key, v).Ok? <==> KeyOk(ext, key, v)
    ensures ParseValue(ext, key, v).Fail? && (ListValued(key) || |v| > 0) ==> ParseValue(ext, key, v).failure.Error?
    ensures ParseValue(ext, key, v).Ok? ==> ParseValue(ext, key, v).value == Described(ext, key, v)
  {
  }

  lemma ParseOutcome7(ext: Foreign, key: AttrKey, v: seq<string>)
    requires key.MaxItems? || key.MinItems?
    ensures ParseValue(ext, key, v).Ok? <==> KeyOk(ext, key, v)
    ensures ParseValue(ext, key, v).Fail? && (ListValued(key) || |v| > 0) ==> ParseValue(ext, key, v).failure.Error?
    ensures ParseValue(ext, key, v).Ok? ==> ParseValue(ext, key, v).value == Described(ext, key, v)
  {
  }

  lemma ParseOutcome8(ext: Foreign, key: AttrKey, v: seq<string>)
    requires key.UniqueItems? || key.MultipleOf?
    ensures ParseValue(ext, key, v).Ok? <==> KeyOk(ext, key, v)
    ensures ParseValue(ext, key, v).Fail? && (ListValued(key) || |v| > 0) ==> ParseValue(ext, key, v).failure.Error?
    ensures ParseValue(ext, key, v).Ok? ==> ParseValue(ext, key, v).value == Described(ext, key, v)
  {
  }

  lemma ParseOutcome9(ext: Foreign, key: AttrKey, v: seq<string>)
    requires key.MaxProperties? || key.MinProperties?
    ensures ParseValue(ext, key, v).Ok? <==> KeyOk(ext, key, v)
    ensures ParseValue(ext, key, v).Fail? && (ListValued(key) || |v| > 0) ==> ParseValue(ext, key, v).failure.Error?
    ensures ParseValue(ext, key, v).Ok? ==> ParseValue(ext, key, v).value == Described(ext, key, v)
  {
  }

  lemma ParseOutcome10(ext: Foreign, key: AttrKey, v: seq<string>)
    requires key.Enum? || key.AllOf?
    ensures ParseValue(ext, key, v).Ok? <==> KeyOk(ext, key, v)
    ensures ParseValue(ext, key, v).Fail? && (ListValued(key) || |v| > 0) ==> ParseValue(ext, key, v).failure.Error?
    ensures ParseValue(ext, key, v).Ok? ==> ParseValue(ext, key, v).value == Described(ext, key, v)
  {
  }

  lemma ParseOutcome11(ext: Foreign, key: AttrKey, v: seq<string>)
    requires key.AnyOf? || key.OneOf?
    ensures ParseValue(ext, key, v).Ok? <==> KeyOk(ext, key, v)
    ensures ParseValue(ext, key, v).Fail? && (ListValued(key) || |v| > 0) ==> ParseValue(ext, key, v).failure.Error?
    ensures ParseValue(ext, key, v).Ok? ==> ParseValue(ext, key, v).value == Described(ext, key, v)
  {
  }

  lemma ParseOutcome12(ext: Foreign, key: AttrKey, v: seq<string>)
    requires key.Type? || key.Not?
    ensures ParseValue(ext, key, v).Ok? <==> KeyOk(ext, key, v)
    ensures ParseValue(ext, key, v).Fail? && (ListValued(key) || |v| > 0) ==> ParseValue(ext, key, v).failure.Error?
    ensures ParseValue(ext, key, v).Ok? ==> ParseValue(ext, key, v).value == Described(ext, key, v)
  {
  }

  lemma ParseOutcome13(ext: Foreign, key: AttrKey, v: seq<string>)
    requires key.AdditionalProperties? || key.AdditionalItems?
    ensures ParseValue(ext, key, v).Ok? <==> KeyOk(ext, key, v)
    ensures ParseValue(ext, key, v).Fail? && (ListValued(key) || |v| > 0) ==> ParseValue(ext, key, v).failure.Error?
    ensures ParseValue(ext, key, v).Ok? ==> ParseValue(ext, key, v).value == Described(ext, key, v)
  {
  }

  /** A case of the switch succeeds exactly when its check passes, crashes only on a missing
      value, and yields the value the attribute describes. */
  lemma ParseOutcome(ext: Foreign, key: AttrKey, v: seq<string>)
    ensures ParseValue(ext, key, v).Ok? <==> KeyOk(ext, key, v)
    ensures ParseValue(ext, key, v).Fail? && (ListValued(key) || |v| > 0) ==> ParseValue(ext, key, v).failure.Error?
    ensures ParseValue(ext, key, v).Ok? ==> ParseValue(ext, key, v).value == Described(ext, key, v)
  {
    if key.Required? || key.Id? {
      ParseOutcome0(ext, key, v);
    } else if key.Description? || key.Definition? {
      ParseOutcome1(ext, key, v);
    } else if key.Title? || key.Format? {
      ParseOutcome2(ext, key, v);
    } else if key.Default? || key.Maximum? {
      ParseOutcome3(ext, key, v);
    } else if key.ExclusiveMaximum? || key.Minimum? {
      ParseOutcome4(ext, key, v);
    } else if key.ExclusiveMinimum? || key.MaxLength? {
      ParseOutcome5(ext, key, v);
    } else if key.MinLength? || key.Pattern? {
      ParseOutcome6(ext, key, v);
    } else if key.MaxItems? || key.MinItems? {
      ParseOutcome7(ext, key, v);
    } else if key.UniqueItems? || key.MultipleOf? {
      ParseOutcome8(ext, key, v);
    } else if key.MaxProperties? || key.MinProperties? {
      ParseOutcome9(ext, key, v);
    } else if key.Enum? || key.AllOf? {
      ParseOutcome10(ext, key, v);
    } else if key.AnyOf? || key.OneOf? {
      ParseOutcome11(ext, key, v);
    } else if key.Type? || key.Not? {
      ParseOutcome12(ext, key, v);
    } else if key.AdditionalProperties? || key.AdditionalItems? {
      ParseOutcome13(ext, key, v);
    }
  }

  // ----- the validator agrees with the reference -----

  /** The known attributes an attribute list names. */
  function KnownKeys(attrs: Attrs): set<AttrKey> {
    if |attrs| == 0 then {}
    else
      (match ParseKey(attrs[0].key) case Some(key) => {key} case None => {}) + KnownKeys(attrs[1..])
  }

  /** The value list of an attribute, empty when it is absent. */
  function Values(attrs: Attrs, key: AttrKey): seq<string> {
    Get(attrs, KeyName(key)).GetOr([])
  }

  /** A value that changes its fresh field: every value except the empty string. */
  predicate Stored(x: AttrValue) {
    !(x.TextValue? && x.s == "")
  }

  /** What an attribute adds to a fresh record: the value it describes, when it is accepted
      and that value differs from the field's zero value. */
  function Contribution(ext: Foreign, attrs: Attrs, key: AttrKey): Option<AttrValue> {
    var v := Values(attrs, key);
    if KeyOk(ext, key, v) && Stored(Described(ext, key, v)) then Some(Described(ext, key, v)) else None
  }

  /** The record made by the attributes among `ks`, each filling its own field. */
  function BuildOn(ext: Foreign, attrs: Attrs, ks: set<AttrKey>): SchemaAnno {
    SchemaAnno(map key | key in ks && Contribution(ext, attrs, key).Some? :: Contribution(ext, attrs, key).value)
  }

  /** The annotation the attributes describe. */
  function Build(ext: Foreign, attrs: Attrs): SchemaAnno {
    BuildOn(ext, attrs, KnownKeys(attrs))
  }

  /** Adding an attribute to the ones built adds its contribution and nothing else. */
  lemma BuildOnAdd(ext: Foreign, attrs: Attrs, ks: set<AttrKey>, key: AttrKey)
    requires key !in ks
    ensures var before := BuildOn(ext, attrs, ks).values;
      BuildOn(ext, attrs, ks + {key}).values
        == match Contribution(ext, attrs, key) case Some(x) => before[key := x] case None => before
  {
    var before := BuildOn(ext, attrs, ks).values;
    var after := BuildOn(ext, attrs, ks + {key}).values;
    var expected := match Contribution(ext, attrs, key) case Some(x) => before[key := x] case None => before;
    assert after.Keys == expected.Keys;
    forall k | k in after ensures after[k] == expected[k] {
    }
  }

  /** Storing a value under a field that is still unset sets it exactly when the value is stored. */
  lemma StoreFresh(m: map<AttrKey, AttrValue>, key: AttrKey, x: AttrValue)
    requires key !in m
    ensures Store(SchemaAnno(m), key, x).values == if Stored(x) then m[key := x] else m
  {
    if x.ListValue? {
      assert SchemaAnno(m).List(key) + x.items == x.items;
    }
  }

  /** Storing an accepted attribute into the record built so far adds its own field. */
  lemma StoreStep(ext: Foreign, attrs: Attrs, ks: set<AttrKey>, key: AttrKey)
    requires key !in ks && KeyOk(ext, key, Values(attrs, key))
    ensures Store(BuildOn(ext, attrs, ks), key, Described(ext, key, Values(attrs, key))) == BuildOn(ext, attrs, ks + {key})
  {
    var x := Described(ext, key, Values(attrs, key));
    var before := BuildOn(ext, attrs, ks);
    BuildOnAdd(ext, attrs, ks, key);
    assert Contribution(ext, attrs, key) == if Stored(x) then Some(x) else None;
    assert key !in before.values;
    StoreFresh(before.values, key, x);
  }

  lemma KnownKeysAppend(d: Attrs, e: Entry<seq<string>>)
    ensures KnownKeys(d + [e]) == KnownKeys(d) + (match ParseKey(e.key) case Some(key) => {key} case None => {})
  {
    if |d| > 0 {
      assert (d + [e])[1..] == d[1..] + [e];
      KnownKeysAppend(d[1..], e);
    }
  }

  lemma KnownKeysIndex(d: Attrs, key: AttrKey)
    ensures key in KnownKeys(d) <==> exists j :: 0 <= j < |d| && ParseKey(d[j].key) == Some(key)
  {
    if |d| > 0 {
      KnownKeysIndex(d[1..], key);
      if key in KnownKeys(d[1..]) {
        var j :| 0 <= j < |d[1..]| && ParseKey(d[1..][j].key) == Some(key);
        assert ParseKey(d[j + 1].key) == Some(key);
      }
      if exists j :: 0 <= j < |d| && ParseKey(d[j].key) == Some(key) {
        var j :| 0 <= j < |d| && ParseKey(d[j].key) == Some(key);
        if j > 0 {
          assert ParseKey(d[1..][j - 1].key) == Some(key);
        }
      }
    }
  }

  lemma {:induction false} ValidateFromSpec(ext: Foreign, attrs: Attrs, i: nat)
    requires Distinct(attrs) && i <= |attrs|
    ensures var r := ValidateFrom(ext, attrs, i, BuildOn(ext, attrs, KnownKeys(attrs[..i])));
      && (r.Ok? <==> forall j :: i <= j < |attrs| ==> AttrOk(ext, attrs[j].key, attrs[j].val))
      && (r.Ok? ==> r.value == Build(ext, attrs))
    decreases |attrs| - i
  {
    if i == |attrs| {
      assert attrs[..i] == attrs;
    } else {
      var e := attrs[i];
      var ks := KnownKeys(attrs[..i]);
      assert attrs[..i + 1] == attrs[..i] + [e];
      KnownKeysAppend(attrs[..i], e);
      match ParseKey(e.key)
      case None =>
      case Some(key) =>
        ParseKeySound(e.key);
        GetDistinct(attrs, i);
        assert Values(attrs, key) == e.val;
        assert key !in ks by {
          KnownKeysIndex(attrs[..i], key);
          if key in ks {
            var j :| 0 <= j < i && ParseKey(attrs[..i][j].key) == Some(key);
            ParseKeySound(attrs[j].key);
          }
        }
        ParseOutcome(ext, key, e.val);
        if KeyOk(ext, key, e.val) {
          StoreStep(ext, attrs, ks, key);
          ValidateFromSpec(ext, attrs, i + 1);
        }
    }
  }

  /** Without assuming distinct names: a value-less attribute is the only way to crash, and
      an unknown attribute always fails. */
  lemma {:induction false} ValidateFromAny(ext: Foreign, attrs: Attrs, i: nat, acc: SchemaAnno)
    requires i <= |attrs|
    ensures var r := ValidateFrom(ext, attrs, i, acc);
      && (r.Fail? && (forall j :: i <= j < |attrs| ==> |attrs[j].val| > 0) ==> r.failure.Error?)
      && ((exists j :: i <= j < |attrs| && ParseKey(attrs[j].key).None?) ==> r.Fail?)
    decreases |attrs| - i
  {
    if i < |attrs| {
      var e := attrs[i];
      match ParseKey(e.key)
      case None =>
      case Some(key) =>
        ParseOutcome(ext, key, e.val);
        var step := ParseValue(ext, key, e.val);
        if step.Ok? {
          ValidateFromAny(ext, attrs, i + 1, Store(acc, key, step.value));
        }
    }
  }

  /** A named attribute is known and passes its check. */
  predicate AttrOk(ext: Foreign, k: string, v: seq<string>) {
    ParseKey(k).Some? && KeyOk(ext, ParseKey(k).value, v)
  }

  /** Every attribute of the annotation passes its check. */
  predicate AllAttrsOk(ext: Foreign, attrs: Attrs) {
    forall k :: k in Keys(attrs) ==> AttrOk(ext, k, Get(attrs, k).value)
  }

  lemma ValidateStart(ext: Foreign, attrs: Attrs)
    ensures var r := ValidateFrom(ext, attrs, 0, Fresh);
      && (Distinct(attrs) ==> (r.Ok? <==> AllAttrsOk(ext, attrs)))
      && (Distinct(attrs) && r.Ok? ==> r.value == Build(ext, attrs))
      && (r.Fail? && (forall j :: 0 <= j < |attrs| ==> |attrs[j].val| > 0) ==> r.failure.Error?)
      && ((exists j :: 0 <= j < |attrs| && ParseKey(attrs[j].key).None?) ==> r.Fail?)
  {
    assert attrs[..0] == [];
    assert Fresh == BuildOn(ext, attrs, {});
    ValidateFromAny(ext, attrs, 0, Fresh);
    if Distinct(attrs) {
      ValidateFromSpec(ext, attrs, 0);
      forall j | 0 <= j < |attrs| ensures Get(attrs, attrs[j].key) == Some(attrs[j].val) {
        GetDistinct(attrs, j);
      }
      forall k | k in Keys(attrs) ensures exists j :: 0 <= j < |attrs| && attrs[j].key == k {
        KeysIndex(attrs, k);
      }
    }
  }

  /** ValidateAndCreate: validate the attribute map in the program's iteration order and
      build the annotation.  On a map (no repeated names) it succeeds exactly when every
      attribute is known and passes its check, and then yields the reference record,
      whatever the order; it crashes only on an attribute without a value. */
  function ValidateAndCreate(ext: Foreign, attrs: Attrs): (r: Result<SchemaAnno>)
    ensures Distinct(attrs) ==> (r.Ok? <==> AllAttrsOk(ext, attrs))
    ensures Distinct(attrs) && r.Ok? ==> r.value == Build(ext, attrs)
    ensures r.Fail? && (forall j :: 0 <= j < |attrs| ==> |attrs[j].val| > 0) ==> r.failure.Error?
    ensures (exists j :: 0 <= j < |attrs| && ParseKey(attrs[j].key).None?) ==> r.Fail?
  {
    ValidateStart(ext, attrs);
    ValidateFrom(ext, attrs, 0, Fresh)
  }

  /** Two iteration orders of the same map give the same outcome. */
  lemma ValidateIgnoresOrder(ext: Foreign, a1: Attrs, a2: Attrs)
    requires Distinct(a1) && Distinct(a2)
    requires forall k :: Get(a1, k) == Get(a2, k)
    ensures ValidateAndCreate(ext, a1).Ok? == ValidateAndCreate(ext, a2).Ok?
    ensures ValidateAndCreate(ext, a1).Ok? ==> ValidateAndCreate(ext, a1).value == ValidateAndCreate(ext, a2).value
  {
    SameKeys(a1, a2);
    assert AllAttrsOk(ext, a1) == AllAttrsOk(ext, a2);
    BuildSame(ext, a1, a2);
  }

  lemma SameKeys(a1: Attrs, a2: Attrs)
    requires forall k :: Get(a1, k) == Get(a2, k)
    ensures Keys(a1) == Keys(a2)
  {
    forall k ensures k in Keys(a1) <==> k in Keys(a2) {
      assert Get(a1, k) == Get(a2, k);
    }
  }

  /** The reference record depends only on the attribute map, not on its order. */
  lemma BuildSame(ext: Foreign, a1: Attrs, a2: Attrs)
    requires forall k :: Get(a1, k) == Get(a2, k)
    ensures Build(ext, a1) == Build(ext, a2)
  {
    SameKeys(a1, a2);
    forall key ensures key in KnownKeys(a1) ==> key in KnownKeys(a2) {
      KnownKeysSame(a1, a2, key);
    }
    forall key ensures key in KnownKeys(a2) ==> key in KnownKeys(a1) {
      KnownKeysSame(a2, a1, key);
    }
    assert KnownKeys(a1) == KnownKeys(a2);
    forall key ensures Contribution(ext, a1, key) == Contribution(ext, a2, key) {
      assert Values(a1, key) == Values(a2, key) by {
        assert Get(a1, KeyName(key)) == Get(a2, KeyName(key));
      }
    }
    assert Build(ext, a1).values == Build(ext, a2).values;
  }

  lemma KnownKeysSame(a1: Attrs, a2: Attrs, key: AttrKey)
    requires forall k :: k in Keys(a1) <==> k in Keys(a2)
    ensures key in KnownKeys(a1) ==> key in KnownKeys(a2)
  {
    if key in KnownKeys(a1) {
      KnownKeysIndex(a1, key);
      var j :| 0 <= j < |a1| && ParseKey(a1[j].key) == Some(key);
      KeysIndex(a1, a1[j].key);
      KeysIndex(a2, a1[j].key);
      var j2 :| 0 <= j2 < |a2| && a2[j2].key == a1[j].key;
      KnownKeysIndex(a2, key);
    }
  }

  // ----- the annotation of a doc comment -----

  /** Validate every `@jsonSchema` annotation of a comment, in order.  The parser validates
      them all and collects their errors, so a crash in any of them crashes the run; otherwise
      the first error is the one reported. */
  function ValidateAll(ext: Foreign, annos: seq<Attrs>): (r: Result<seq<SchemaAnno>>)
    ensures r.Ok? <==> forall i :: 0 <= i < |annos| ==> ValidateAndCreate(ext, annos[i]).Ok?
    ensures r.Ok? ==> |r.value| == |annos|
    ensures r.Ok? ==> forall i :: 0 <= i < |annos| ==> r.value[i] == ValidateAndCreate(ext, annos[i]).value
    ensures r.Fail? && r.failure.Error? ==> forall i :: 0 <= i < |annos| ==> !ValidateAndCreate(ext, annos[i]).Fail? || ValidateAndCreate(ext, annos[i]).failure.Error?
  {
    if |annos| == 0 then Ok([])
    else
      var first := ValidateAndCreate(ext, annos[0]);
      var rest := ValidateAll(ext, annos[1..]);
      if first.Fail? && first.failure.Aborts() then Fail(first.failure)
      else if rest.Fail? && rest.failure.Aborts() then Fail(rest.failure)
      else if first.Fail? then Fail(first.failure)
      else if rest.Fail? then Fail(rest.failure)
      else Ok([first.value] + rest.value)
  }

  /** The `@jsonSchema` annotation of a comment: none for an empty comment, an error (prefixed
      by `what`) when the comment does not parse or an annotation is rejected, otherwise the
      first annotation. */
  function AnnoFromDoc(ext: Foreign, doc: Option<Doc>, what: string): (r: Result<Option<SchemaAnno>>)
    ensures DocText(doc) == "" ==> r == Ok(None)
    ensures DocText(doc) != "" && doc.value.parsed.syntaxError ==> r.Fail?
    ensures r.Ok? && DocText(doc) != "" ==> forall i :: 0 <= i < |doc.value.parsed.jsonSchema| ==> ValidateAndCreate(ext, doc.value.parsed.jsonSchema[i]).Ok?
    ensures r.Ok? && r.value.Some? ==>
      && DocText(doc) != "" && |doc.value.parsed.jsonSchema| > 0
      && r.value.value == ValidateAndCreate(ext, doc.value.parsed.jsonSchema[0]).value
    ensures r.Ok? && r.value.None? && DocText(doc) != "" ==> doc.value.parsed.jsonSchema == []
    ensures r.Fail? && r.failure.Error? ==> "error parsing annotation for " + what + ": " <= r.failure.msg
  {
    if DocText(doc) == "" then Ok(None)
    else
      var parsed := doc.value.parsed;
      var all := ValidateAll(ext, parsed.jsonSchema);
      if all.Fail? && all.failure.Aborts() then Fail(all.failure)
      else if parsed.syntaxError then Fail(Error("error parsing annotation for " + what + ": syntax error"))
      else if all.Fail? then Fail(Error("error parsing annotation for " + what + ": " + all.failure.msg))
      else if |all.value| > 0 then Ok(Some(all.value[0]))
      else Ok(None)
  }

  /** findJSONSchemaAnnotationForField: a field's annotation.  The error message names the
      field's first name, which crashes for an embedded (nameless) field. */
  function FieldAnno(ext: Foreign, f: Field): (r: Result<Option<SchemaAnno>>)
    ensures r.Ok? ==> r == AnnoFromDoc(ext, f.doc, "field " + (if |f.names| > 0 then f.names[0] else ""))
    ensures DocText(f.doc) == "" ==> r == Ok(None)
    ensures |f.names| > 0 ==> r == AnnoFromDoc(ext, f.doc, "field " + f.names[0])
    ensures |f.names| == 0 && AnnoFromDoc(ext, f.doc, "field ").IsError() ==> r.Fail? && r.failure.Panic?
    ensures |f.names| == 0 && !AnnoFromDoc(ext, f.doc, "field ").IsError() ==> r == AnnoFromDoc(ext, f.doc, "field ")
  {
    var r := AnnoFromDoc(ext, f.doc, "field " + (if |f.names| > 0 then f.names[0] else ""));
    if r.Fail? && r.failure.Error? && |f.names| == 0 then Fail(Panic("index out of range")) else r
  }

  /** findJSONSchemaAnnotationForDecl: the annotation of the comment documenting a declaration. */
  function DeclAnno(ext: Foreign, decl: DeclInfo): (r: Result<Option<SchemaAnno>>)
    ensures decl.spec.doc.None? && decl.gen.doc.None? ==> r == Ok(None)
    ensures decl.spec.doc.Some? ==> r == AnnoFromDoc(ext, decl.spec.doc, "object " + decl.spec.name)
    ensures decl.spec.doc.None? ==> r == AnnoFromDoc(ext, decl.gen.doc, "object " + decl.spec.name)
    ensures r.Fail? && r.failure.Error? ==> "error parsing annotation for object " + decl.spec.name + ": " <= r.failure.msg
  {
    var what := "object " + decl.spec.name;
    assert "error parsing annotation for " + what + ": " == "error parsing annotation for object " + decl.spec.name + ": ";
    AnnoFromDoc(ext, DeclDoc(decl), what)
  }

  /** fieldIsRequired: an annotated field marked `required=true`; a rejected annotation
      counts as not required. */
  function FieldIsRequired(ext: Foreign, f: Field): (r: Result<bool>)
    ensures r.Ok? && r.value <==> FieldAnno(ext, f).Ok? && FieldAnno(ext, f).value.Some? && FieldAnno(ext, f).value.value.Bool(Required)
    ensures FieldAnno(ext, f).Fail? && FieldAnno(ext, f).failure.Error? ==> r == Ok(false)
  {
    match FieldAnno(ext, f)
    case Fail(e) => if e.Error? then Ok(false) else Fail(e)
    case Ok(None) => Ok(false)
    case Ok(Some(a)) => Ok(a.Bool(Required))
  }
}

=== FILE: cli.dfy ===
/** The pure helpers of the command line front end (package `cmd`): the log level chosen
    by the flags, the checks on the two positional arguments, and the conversions from a
    definition key to a package and type, a file name, a Go variable name, and from an
    output directory to a package name.  Writing files, templates and cobra plumbing are
    not modelled.
 */
module Cli {
  import opened Results
  import opened Runes
  import opened Strs
  import TypeHelper
  import opened Schema
  import opened Host
  import opened SchemaAttrs
  import Generation

  /** generator.LogLevel, in the order of its numeric values. */
  datatype LogLevel = QuietLevel | InfoLevel | DebugLevel | VerboseLevel

  /** The command line flags the helpers read. */
  datatype Flags = Flags(
    logQuiet: bool,
    logDebug: bool,
    logVerbose: bool,
    inlineDefs: bool,
    includeTests: bool,
    suppressXAttrs: bool)

  /** getLogLevel: quiet wins over everything, verbose over debug. */
  function GetLogLevel(f: Flags): (l: LogLevel)
    ensures l == QuietLevel <==> f.logQuiet
    ensures l == VerboseLevel <==> !f.logQuiet && f.logVerbose
    ensures l == DebugLevel <==> !f.logQuiet && f.logDebug && !f.logVerbose
    ensures l == InfoLevel <==> !f.logQuiet && !f.logDebug && !f.logVerbose
  {
    if f.logQuiet then QuietLevel
    else if f.logDebug && !f.logVerbose then DebugLevel
    else if f.logVerbose then VerboseLevel
    else InfoLevel
  }

  /** The command's isIdent: a scan that stops at the first rune that is neither a letter,
      a digit nor an underscore.  It accepts exactly what the generator's isIdent accepts. */
  method IsIdent(name: string) returns (ident: bool)
    ensures ident == TypeHelper.IsIdent(name)
    ensures ident <==> forall i :: 0 <= i < |name| ==> TypeHelper.IsIdentRune(name[i])
  {
    ident := true;
    var i := 0;
    while i < |name|
      invariant 0 <= i <= |name|
      invariant ident
      invariant forall j :: 0 <= j < i ==> TypeHelper.IsIdentRune(name[j])
    {
      if !IsLetter(name[i]) && !IsDigit(name[i]) && name[i] != '_' {
        ident := false;
        break;
      }
      i := i + 1;
    }
  }

  /** isPackageString: neither leading nor trailing "/". */
  function IsPackageString(name: string): (b: bool)
    ensures b <==> |name| == 0 || (name[0] != '/' && name[|name| - 1] != '/')
  {
    if HasPrefix(name, "/") then false
    else if HasSuffix(name, "/") then false
    else true
  }

  /** A run of the command: its usage text when fewer than two arguments are given, or the
      base package, the root type and the generator options. */
  datatype Invocation = ShowUsage | Run(basePackage: string, rootType: string, opts: Options)

  /** The argument checks of doGeneration, before any generation. */
  method CheckArgs(f: Flags, args: seq<string>) returns (r: Result<Invocation>)
    ensures |args| < 2 ==> r == Ok(ShowUsage)
    ensures |args| >= 2 && !IsPackageString(args[0]) ==> r == Fail(Error("invalid package specifier " + args[0]))
    ensures |args| >= 2 && IsPackageString(args[0]) && !TypeHelper.IsIdent(args[1])
            ==> r == Fail(Error("invalid type specifier " + args[1]))
    ensures r.Ok? && r.value.Run? ==>
      && |args| >= 2 && r.value.basePackage == args[0] && r.value.rootType == args[1]
      && IsPackageString(args[0]) && TypeHelper.IsIdent(args[1])
      && r.value.opts.autoCreateDefs == !f.inlineDefs
      && r.value.opts.suppressXAttrs == f.suppressXAttrs
      && r.value.opts.specVersion == SpecVersionDraftV4 && r.value.opts.definitionPrefix == ""
  {
    if |args| < 2 {
      return Ok(ShowUsage);
    }
    if !IsPackageString(args[0]) {
      return Fail(Error("invalid package specifier " + args[0]));
    }
    var ident := IsIdent(args[1]);
    if !ident {
      return Fail(Error("invalid type specifier " + args[1]));
    }
    var opts := NewOptions();
    r := Ok(Run(args[0], args[1], opts.(autoCreateDefs := !f.inlineDefs, suppressXAttrs := f.suppressXAttrs)));
  }

  /** Every `_` and `-` of a definition key turned back into `.` and `/`. */
  function UnescapeKey(s: string): (r: string)
    ensures |r| == |s|
    ensures forall i :: 0 <= i < |s| ==> r[i] == (if s[i] == '_' then '.' else if s[i] == '-' then '/' else s[i])
    ensures '.' !in s && '/' !in s ==> EscapeKey(r) == s
  {
    ReplaceRuneIsMap(s, '_', '.');
    var t := ReplaceAll(s, "_", ".");
    ReplaceRuneIsMap(t, '-', '/');
    var r := ReplaceAll(t, "-", "/");
    assert '.' !in s && '/' !in s ==> forall i :: 0 <= i < |s| ==> EscapeKey(r)[i] == s[i];
    r
  }

  /** refToPackageAndType: the unescaped key split at its last "/".  A key with no "/"
      after unescaping makes the slice expression fail. */
  function RefToPackageAndType(ref: string): (r: Result<(string, string)>)
    ensures r.Fail? <==> '/' !in UnescapeKey(ref)
    ensures r.Fail? ==> r.failure.Panic?
    ensures r.Ok? ==> r.value.0 + "/" + r.value.1 == UnescapeKey(ref) && '/' !in r.value.1
  {
    var s := UnescapeKey(ref);
    var i := LastIndexOf(s, "/");
    LastRune(s, '/');
    if i == -1 then Fail(Panic("slice bounds out of range [:-1]"))
    else
      assert s == s[..i] + "/" + s[i + 1..];
      Ok((s[..i], s[i + 1..]))
  }

  /** A package path and a type name without `_` or `-` come back from their escaped
      definition key unchanged. */
  lemma RefToPackageAndTypeInvertsEscape(p: string, t: string)
    requires '_' !in p && '-' !in p && '_' !in t && '-' !in t && '/' !in t
    ensures RefToPackageAndType(EscapeKey(p + "/" + t)) == Ok((p, t))
  {
    var path := p + "/" + t;
    UnescapeInvertsEscape(p, t);
    LastSlashBeforeName(p, t);
    assert path[..|p|] == p && path[|p| + 1..] == t;
  }

  /** Unescaping undoes escaping on a path without `_` and `-`. */
  lemma UnescapeInvertsEscape(p: string, t: string)
    requires '_' !in p && '-' !in p && '_' !in t && '-' !in t
    ensures UnescapeKey(EscapeKey(p + "/" + t)) == p + "/" + t
  {
    var path := p + "/" + t;
    var back := UnescapeKey(EscapeKey(path));
    forall i | 0 <= i < |path| ensures back[i] == path[i] {
      if i < |p| {
        assert path[i] == p[i];
      } else if i > |p| {
        assert path[i] == t[i - |p| - 1];
      }
    }
  }

  /** The last "/" of a path is the one before a name without "/". */
  lemma LastSlashBeforeName(p: string, t: string)
    requires '/' !in t
    ensures LastIndexOf(p + "/" + t, "/") == |p|
  {
    var path := p + "/" + t;
    forall j | |p| < j < |path| ensures !OccursAt(path, "/", j) {
      assert path[j..j + 1] == [t[j - |p| - 1]];
    }
    assert OccursAt(path, "/", |p|);
  }

  /** Replacing a pattern in a text that starts with it: the replacement, then the rest. */
  lemma ReplaceAllAfterPrefix(pat: string, rest: string, rep: string)
    requires |pat| > 0
    ensures ReplaceAll(pat + rest, pat, rep) == rep + ReplaceAll(rest, pat, rep)
  {
    assert (pat + rest)[..|pat|] == pat;
    assert (pat + rest)[|pat|..] == rest;
  }

  /** refToFilename: the reference prefix removed everywhere, the key escaped, ".json"
      appended. */
  function RefToFilename(ref: string): (r: string)
    ensures HasSuffix(r, ".json")
    ensures forall i :: 0 <= i < |r| - 5 ==> r[i] != '.' && r[i] != '/'
    ensures !Contains(ref, DefinitionRoot) ==> |r| == |ref| + 5
    ensures !Contains(ref, DefinitionRoot) ==>
              forall i :: 0 <= i < |ref| ==> r[i] == (if ref[i] == '.' then '_' else if ref[i] == '/' then '-' else ref[i])
  {
    var s := ReplaceAll(ref, DefinitionRoot, "");
    var r := EscapeKey(s) + ".json";
    assert forall i :: 0 <= i < |r| - 5 ==> r[i] == EscapeKey(s)[i];
    r
  }

  /** The root schema's file (root.go:198): for a package type path, the definition key
      the generator gives that path, with ".json" appended. */
  lemma RootFilename(path: string)
    requires TypeHelper.IsPackageType(path)
    requires '#' !in path
    ensures RefToFilename(path) == Generation.DefKeyFromPath(NewOptions(), path) + ".json"
  {
    RootAbsent(path);
    var r := RefToFilename(path);
    var k := Generation.DefKeyFromPath(NewOptions(), path);
    assert "" + path == path;
    assert forall i :: 0 <= i < |path| ==> r[i] == k[i];
    assert r[..|path|] == k;
    assert r[|path|..] == ".json";
    assert r == r[..|path|] + r[|path|..];
  }

  /** A definition's file (root.go:260): a key of the definitions map, which has neither
      '.' nor '/', with ".json" appended. */
  lemma KeyFilename(key: string)
    requires '.' !in key && '/' !in key
    ensures RefToFilename(key) == key + ".json"
  {
    RootAbsent(key);
    var r := RefToFilename(key);
    assert forall i :: 0 <= i < |key| ==> r[i] == key[i];
    assert r[..|key|] == key;
    assert r[|key|..] == ".json";
    assert r == r[..|key|] + r[|key|..];
  }

  /** The file of a definition is its key with ".json" appended; the key is the one the
      generator computes, which has neither "." nor "/". */
  lemma DefinitionFile(key: string)
    requires '.' !in key && '/' !in key
    ensures RefToFilename(DefinitionRoot + key) == key + ".json"
  {
    NoDefinitionRoot(key);
    forall i | 0 <= i < |key| ensures EscapeKey(key)[i] == key[i] {
      assert key[i] in key;
    }
    assert EscapeKey(key) == key;
  }

  /** The runes refToVarName turns into word breaks. */
  predicate IsBreak(c: char) {
    c == '_' || c == '-' || c == '.' || c == '/'
  }

  /** Every word break as a space (four successive strings.Replace calls). */
  function BreaksToSpaces(s: string): (r: string)
    ensures |r| == |s|
    ensures forall i :: 0 <= i < |s| ==> r[i] == (if IsBreak(s[i]) then ' ' else s[i])
  {
    ReplaceRuneIsMap(s, '_', ' ');
    var a := ReplaceAll(s, "_", " ");
    ReplaceRuneIsMap(a, '-', ' ');
    var b := ReplaceAll(a, "-", " ");
    ReplaceRuneIsMap(b, '.', ' ');
    var c := ReplaceAll(b, ".", " ");
    ReplaceRuneIsMap(c, '/', ' ');
    ReplaceAll(c, "/", " ")
  }

  /** Title-casing a rune never makes it a word break or a space. */
  lemma ToTitleKeepsClass(c: char)
    ensures IsBreak(ToTitle(c)) ==> IsBreak(c)
    ensures IsSpace(ToTitle(c)) ==> IsSpace(c)
  {
  }

  /** refToVarName: the reference prefix removed, every `_ - . /` a word break, each word
      title-cased, and every space dropped. */
  function RefToVarName(ref: string): (r: string)
    ensures forall i :: 0 <= i < |r| ==> !IsBreak(r[i]) && !IsSpace(r[i])
    ensures |r| <= |ReplaceAll(ref, DefinitionRoot, "")|
  {
    var s := BreaksToSpaces(ReplaceAll(ref, DefinitionRoot, ""));
    var t := Title(s);
    TitleHasNoBreaks(s);
    var r := StripSpaces(t);
    forall i | 0 <= i < |r| ensures !IsBreak(r[i]) {
      var k :| 0 <= k < |t| && t[k] == r[i];
    }
    r
  }

  /** Title-casing a text without word-break runes gives a text without them. */
  lemma TitleHasNoBreaks(s: string)
    requires forall i :: 0 <= i < |s| ==> !IsBreak(s[i])
    ensures forall i :: 0 <= i < |Title(s)| ==> !IsBreak(Title(s)[i])
  {
    var t := TitleAfter(' ', s);
    assert Title(s) == t;
    forall i | 0 <= i < |s| ensures !IsBreak(t[i]) {
      ToTitleKeepsClass(s[i]);
      if i == 0 {
        assert t[0] == ToTitle(s[0]);
      } else {
        assert t[i] == (if IsSeparator(s[i - 1]) then ToTitle(s[i]) else s[i]);
      }
    }
  }

  /** A one-pass reading of refToVarName's text pipeline: word breaks and spaces are
      dropped, and a rune is title-cased when it starts the text or follows a dropped rune
      or a separator.  `title` says whether the next rune starts a word. */
  function CamelJoin(title: bool, s: string): (r: string)
    ensures forall i :: 0 <= i < |r| ==> !IsBreak(r[i]) && !IsSpace(r[i])
    ensures |r| <= |s|
    decreases |s|
  {
    if |s| == 0 then []
    else if IsBreak(s[0]) || IsSpace(s[0]) then CamelJoin(true, s[1..])
    else
      ToTitleKeepsClass(s[0]);
      [if title then ToTitle(s[0]) else s[0]] + CamelJoin(IsSeparator(s[0]), s[1..])
  }

  /** Every space rune is a separator, and title-casing leaves it a space. */
  lemma SpaceIsSeparator(c: char)
    requires IsSpace(c)
    ensures IsSeparator(c) && ToTitle(c) == c
  {
  }

  /** Title-casing then dropping spaces, on the text with breaks already spaced out, is
      CamelJoin on the original text. */
  lemma {:induction false} TitleStripIsCamelJoin(p: char, key: string, s: string)
    requires |s| == |key|
    requires forall i :: 0 <= i < |key| ==> s[i] == (if IsBreak(key[i]) then ' ' else key[i])
    ensures StripSpaces(TitleAfter(p, s)) == CamelJoin(IsSeparator(p), key)
    decreases |key|
  {
    if |key| > 0 {
      TitleStripIsCamelJoin(s[0], key[1..], s[1..]);
      var t := TitleAfter(p, s);
      assert t[1..] == TitleAfter(s[0], s[1..]);
      if IsBreak(key[0]) || IsSpace(key[0]) {
        SpaceIsSeparator(s[0]);
        assert IsSpace(t[0]);
      } else {
        ToTitleKeepsClass(key[0]);
        assert !IsSpace(t[0]);
      }
    }
  }

  /** refToVarName is CamelJoin applied to the reference with every "#/definitions/" removed. */
  lemma RefToVarNameIsCamelJoin(ref: string)
    ensures RefToVarName(ref) == CamelJoin(true, ReplaceAll(ref, DefinitionRoot, ""))
  {
    var key := ReplaceAll(ref, DefinitionRoot, "");
    var s := BreaksToSpaces(key);
    assert Title(s) == TitleAfter(' ', s);
    TitleStripIsCamelJoin(' ', key, s);
  }

  /** The variable name of a definition reference is CamelJoin of its key: "p/T" gives
      "PT", "my_pkg.the-type" gives "MyPkgTheType". */
  lemma VarNameOfKey(key: string)
    requires '#' !in key
    ensures RefToVarName(DefinitionRoot + key) == CamelJoin(true, key)
  {
    NoDefinitionRoot(key);
    RefToVarNameIsCamelJoin(DefinitionRoot + key);
  }

  /** A text without '#', or without '/', loses nothing when "#/definitions/" is removed
      after it. */
  lemma NoDefinitionRoot(key: string)
    requires '#' !in key || '/' !in key
    ensures ReplaceAll(DefinitionRoot + key, DefinitionRoot, "") == key
  {
    RootAbsent(key);
    ReplaceAllAfterPrefix(DefinitionRoot, key, "");
  }

  lemma RootAbsent(key: string)
    requires '#' !in key || '/' !in key
    ensures !Contains(key, DefinitionRoot)
  {
    if Contains(key, DefinitionRoot) {
      var j :| 0 <= j <= |key| && OccursAt(key, DefinitionRoot, j);
      RootOccurrence(key, j);
    }
  }

  /** Wherever "#/definitions/" occurs, the text holds both a '#' and a '/'. */
  lemma RootOccurrence(key: string, j: int)
    requires OccursAt(key, DefinitionRoot, j)
    ensures '#' in key && '/' in key
  {
    var w := key[j..j + |DefinitionRoot|];
    assert w[0] == key[j] && w[1] == key[j + 1];
  }

  /** packageFromOutputDir: the last segment of the directory, one trailing "/" ignored. */
  function PackageFromOutputDir(dir: string): (r: string)
    ensures '/' !in r
    ensures var p := TrimSuffix(dir, "/"); HasSuffix(p, r) && (|r| == |p| || p[|p| - |r| - 1] == '/')
  {
    var path := TrimSuffix(dir, "/");
    var i := LastIndexOf(path, "/");
    LastRune(path, '/');
    path[i + 1..]
  }
}

=== FILE: codec.dfy ===
/** The JSON side of package `schema`: the document json.Marshal writes for a node,
    FromJSON and the UnmarshalJSON methods that read one back, and the marshalling of
    BoolOrSchema.

    A JSON document is an abstract tree.  An object of the tree stands for the
    `map[string]interface{}` encoding/json decodes it into, read key by key with `Get`.
    Numbers are reals; float64 rounding is not modelled.  Every field of a node is
    tagged `omitempty`, so a zero field has no key at all.  Go visits the keys of a
    decoded map in random order, so when several keys are malformed it is not fixed
    which failure is reported; the model reads them in the order of the Go switch cases.
 */
module Codec {

  import opened Results
  import opened Dict
  import opened Schema
  import opened JsonKeys

  datatype Json =
    | JNull
    | JBool(b: bool)
    | JNum(n: real)
    | JStr(str: string)
    | JArr(items: seq<Json>)
    | JObj(members: Dict<Json>)

  // ---------------------------------------------------------------------------
  // Encoding

  function OmitEmpty(s: string): (r: Option<Json>)
    ensures r.None? <==> s == ""
  {
    if s == "" then None else Some(JStr(s))
  }

  function OmitZero(n: int): (r: Option<Json>)
    ensures r.None? <==> n == 0
  {
    if n == 0 then None else Some(JNum(n as real))
  }

  function OmitZeroReal(x: real): (r: Option<Json>)
    ensures r.None? <==> x == 0.0
  {
    if x == 0.0 then None else Some(JNum(x))
  }

  function OmitFalse(b: bool): (r: Option<Json>)
    ensures r.None? <==> !b
  {
    if b then Some(JBool(true)) else None
  }

  /** json.Marshal of a node: nil is `null`, any other node an object holding its
      non-zero fields. */
  function ToJson(s: Schema): (j: Json)
    ensures s.Nil? <==> j.JNull?
    ensures s.Node? ==> j.JObj?
    decreases s, 3
  {
    if s.Nil? then JNull else JObj(Emit(s, AllKeys))
  }

  /** The entries for the fields in `keys` that are present. */
  function Emit(s: Schema, keys: seq<Key>): Dict<Json>
    requires s.Node?
    decreases s, 2, |keys|
  {
    if |keys| == 0 then []
    else
      var head := match Field(s, keys[0])
        case None => []
        case Some(v) => [Entry(KeyName(keys[0]), v)];
      head + Emit(s, keys[1..])
  }

  function EncodeList(xs: seq<Schema>): (r: seq<Json>)
    ensures |r| == |xs|
    decreases xs, 0
  {
    if |xs| == 0 then [] else [ToJson(xs[0])] + EncodeList(xs[1..])
  }

  function EncodeDict(d: Dict<Schema>): (r: Dict<Json>)
    ensures |r| == |d|
    ensures forall i :: 0 <= i < |d| ==> r[i].key == d[i].key
    decreases d, 0
  {
    if |d| == 0 then [] else [Entry(d[0].key, ToJson(d[0].val))] + EncodeDict(d[1..])
  }

  /** BoolOrSchema.MarshalJSON: the schema when there is one, else the boolean. */
  function MarshalBoolOrSchema(b: BoolOrSchema): (j: Json)
    ensures b.schema == Nil ==> j == JBool(b.boolean)
    ensures b.schema != Nil ==> j.JObj?
    decreases b, 0
  {
    if b.schema != Nil then ToJson(b.schema) else JBool(b.boolean)
  }

  /** The value json.Marshal writes under a field's key, None when the field is omitted
      (its value is zero, or the node's kind has no such field). */
  function Field(s: Schema, k: Key): Option<Json>
    requires s.Node?
    decreases s, 1
  {
    var c := s.core;
    match k
    case KSchema => OmitEmpty(c.schemaUri)
    case KId => OmitEmpty(c.id)
    case KRef => OmitEmpty(c.ref)
    case KType => OmitEmpty(c.jsonType)
    case KTitle => OmitEmpty(c.title)
    case KDescription => OmitEmpty(c.description)
    case KAllOf => if c.allOf == [] then None else Some(JArr(EncodeList(c.allOf)))
    case KAnyOf => if c.anyOf == [] then None else Some(JArr(EncodeList(c.anyOf)))
    case KOneOf => if c.oneOf == [] then None else Some(JArr(EncodeList(c.oneOf)))
    case KNot => if c.not == Nil then None else Some(ToJson(c.not))
    case KDefinitions => if c.definitions == [] then None else Some(JObj(EncodeDict(c.definitions)))
    case KDefault => OmitEmpty(c.defaultValue)
    case KFormat => if s.HasFormat() then OmitEmpty(s.kind.format) else None
    case KPattern => if s.kind.Str? then OmitEmpty(s.kind.pattern) else None
    case KMaxLength => if s.kind.Str? then OmitZero(s.kind.maxLength) else None
    case KMinLength => if s.kind.Str? then OmitZero(s.kind.minLength) else None
    case KMaximum => if s.kind.Numeric? then OmitZeroReal(s.kind.maximum) else None
    case KMinimum => if s.kind.Numeric? then OmitZeroReal(s.kind.minimum) else None
    case KMultipleOf => if s.kind.Numeric? then OmitZeroReal(s.kind.multipleOf) else None
    case KExclusiveMaximum => if s.kind.Numeric? then OmitFalse(s.kind.exclusiveMaximum) else None
    case KExclusiveMinimum => if s.kind.Numeric? then OmitFalse(s.kind.exclusiveMinimum) else None
    case KItems => if s.kind.Array? && s.kind.items != Nil then Some(ToJson(s.kind.items)) else None
    case KMaxItems => if s.kind.Array? then OmitZero(s.kind.maxItems) else None
    case KMinItems => if s.kind.Array? then OmitZero(s.kind.minItems) else None
    case KAdditionalItems => if s.kind.Array? then OmitFalse(s.kind.additionalItems) else None
    case KUniqueItems => if s.kind.Array? then OmitFalse(s.kind.uniqueItems) else None
    case KProperties =>
      if s.kind.Object? && s.kind.properties != [] then Some(JObj(EncodeDict(s.kind.properties))) else None
    case KRequired =>
      if s.kind.Object? && s.kind.required != [] then Some(JArr(EncodeStrings(s.kind.required))) else None
    case KMaxProperties => if s.kind.Object? then OmitZero(s.kind.maxProperties) else None
    case KMinProperties => if s.kind.Object? then OmitZero(s.kind.minProperties) else None
    case KAdditionalProperties =>
      if s.kind.Object? && s.kind.additionalProperties.Some?
      then Some(MarshalBoolOrSchema(s.kind.additionalProperties.value))
      else None
    case KGoPath => if s.kind.Object? then OmitEmpty(s.kind.goPath) else None
  }

  function EncodeStrings(xs: seq<string>): (r: seq<Json>)
    ensures |r| == |xs| && forall i :: 0 <= i < |xs| ==> r[i] == JStr(xs[i])
  {
    if |xs| == 0 then [] else [JStr(xs[0])] + EncodeStrings(xs[1..])
  }

  // ---------------------------------------------------------------------------
  // Reading a decoded map

  /** Where `name` is bound in a decoded object, -1 if nowhere. */
  function IndexOf(m: Dict<Json>, name: string): (i: int)
    ensures -1 <= i < |m|
    ensures i == -1 <==> Get(m, name).None?
    ensures i >= 0 ==> m[i].key == name && Get(m, name) == Some(m[i].val)
  {
    if |m| == 0 then -1
    else if m[0].key == name then 0
    else
      var j := IndexOf(m[1..], name);
      if j < 0 then -1 else j + 1
  }

  /** A failed `v.(T)` type assertion. */
  function NotA(t: string): Failure {
    Panic("interface conversion: interface {} is not " + t)
  }

  /** `v.(string)` for a key that may be absent (then the field keeps its zero value). */
  function ReadString(m: Dict<Json>, k: Key): (r: Result<string>)
    ensures r.Ok? <==> Get(m, KeyName(k)).None? || Get(m, KeyName(k)).value.JStr?
    ensures r.Ok? ==> Get(m, KeyName(k)) == (if Get(m, KeyName(k)).None? then None else Some(JStr(r.value)))
    ensures Get(m, KeyName(k)).None? ==> r == Ok("")
    ensures r.Fail? ==> r.failure.Panic?
  {
    match Get<Json>(m, KeyName(k))
    case None => Ok("")
    case Some(JStr(x)) => Ok(x)
    case Some(_) => Fail(NotA("string"))
  }

  function ReadBool(m: Dict<Json>, k: Key): (r: Result<bool>)
    ensures r.Ok? <==> Get(m, KeyName(k)).None? || Get(m, KeyName(k)).value.JBool?
    ensures r.Ok? && Get(m, KeyName(k)).Some? ==> Get(m, KeyName(k)) == Some(JBool(r.value))
    ensures Get(m, KeyName(k)).None? ==> r == Ok(false)
    ensures r.Fail? ==> r.failure.Panic?
  {
    match Get<Json>(m, KeyName(k))
    case None => Ok(false)
    case Some(JBool(x)) => Ok(x)
    case Some(_) => Fail(NotA("bool"))
  }

  function ReadReal(m: Dict<Json>, k: Key): (r: Result<real>)
    ensures r.Ok? <==> Get(m, KeyName(k)).None? || Get(m, KeyName(k)).value.JNum?
    ensures r.Ok? && Get(m, KeyName(k)).Some? ==> Get(m, KeyName(k)) == Some(JNum(r.value))
    ensures Get(m, KeyName(k)).None? ==> r == Ok(0.0)
    ensures r.Fail? ==> r.failure.Panic?
  {
    match Get<Json>(m, KeyName(k))
    case None => Ok(0.0)
    case Some(JNum(x)) => Ok(x)
    case Some(_) => Fail(NotA("float64"))
  }

  /** Go's int64(float64) conversion: the fraction is dropped, rounding toward zero. */
  function Trunc(x: real): (n: int)
    ensures 0.0 <= x ==> n as real <= x < n as real + 1.0
    ensures x < 0.0 ==> n as real - 1.0 < x <= n as real
  {
    if 0.0 <= x then x.Floor else -((-x).Floor)
  }

  /** `int64(v.(float64))`: a number read and truncated. */
  function ReadInt(m: Dict<Json>, k: Key): (r: Result<int>)
    ensures r.Ok? <==> ReadReal(m, k).Ok?
    ensures r.Ok? ==> r.value == Trunc(ReadReal(m, k).value)
    ensures r.Fail? ==> r.failure.Panic?
  {
    var x :- ReadReal(m, k);
    Ok(Trunc(x))
  }

  /** The document holds `v` under key `k`, or lacks the key and `v` is "". */
  predicate StrAt(m: Dict<Json>, k: Key, v: string) {
    if Get(m, KeyName(k)).None? then v == "" else Get(m, KeyName(k)) == Some(JStr(v))
  }

  /** The document holds the number `v` under key `k`, or lacks the key and `v` is 0. */
  predicate RealAt(m: Dict<Json>, k: Key, v: real) {
    if Get(m, KeyName(k)).None? then v == 0.0 else Get(m, KeyName(k)) == Some(JNum(v))
  }

  /** The document holds a number under key `k` whose integer part is `n`, or lacks the key
      and `n` is 0. */
  predicate IntAt(m: Dict<Json>, k: Key, n: int) {
    if Get(m, KeyName(k)).None? then n == 0
    else Get(m, KeyName(k)).value.JNum? && n == Trunc(Get(m, KeyName(k)).value.n)
  }

  /** The document holds `b` under key `k`, or lacks the key and `b` is false. */
  predicate BoolAt(m: Dict<Json>, k: Key, b: bool) {
    if Get(m, KeyName(k)).None? then !b else Get(m, KeyName(k)) == Some(JBool(b))
  }

  /** The `required` list: every element must be a string. */
  function ReadStrings(items: seq<Json>): (r: Result<seq<string>>)
    ensures r.Ok? <==> forall i :: 0 <= i < |items| ==> items[i].JStr?
    ensures r.Ok? ==> EncodeStrings(r.value) == items
    ensures r.Fail? ==> r.failure.Panic?
  {
    if |items| == 0 then Ok([])
    else if !items[0].JStr? then Fail(NotA("string"))
    else
      var rest :- ReadStrings(items[1..]);
      assert forall i :: 1 <= i < |items| ==> items[i] == items[1..][i - 1];
      Ok([items[0].str] + rest)
  }

  // ---------------------------------------------------------------------------
  // Decoding

  /** The name encoding/json gives a JSON value's kind in an UnmarshalTypeError. */
  function JsonKind(j: Json): string {
    match j
    case JNull => "null"
    case JBool(_) => "bool"
    case JNum(_) => "number"
    case JStr(_) => "string"
    case JArr(_) => "array"
    case JObj(_) => "object"
  }

  /** FromJSON: a JSON object is decoded by its `type` and `$ref` keys; `null` gives no
      schema and no error; any other document is an error of json.Unmarshal naming its
      kind. */
  function FromJson(j: Json): (r: Result<Schema>)
    ensures j.JNull? ==> r == Ok(Nil)
    ensures !j.JNull? && !j.JObj? ==> r.IsError()
    ensures !j.JNull? && !j.JObj? ==>
      r.failure.msg == "json: cannot unmarshal " + JsonKind(j) + " into Go value of type map[string]interface {}"
    decreases j, 9
  {
    if j.JNull? then Ok(Nil)
    else if j.JObj? then Dispatch(j.members)
    else Fail(Error("json: cannot unmarshal " + JsonKind(j) + " into Go value of type map[string]interface {}"))
  }

  /** The schema types FromJSON recognises other than "object". */
  predicate IsTypedScalar(t: Option<Json>) {
    t == Some(JStr("string")) || t == Some(JStr("array")) || t == Some(JStr("integer"))
    || t == Some(JStr("number")) || t == Some(JStr("boolean"))
  }

  /** The body of FromJSON once the document is a JSON object: an object schema is
      returned at once; any other result gives way to a `$ref` key. */
  function Dispatch(m: Dict<Json>): (r: Result<Schema>)
    decreases m, 8
  {
    var t := Get(m, KeyName(KType));
    if t == Some(JStr("object")) then DecodeObject(m)
    else
      var typed := DecodeTyped(m, t);
      match Get<Json>(m, KeyName(KRef))
      case None => typed
      case Some(ref) =>
        if typed.Fail? && typed.failure.Aborts() then typed
        else if !ref.JStr? then Fail(NotA("string"))
        else if typed.Fail? then typed
        else Ok(RefNode(ref.str))
  }

  /** The switch on `type` for the types other than "object"; an unknown type, or a
      `type` that is not a string, decodes to no schema. */
  function DecodeTyped(m: Dict<Json>, t: Option<Json>): (r: Result<Schema>)
    ensures !IsTypedScalar(t) ==> r == Ok(Nil)
    ensures t == Some(JStr("string")) && r.Ok? ==> r.value.IsStr()
    ensures t == Some(JStr("array")) && r.Ok? ==> r.value.IsArray()
    ensures (t == Some(JStr("integer")) || t == Some(JStr("number"))) && r.Ok? ==> r.value.IsNumeric()
    ensures t == Some(JStr("boolean")) && r.Ok? ==> r.value.Node? && r.value.kind.Simple?
    decreases m, 7
  {
    if t == Some(JStr("string")) then DecodeString(m)
    else if t == Some(JStr("array")) then DecodeArray(m)
    else if t == Some(JStr("integer")) || t == Some(JStr("number")) then DecodeNumeric(m)
    else if t == Some(JStr("boolean")) then DecodeSimple(m)
    else Ok(Nil)
  }

  /** basicSchema.UnmarshalJSON: the common keywords.  `default` is not read back. */
  function DecodeCore(m: Dict<Json>): (r: Result<Core>)
    ensures r.Ok? ==> r.value.defaultValue == ""
    decreases m, 1
  {
    var uri :- ReadString(m, KSchema);
    var id :- ReadString(m, KId);
    var ref :- ReadString(m, KRef);
    var typ :- ReadString(m, KType);
    var title :- ReadString(m, KTitle);
    var description :- ReadString(m, KDescription);
    var allOf :- ReadSchemas(m, KAllOf);
    var anyOf :- ReadSchemas(m, KAnyOf);
    var oneOf :- ReadSchemas(m, KOneOf);
    var not :- ReadSchema(m, KNot);
    var definitions :- ReadDict(m, KDefinitions);
    Ok(Core(uri, id, ref, typ, title, description, allOf, anyOf, oneOf, not, definitions, ""))
  }

  /** A list of schemas (allOf, anyOf, oneOf): each element through FromJSON, in order. */
  function ReadSchemas(m: Dict<Json>, k: Key): (r: Result<seq<Schema>>)
    decreases m, 0
  {
    var i := IndexOf(m, KeyName(k));
    if i < 0 then Ok([])
    else
      match m[i].val
      case JArr(items) => DecodeList(items)
      case _ => Fail(NotA("[]interface {}"))
  }

  function DecodeList(items: seq<Json>): (r: Result<seq<Schema>>)
    decreases items, 0
  {
    if |items| == 0 then Ok([])
    else
      var x :- FromJson(items[0]);
      var rest :- DecodeList(items[1..]);
      Ok([x] + rest)
  }

  /** A single nested schema (not, items): FromJSON of the value; an absent key is nil. */
  function ReadSchema(m: Dict<Json>, k: Key): (r: Result<Schema>)
    decreases m, 0
  {
    var i := IndexOf(m, KeyName(k));
    if i < 0 then Ok(Nil) else FromJson(m[i].val)
  }

  /** A map of schemas (definitions, properties): each value through FromJSON, stored
      under its key in a map that starts empty. */
  function ReadDict(m: Dict<Json>, k: Key): (r: Result<Dict<Schema>>)
    decreases m, 0
  {
    var i := IndexOf(m, KeyName(k));
    if i < 0 then Ok([])
    else
      match m[i].val
      case JObj(members) => DecodeDict(members, [])
      case _ => Fail(NotA("map[string]interface {}"))
  }

  function DecodeDict(d: Dict<Json>, acc: Dict<Schema>): (r: Result<Dict<Schema>>)
    decreases d, 0
  {
    if |d| == 0 then Ok(acc)
    else
      var x :- FromJson(d[0].val);
      DecodeDict(d[1..], Put(acc, d[0].key, x))
  }

  /** defaultSimpleSchema.UnmarshalJSON with the basic layer's error kept (see
      SimpleLayerAsWritten): the basic layer and the format. */
  function DecodeSimpleLayer(m: Dict<Json>): (r: Result<(Core, string)>)
    ensures r.Ok? ==> r.value.0.defaultValue == ""
    ensures DecodeCore(m).Fail? ==> r == Fail(DecodeCore(m).failure)
    ensures r.Ok? ==> DecodeCore(m) == Ok(r.value.0) && StrAt(m, KFormat, r.value.1)
    decreases m, 2
  {
    var core :- DecodeCore(m);
    var format :- ReadString(m, KFormat);
    Ok((core, format))
  }

  /** A boolean schema. */
  function DecodeSimple(m: Dict<Json>): (r: Result<Schema>)
    ensures r.Ok? ==> r.value.Node? && r.value.kind.Simple?
    ensures DecodeCore(m).Fail? ==> r == Fail(DecodeCore(m).failure)
    ensures r.Ok? ==> DecodeCore(m) == Ok(r.value.core) && StrAt(m, KFormat, r.value.kind.format)
    decreases m, 3
  {
    var layer :- DecodeSimpleLayer(m);
    Ok(Node(layer.0, Simple(layer.1)))
  }

  /** defaultStringSchema.UnmarshalJSON: the simple layer, the pattern, and the lengths
      truncated to integers. */
  function DecodeString(m: Dict<Json>): (r: Result<Schema>)
    ensures r.Ok? ==> r.value.IsStr()
    ensures DecodeCore(m).Fail? ==> r == Fail(DecodeCore(m).failure)
    ensures r.Ok? ==> DecodeCore(m) == Ok(r.value.core) && StrAt(m, KFormat, r.value.kind.format)
    ensures r.Ok? ==> StrAt(m, KPattern, r.value.kind.pattern)
    ensures r.Ok? ==> IntAt(m, KMaxLength, r.value.kind.maxLength) && IntAt(m, KMinLength, r.value.kind.minLength)
    decreases m, 3
  {
    var layer :- DecodeSimpleLayer(m);
    var pattern :- ReadString(m, KPattern);
    var maxLength :- ReadInt(m, KMaxLength);
    var minLength :- ReadInt(m, KMinLength);
    Ok(Node(layer.0, Str(layer.1, pattern, maxLength, minLength)))
  }

  /** defaultNumericSchema.UnmarshalJSON: the simple layer, the bounds and both flags. */
  function DecodeNumeric(m: Dict<Json>): (r: Result<Schema>)
    ensures r.Ok? ==> r.value.IsNumeric()
    ensures DecodeCore(m).Fail? ==> r == Fail(DecodeCore(m).failure)
    ensures r.Ok? ==> DecodeCore(m) == Ok(r.value.core) && StrAt(m, KFormat, r.value.kind.format)
    ensures r.Ok? ==> RealAt(m, KMaximum, r.value.kind.maximum) && RealAt(m, KMinimum, r.value.kind.minimum)
    ensures r.Ok? ==> RealAt(m, KMultipleOf, r.value.kind.multipleOf)
    ensures r.Ok? ==> BoolAt(m, KExclusiveMaximum, r.value.kind.exclusiveMaximum) && BoolAt(m, KExclusiveMinimum, r.value.kind.exclusiveMinimum)
    decreases m, 3
  {
    var layer :- DecodeSimpleLayer(m);
    var maximum :- ReadReal(m, KMaximum);
    var minimum :- ReadReal(m, KMinimum);
    var multipleOf :- ReadReal(m, KMultipleOf);
    var exclusiveMaximum :- ReadBool(m, KExclusiveMaximum);
    var exclusiveMinimum :- ReadBool(m, KExclusiveMinimum);
    Ok(Node(layer.0, Numeric(layer.1, maximum, minimum, multipleOf, exclusiveMaximum, exclusiveMinimum)))
  }

  /** defaultArraySchema.UnmarshalJSON: the basic layer (its error returned), the items
      through FromJSON, the bounds truncated to integers, and both flags. */
  function DecodeArray(m: Dict<Json>): (r: Result<Schema>)
    ensures r.Ok? ==> r.value.IsArray()
    ensures DecodeCore(m).Fail? ==> r == Fail(DecodeCore(m).failure)
    ensures r.Ok? ==> DecodeCore(m) == Ok(r.value.core)
    ensures r.Ok? ==> IntAt(m, KMaxItems, r.value.kind.maxItems) && IntAt(m, KMinItems, r.value.kind.minItems)
    ensures r.Ok? ==> BoolAt(m, KAdditionalItems, r.value.kind.additionalItems) && BoolAt(m, KUniqueItems, r.value.kind.uniqueItems)
    ensures r.Ok? ==> Get(m, KeyName(KItems)) != Some(JNull) && ReadSchema(m, KItems) == Ok(r.value.kind.items)
    ensures DecodeCore(m).Ok? && Get(m, KeyName(KItems)) == Some(JNull) ==> r.Fail? && r.failure.Panic?
    decreases m, 3
  {
    var core :- DecodeCore(m);
    var items :- ReadItems(m);
    var maxItems :- ReadInt(m, KMaxItems);
    var minItems :- ReadInt(m, KMinItems);
    var additionalItems :- ReadBool(m, KAdditionalItems);
    var uniqueItems :- ReadBool(m, KUniqueItems);
    Ok(Node(core, Array(items, maxItems, minItems, additionalItems, uniqueItems)))
  }

  /** The `items` key: FromJSON of its value, after the program's `v.(interface{})`, which
      panics on a JSON null. */
  function ReadItems(m: Dict<Json>): (r: Result<Schema>)
    ensures Get(m, KeyName(KItems)) == Some(JNull) ==> r.Fail? && r.failure.Panic?
    ensures Get(m, KeyName(KItems)) != Some(JNull) ==> r == ReadSchema(m, KItems)
    decreases m, 1
  {
    if Get(m, KeyName(KItems)) == Some(JNull) then Fail(Panic("interface conversion: interface is nil, not interface {}"))
    else ReadSchema(m, KItems)
  }

  /** The `required` key: an array of strings. */
  function ReadRequired(m: Dict<Json>): (r: Result<seq<string>>)
    ensures Get(m, KeyName(KRequired)).None? ==> r == Ok([])
    ensures r.Ok? && Get(m, KeyName(KRequired)).Some? ==> Get(m, KeyName(KRequired)) == Some(JArr(EncodeStrings(r.value)))
    ensures r.Fail? ==> r.failure.Panic?
  {
    match Get<Json>(m, KeyName(KRequired))
    case None => Ok([])
    case Some(JArr(items)) => ReadStrings(items)
    case Some(_) => Fail(NotA("[]interface {}"))
  }

  /** The `additionalProperties` key as written: NewBoolOrSchema of the decoded value,
      which is a bool, or a map that is not a schema. */
  function AdditionalPropertiesAsWritten(m: Dict<Json>): (r: Option<BoolOrSchema>)
    ensures Get(m, KeyName(KAdditionalProperties)).None? <==> r.None?
    ensures r.Some? ==> r.value.schema == Nil
    ensures r.Some? ==> (r.value.boolean <==> Get(m, KeyName(KAdditionalProperties)) == Some(JBool(true)))
  {
    match Get<Json>(m, KeyName(KAdditionalProperties))
    case None => None
    case Some(JBool(b)) => Some(NewBoolOrSchema(DynBool(b)))
    case Some(_) => Some(NewBoolOrSchema(DynOther))
  }

  /** The `additionalProperties` key decoded for what it holds: a bool, or a schema
      through FromJSON. */
  function ReadAdditionalProperties(m: Dict<Json>): (r: Result<Option<BoolOrSchema>>)
    ensures Get(m, KeyName(KAdditionalProperties)).None? ==> r == Ok(None)
    ensures Get(m, KeyName(KAdditionalProperties)).Some? && Get(m, KeyName(KAdditionalProperties)).value.JBool? ==>
      r == Ok(Some(BoolOrSchema(Get(m, KeyName(KAdditionalProperties)).value.b, Nil)))
    ensures Get(m, KeyName(KAdditionalProperties)).Some? && Get(m, KeyName(KAdditionalProperties)).value.JObj? ==>
      (r.Ok? <==> FromJson(Get(m, KeyName(KAdditionalProperties)).value).Ok?) &&
      (r.Ok? ==> r == Ok(Some(BoolOrSchema(false, FromJson(Get(m, KeyName(KAdditionalProperties)).value).value))))
    ensures Get(m, KeyName(KAdditionalProperties)).Some? && !Get(m, KeyName(KAdditionalProperties)).value.JBool? &&
            !Get(m, KeyName(KAdditionalProperties)).value.JObj? ==>
      r == Ok(Some(BoolOrSchema(false, Nil)))
    decreases m, 0
  {
    var i := IndexOf(m, KeyName(KAdditionalProperties));
    if i < 0 then Ok(None)
    else
      match m[i].val
      case JBool(b) => Ok(Some(NewBoolOrSchema(DynBool(b))))
      case JObj(_) =>
        var s :- FromJson(m[i].val);
        Ok(Some(NewBoolOrSchema(DynSchema(s))))
      case _ => Ok(Some(NewBoolOrSchema(DynOther)))
  }

  /** defaultObjectSchema.UnmarshalJSON with the basic layer's error kept and
      `additionalProperties` decoded for what it holds (see ObjectAsWritten and
      AdditionalPropertiesAsWritten).  `x-go-path` is not read back, and the flag that
      suppresses it is unexported, so it reads back false. */
  function DecodeObject(m: Dict<Json>): (r: Result<Schema>)
    ensures r.Ok? ==> r.value.IsObject() && r.value.kind.goPath == "" && !r.value.kind.suppressXAttrs
    ensures DecodeCore(m).Fail? ==> r == Fail(DecodeCore(m).failure)
    ensures r.Ok? ==> DecodeCore(m) == Ok(r.value.core)
    ensures r.Ok? ==> IntAt(m, KMaxProperties, r.value.kind.maxProperties) && IntAt(m, KMinProperties, r.value.kind.minProperties)
    ensures r.Ok? ==> ReadDict(m, KProperties) == Ok(r.value.kind.properties) && ReadRequired(m) == Ok(r.value.kind.required)
    ensures r.Ok? ==> ReadAdditionalProperties(m) == Ok(r.value.kind.additionalProperties)
    decreases m, 3
  {
    var core :- DecodeCore(m);
    var maxProperties :- ReadInt(m, KMaxProperties);
    var minProperties :- ReadInt(m, KMinProperties);
    var additional :- ReadAdditionalProperties(m);
    var properties :- ReadDict(m, KProperties);
    var required :- ReadRequired(m);
    Ok(Node(core, Object(properties, required, maxProperties, minProperties, additional, "", false)))
  }

  // ---------------------------------------------------------------------------
  // Two decoders as written

  /** defaultSimpleSchema.UnmarshalJSON as written: the basic layer's error is
      overwritten by the second json.Unmarshal, which cannot fail on the same document,
      so the layer comes back without error and without its basic part (None). */
  function SimpleLayerAsWritten(m: Dict<Json>): (r: Result<(Option<Core>, string)>)
    ensures DecodeCore(m).IsError() && ReadString(m, KFormat).Ok? ==> r == Ok((None, ReadString(m, KFormat).value))
    ensures DecodeCore(m).Ok? ==> r == DecodeSimpleLayerWithSome(m)
  {
    var core := DecodeCore(m);
    if core.Fail? && core.failure.Aborts() then Fail(core.failure)
    else
      var format :- ReadString(m, KFormat);
      Ok((if core.Ok? then Some(core.value) else None, format))
  }

  /** The corrected layer with its basic part wrapped as SimpleLayerAsWritten returns it. */
  function DecodeSimpleLayerWithSome(m: Dict<Json>): Result<(Option<Core>, string)> {
    var layer :- DecodeSimpleLayer(m);
    Ok((Some(layer.0), layer.1))
  }

  /** `properties` read into the map the object decoder as written leaves nil when the
      basic layer failed: the first value that decodes cannot be stored. */
  function ReadDictIntoNil(m: Dict<Json>): (r: Result<Dict<Schema>>)
    ensures r.Ok? ==> r.value == []
  {
    var i := IndexOf(m, KeyName(KProperties));
    if i < 0 then Ok([])
    else
      match m[i].val
      case JObj(members) =>
        if |members| == 0 then Ok([])
        else
          var x :- FromJson(members[0].val);
          Fail(Panic("assignment to entry in nil map"))
      case _ => Fail(NotA("map[string]interface {}"))
  }

  /** defaultObjectSchema.UnmarshalJSON as written: as for the simple layer, the basic
      layer's error is dropped and its part left out (None); the properties map is then
      nil too; and `additionalProperties` goes through AdditionalPropertiesAsWritten. */
  function ObjectAsWritten(m: Dict<Json>): (r: Result<(Option<Core>, Kind)>)
    ensures r.Ok? ==> r.value.1.Object? && (r.value.0.None? <==> DecodeCore(m).Fail?)
    ensures r.Ok? ==> r.value.1.additionalProperties == AdditionalPropertiesAsWritten(m)
  {
    var core := DecodeCore(m);
    if core.Fail? && core.failure.Aborts() then Fail(core.failure)
    else
      var maxProperties :- ReadInt(m, KMaxProperties);
      var minProperties :- ReadInt(m, KMinProperties);
      var additional := AdditionalPropertiesAsWritten(m);
      var properties :- if core.Ok? then ReadDict(m, KProperties) else ReadDictIntoNil(m);
      var required :- ReadRequired(m);
      Ok((if core.Ok? then Some(core.value) else None,
          Object(properties, required, maxProperties, minProperties, additional, "", false)))
  }

  // ---------------------------------------------------------------------------
  // BoolOrSchema

  /** BoolOrSchema.UnmarshalJSON.  A document starting with `{` is decoded into the
      JSONSchema interface, which encoding/json cannot do for a nil interface with
      methods, so it is an error; any other document sets Boolean to whether it is
      anything but `false`. */
  function UnmarshalBoolOrSchema(j: Json): (r: Result<BoolOrSchema>)
    ensures j.JObj? <==> r.Fail?
    ensures r.Fail? ==> r.IsError()
    ensures r.Ok? ==> r.value.schema == Nil && (r.value.boolean <==> j != JBool(false))
  {
    if j.JObj? then Fail(Error("json: cannot unmarshal object into Go value of type schema.JSONSchema"))
    else Ok(BoolOrSchema(j != JBool(false), Nil))
  }
}

=== FILE: codec_laws.dfy ===
/** Laws of the JSON codec: what json.Marshal writes for each field, how FromJSON
    dispatches, that decoding an encoded schema gives it back, and the two decoders
    whose basic layer loses its error as written. */
module CodecLaws {
  import opened Results
  import opened Dict
  import opened Schema
  import opened JsonKeys
  import opened Codec

  // ---------------------------------------------------------------------------
  // What the encoder writes

  /** The entry Emit writes for a field is the one a decoder finds under its key. */
  lemma {:induction false} EmitGet(s: Schema, keys: seq<Key>, k: Key)
    requires s.Node?
    ensures Get(Emit(s, keys), KeyName(k)) == (if k in keys then Field(s, k) else None)
    decreases |keys|
  {
    if |keys| > 0 {
      EmitStep(s, keys, k);
      EmitGet(s, keys[1..], k);
      assert k in keys <==> k == keys[0] || k in keys[1..];
    }
  }

  /** The first key of Emit is the head field's, when that field is present. */
  lemma EmitStep(s: Schema, keys: seq<Key>, k: Key)
    requires s.Node? && |keys| > 0
    ensures Get(Emit(s, keys), KeyName(k))
            == if Field(s, keys[0]).Some? && keys[0] == k then Field(s, keys[0]) else Get(Emit(s, keys[1..]), KeyName(k))
  {
    var f := Field(s, keys[0]);
    var rest := Emit(s, keys[1..]);
    KeyNameInjective(keys[0], k);
    if f.Some? {
      assert Emit(s, keys) == [Entry(KeyName(keys[0]), f.value)] + rest;
      GetCons(Entry(KeyName(keys[0]), f.value), rest, KeyName(k));
    } else {
      assert Emit(s, keys) == rest;
    }
  }

  /** The key of one field in an encoded node holds exactly what Field says. */
  lemma FieldOfEncoding(s: Schema, k: Key)
    requires s.Node?
    ensures ToJson(s).JObj? && Get(ToJson(s).members, KeyName(k)) == Field(s, k)
  {
    EmitGet(s, AllKeys, k);
    AllKeysListed(k);
  }

  /** FieldOfEncoding, with the key written out. */
  lemma NamedField(s: Schema, k: Key, name: string)
    requires s.Node? && KeyName(k) == name
    ensures ToJson(s).JObj? && Get(ToJson(s).members, name) == Field(s, k)
  {
    FieldOfEncoding(s, k);
  }

  /** Every key of an encoded node holds exactly what Field says. */
  lemma FieldsOfEncoding(s: Schema)
    requires s.Node?
    ensures ToJson(s).JObj?
    ensures forall k :: Get(ToJson(s).members, KeyName(k)) == Field(s, k)
  {
    forall k ensures Get(ToJson(s).members, KeyName(k)) == Field(s, k) {
      FieldOfEncoding(s, k);
    }
  }

  /** An empty string, list or map field has no key, any other has one (three of them;
      every field is written the same way, see Field). */
  lemma EncodingOmitsEmpty(s: Schema)
    requires s.Node?
    ensures var m := ToJson(s).members;
            && (Get(m, "title").None? <==> s.core.title == "")
            && (Get(m, "definitions").None? <==> s.core.definitions == [])
            && (s.kind.Object? ==> (Get(m, "required").None? <==> s.kind.required == []))
  {
    assert Field(s, KTitle).None? <==> s.core.title == "";
    assert Field(s, KDefinitions).None? <==> s.core.definitions == [];
    assert s.kind.Object? ==> (Field(s, KRequired).None? <==> s.kind.required == []);
    Omitted(s, KTitle, "title", s.core.title == "");
    Omitted(s, KDefinitions, "definitions", s.core.definitions == []);
    if s.kind.Object? {
      Omitted(s, KRequired, "required", s.kind.required == []);
    }
  }

  /** A zero number or false flag has no key, and a field the node's kind lacks has none
      either. */
  lemma EncodingOmitsZero(s: Schema)
    requires s.Node?
    ensures var m := ToJson(s).members;
            && (s.kind.Str? ==> (Get(m, "maxLength").None? <==> s.kind.maxLength == 0))
            && (s.kind.Numeric? ==> (Get(m, "exclusiveMaximum").None? <==> !s.kind.exclusiveMaximum))
            && (!s.kind.Object? ==> Get(m, "additionalProperties").None?)
  {
    assert s.kind.Str? ==> (Field(s, KMaxLength).None? <==> s.kind.maxLength == 0);
    assert s.kind.Numeric? ==> (Field(s, KExclusiveMaximum).None? <==> !s.kind.exclusiveMaximum);
    assert !s.kind.Object? ==> Field(s, KAdditionalProperties).None?;
    if s.kind.Str? {
      Omitted(s, KMaxLength, "maxLength", s.kind.maxLength == 0);
    }
    if s.kind.Numeric? {
      Omitted(s, KExclusiveMaximum, "exclusiveMaximum", !s.kind.exclusiveMaximum);
    }
    if !s.kind.Object? {
      Omitted(s, KAdditionalProperties, "additionalProperties", true);
    }
  }

  /** The key `name` of field `k` is missing exactly when `zero` holds. */
  lemma Omitted(s: Schema, k: Key, name: string, zero: bool)
    requires s.Node? && KeyName(k) == name && (Field(s, k).None? <==> zero)
    ensures Get(ToJson(s).members, name).None? <==> zero
  {
    NamedField(s, k, name);
  }

  /** NewMapSchema writes `"additionalProperties": true`. */
  lemma MapSchemaEncoding(suppressXAttrs: bool)
    ensures Get(ToJson(NewMapSchema(suppressXAttrs)).members, "additionalProperties") == Some(JBool(true))
    ensures Get(ToJson(NewMapSchema(suppressXAttrs)).members, "type") == Some(JStr("object"))
  {
    NamedField(NewMapSchema(suppressXAttrs), KAdditionalProperties, "additionalProperties");
    NamedField(NewMapSchema(suppressXAttrs), KType, "type");
  }

  // ---------------------------------------------------------------------------
  // The dispatch of FromJSON

  /** FromJSON on an object: "object" is decoded as an object schema whatever else the
      document holds; otherwise a `$ref` key replaces a successful result with a node
      holding only that reference; without `$ref` an unknown type gives no schema. */
  lemma FromJsonDispatch(m: Dict<Json>)
    ensures var r := FromJson(JObj(m));
            var t := Get(m, KeyName(KType));
            var ref := Get(m, KeyName(KRef));
            && (t == Some(JStr("object")) ==> r == DecodeObject(m))
            && (t != Some(JStr("object")) && ref.None? ==> r == DecodeTyped(m, t))
            && (t != Some(JStr("object")) && ref.Some? && r.Ok? ==> ref.value.JStr? && r == Ok(RefNode(ref.value.str)))
            && (t != Some(JStr("object")) && ref.Some? && ref.value.JStr? && DecodeTyped(m, t).Ok?
                ==> r == Ok(RefNode(ref.value.str)))
            && (t != Some(JStr("object")) && ref.Some? && DecodeTyped(m, t).IsError() ==> r.Fail?)
  {
  }

  // ---------------------------------------------------------------------------
  // Nested schemas

  /** A list of schemas decodes element by element, in order, and fails as soon as one
      element does. */
  lemma {:induction false} DecodeListSpec(items: seq<Json>)
    ensures DecodeList(items).Ok? <==> forall i :: 0 <= i < |items| ==> FromJson(items[i]).Ok?
    ensures DecodeList(items).Ok? ==> |DecodeList(items).value| == |items|
    ensures DecodeList(items).Ok? ==>
              forall i :: 0 <= i < |items| ==> FromJson(items[i]) == Ok(DecodeList(items).value[i])
    decreases |items|
  {
    if |items| > 0 {
      DecodeListSpec(items[1..]);
      assert forall i :: 1 <= i < |items| ==> items[1..][i - 1] == items[i];
      if FromJson(items[0]).Ok? && DecodeList(items[1..]).Ok? {
        var rest := DecodeList(items[1..]).value;
        assert DecodeList(items).value == [FromJson(items[0]).value] + rest;
      }
    }
  }

  /** A map of schemas decodes value by value: the result has the keys of the document
      (next to those already present), each bound to its decoded value, and the other keys
      keep what they had. */
  lemma {:induction false} DecodeDictSpec(d: Dict<Json>, acc: Dict<Schema>)
    requires Distinct(d)
    ensures var r := DecodeDict(d, acc);
            r.Ok? ==> && Keys(r.value) == Keys(acc) + Keys(d)
                      && (forall k :: k !in Keys(d) ==> Get(r.value, k) == Get(acc, k))
                      && forall i :: 0 <= i < |d| ==>
                           Get(r.value, d[i].key).Some? && FromJson(d[i].val) == Ok(Get(r.value, d[i].key).value)
    decreases |d|
  {
    if |d| > 0 && DecodeDict(d, acc).Ok? {
      var e := d[0];
      var t := d[1..];
      var x := FromJson(e.val).value;
      var acc' := Put(acc, e.key, x);
      assert DecodeDict(d, acc) == DecodeDict(t, acc');
      assert Distinct(t) by {
        forall i, j | 0 <= i < j < |t| ensures t[i].key != t[j].key {
          assert t[i] == d[i + 1] && t[j] == d[j + 1];
        }
      }
      DecodeDictSpec(t, acc');
      var r := DecodeDict(t, acc').value;
      assert Keys(d) == {e.key} + Keys(t);
      KeysIndex(t, e.key);
      assert e.key !in Keys(t) by {
        forall i | 0 <= i < |t| ensures t[i].key != e.key {
          assert t[i] == d[i + 1];
        }
      }
      forall i | 0 <= i < |d| ensures Get(r, d[i].key).Some? && FromJson(d[i].val) == Ok(Get(r, d[i].key).value) {
        if i > 0 {
          assert d[i] == t[i - 1];
        }
      }
    }
  }

  // ---------------------------------------------------------------------------
  // Round trip

  /** A whole number survives the float64 it is written as. */
  lemma TruncInt(n: int)
    ensures Trunc(n as real) == n
  {
  }

  /** The schemas json.Marshal and FromJSON carry through unchanged: no `default` (it is
      not read back); a node holding a `$ref` is a bare reference (FromJSON replaces the
      rest); every other node carries the type its Go schema type is decoded by; object
      nodes have no Go path and no suppressed attributes (neither is read back); maps have
      distinct keys; and a schema under `additionalProperties` stands alone. */
  predicate Canonical(s: Schema)
    decreases s
  {
    match s
    case Nil => true
    case Node(c, k) =>
      && c.defaultValue == ""
      && (forall i :: 0 <= i < |c.allOf| ==> Canonical(c.allOf[i]))
      && (forall i :: 0 <= i < |c.anyOf| ==> Canonical(c.anyOf[i]))
      && (forall i :: 0 <= i < |c.oneOf| ==> Canonical(c.oneOf[i]))
      && Canonical(c.not)
      && Distinct(c.definitions)
      && (forall i :: 0 <= i < |c.definitions| ==> Canonical(c.definitions[i].val))
      && (k.Basic? ==> c.ref != "" && s == RefNode(c.ref))
      && (!k.Basic? ==> c.ref == "")
      && (k.Simple? ==> c.jsonType == "boolean")
      && (k.Str? ==> c.jsonType == "string")
      && (k.Numeric? ==> c.jsonType == "integer" || c.jsonType == "number")
      && (k.Array? ==> c.jsonType == "array" && Canonical(k.items))
      && (k.Object? ==>
            && c.jsonType == "object" && k.goPath == "" && !k.suppressXAttrs
            && Distinct(k.properties)
            && (forall i :: 0 <= i < |k.properties| ==> Canonical(k.properties[i].val))
            && (k.additionalProperties.None? || k.additionalProperties.value.schema == Nil
                || (!k.additionalProperties.value.boolean && Canonical(k.additionalProperties.value.schema))))
  }

  /** Decoding what ToJSON writes gives back the schema. */
  lemma {:induction false} RoundTrip(s: Schema)
    requires Canonical(s)
    ensures FromJson(ToJson(s)) == Ok(s)
    decreases s, 2
  {
    if s.Node? {
      CoreRoundTrip(s);
      if s.kind.Basic? {
        BasicRoundTrip(s);
      } else if s.kind.Simple? {
        SimpleRoundTrip(s);
      } else if s.kind.Str? {
        StrRoundTrip(s);
      } else if s.kind.Numeric? {
        NumericRoundTrip(s);
      } else if s.kind.Array? {
        ArrayRoundTrip(s);
      } else {
        ObjectRoundTrip(s);
      }
    }
  }

  lemma {:induction false} ListRoundTrip(xs: seq<Schema>)
    requires forall i :: 0 <= i < |xs| ==> Canonical(xs[i])
    ensures DecodeList(EncodeList(xs)) == Ok(xs)
    decreases xs, 0
  {
    if |xs| > 0 {
      RoundTrip(xs[0]);
      ListRoundTrip(xs[1..]);
      assert EncodeList(xs)[1..] == EncodeList(xs[1..]);
      assert [xs[0]] + xs[1..] == xs;
    }
  }

  /** Decoding the map entries one by one into `acc` appends them in order. */
  lemma {:induction false} DictRoundTrip(t: Dict<Schema>, acc: Dict<Schema>)
    requires Distinct(acc + t)
    requires forall i :: 0 <= i < |t| ==> Canonical(t[i].val)
    ensures DecodeDict(EncodeDict(t), acc) == Ok(acc + t)
    decreases t, 0
  {
    if |t| == 0 {
      assert acc + t == acc;
    } else {
      var e := t[0];
      var enc := EncodeDict(t);
      RoundTrip(e.val);
      DistinctHead(acc, t);
      PutShape(acc, e.key, e.val);
      assert enc[0] == Entry(e.key, ToJson(e.val)) && enc[1..] == EncodeDict(t[1..]);
      assert DecodeDict(enc, acc) == DecodeDict(enc[1..], acc + [e]);
      DictRoundTrip(t[1..], acc + [e]);
    }
  }

  lemma DistinctHead(acc: Dict<Schema>, t: Dict<Schema>)
    requires |t| > 0 && Distinct(acc + t)
    ensures t[0].key !in Keys(acc)
    ensures acc + t == (acc + [t[0]]) + t[1..] && Distinct((acc + [t[0]]) + t[1..])
    ensures forall i :: 0 <= i < |t[1..]| ==> t[1..][i] == t[i + 1]
  {
    KeysIndex(acc, t[0].key);
    forall i | 0 <= i < |acc| ensures acc[i].key != t[0].key {
      assert (acc + t)[i] == acc[i] && (acc + t)[|acc|] == t[0];
    }
    assert acc + t == (acc + [t[0]]) + t[1..];
  }

  /** The basic layer of an encoded canonical node reads back. */
  lemma {:induction false} CoreRoundTrip(s: Schema)
    requires s.Node? && Canonical(s)
    ensures DecodeCore(ToJson(s).members) == Ok(s.core)
    decreases s, 1
  {
    CoreStringsRead(s);
    CoreNestedRead(s);
    CoreDecoded(ToJson(s).members, s.core);
  }

  lemma CoreStringsRead(s: Schema)
    requires s.Node?
    ensures var m := ToJson(s).members;
            var c := s.core;
            && ReadString(m, KSchema) == Ok(c.schemaUri) && ReadString(m, KId) == Ok(c.id)
            && ReadString(m, KRef) == Ok(c.ref) && ReadString(m, KType) == Ok(c.jsonType)
            && ReadString(m, KTitle) == Ok(c.title) && ReadString(m, KDescription) == Ok(c.description)
  {
    var c := s.core;
    CoreFields(s);
    StringRead(s, KSchema, c.schemaUri);
    StringRead(s, KId, c.id);
    StringRead(s, KRef, c.ref);
    StringRead(s, KType, c.jsonType);
    StringRead(s, KTitle, c.title);
    StringRead(s, KDescription, c.description);
  }

  lemma {:induction false} CoreNestedRead(s: Schema)
    requires s.Node? && Canonical(s)
    ensures var m := ToJson(s).members;
            var c := s.core;
            && ReadSchemas(m, KAllOf) == Ok(c.allOf) && ReadSchemas(m, KAnyOf) == Ok(c.anyOf)
            && ReadSchemas(m, KOneOf) == Ok(c.oneOf) && ReadSchema(m, KNot) == Ok(c.not)
            && ReadDict(m, KDefinitions) == Ok(c.definitions)
    decreases s, 0
  {
    var c := s.core;
    CoreFields(s);
    SchemasRead(s, KAllOf, c.allOf);
    SchemasRead(s, KAnyOf, c.anyOf);
    SchemasRead(s, KOneOf, c.oneOf);
    SchemaRead(s, KNot, c.not);
    DictRead(s, KDefinitions, c.definitions);
  }

  lemma CoreFields(s: Schema)
    requires s.Node?
    ensures var c := s.core;
            && Field(s, KSchema) == OmitEmpty(c.schemaUri) && Field(s, KId) == OmitEmpty(c.id)
            && Field(s, KRef) == OmitEmpty(c.ref) && Field(s, KType) == OmitEmpty(c.jsonType)
            && Field(s, KTitle) == OmitEmpty(c.title) && Field(s, KDescription) == OmitEmpty(c.description)
            && Field(s, KAllOf) == (if c.allOf == [] then None else Some(JArr(EncodeList(c.allOf))))
            && Field(s, KAnyOf) == (if c.anyOf == [] then None else Some(JArr(EncodeList(c.anyOf))))
            && Field(s, KOneOf) == (if c.oneOf == [] then None else Some(JArr(EncodeList(c.oneOf))))
            && Field(s, KNot) == (if c.not == Nil then None else Some(ToJson(c.not)))
            && Field(s, KDefinitions) == (if c.definitions == [] then None else Some(JObj(EncodeDict(c.definitions))))
  {
  }

  lemma CoreDecoded(m: Dict<Json>, c: Core)
    requires c.defaultValue == ""
    requires ReadString(m, KSchema) == Ok(c.schemaUri) && ReadString(m, KId) == Ok(c.id)
    requires ReadString(m, KRef) == Ok(c.ref) && ReadString(m, KType) == Ok(c.jsonType)
    requires ReadString(m, KTitle) == Ok(c.title) && ReadString(m, KDescription) == Ok(c.description)
    requires ReadSchemas(m, KAllOf) == Ok(c.allOf) && ReadSchemas(m, KAnyOf) == Ok(c.anyOf)
    requires ReadSchemas(m, KOneOf) == Ok(c.oneOf) && ReadSchema(m, KNot) == Ok(c.not)
    requires ReadDict(m, KDefinitions) == Ok(c.definitions)
    ensures DecodeCore(m) == Ok(c)
  {
  }

  lemma StringRead(s: Schema, k: Key, x: string)
    requires s.Node? && Field(s, k) == OmitEmpty(x)
    ensures ReadString(ToJson(s).members, k) == Ok(x)
  {
    FieldOfEncoding(s, k);
  }

  lemma {:induction false} SchemasRead(s: Schema, k: Key, xs: seq<Schema>)
    requires s.Node? && Field(s, k) == (if xs == [] then None else Some(JArr(EncodeList(xs))))
    requires forall i :: 0 <= i < |xs| ==> Canonical(xs[i])
    ensures ReadSchemas(ToJson(s).members, k) == Ok(xs)
    decreases xs, 1
  {
    ListRoundTrip(xs);
    FieldOfEncoding(s, k);
  }

  lemma {:induction false} SchemaRead(s: Schema, k: Key, x: Schema)
    requires s.Node? && Field(s, k) == (if x == Nil then None else Some(ToJson(x)))
    requires Canonical(x)
    ensures ReadSchema(ToJson(s).members, k) == Ok(x)
    decreases x, 3
  {
    RoundTrip(x);
    FieldOfEncoding(s, k);
  }

  lemma {:induction false} DictRead(s: Schema, k: Key, d: Dict<Schema>)
    requires s.Node? && Field(s, k) == (if d == [] then None else Some(JObj(EncodeDict(d))))
    requires Distinct(d) && forall i :: 0 <= i < |d| ==> Canonical(d[i].val)
    ensures ReadDict(ToJson(s).members, k) == Ok(d)
    decreases d, 2
  {
    FieldOfEncoding(s, k);
    DictReadFrom(ToJson(s).members, k, d);
  }

  lemma {:induction false} DictReadFrom(m: Dict<Json>, k: Key, d: Dict<Schema>)
    requires Get(m, KeyName(k)) == (if d == [] then None else Some(JObj(EncodeDict(d))))
    requires Distinct(d) && forall i :: 0 <= i < |d| ==> Canonical(d[i].val)
    ensures ReadDict(m, k) == Ok(d)
    decreases d, 1
  {
    var i := IndexOf(m, KeyName(k));
    if d != [] {
      assert m[i].val == JObj(EncodeDict(d));
      assert [] + d == d;
      DictRoundTrip(d, []);
      assert DecodeDict(EncodeDict(d), []) == Ok(d);
    }
  }

  lemma IntRead(s: Schema, k: Key, n: int)
    requires s.Node? && Field(s, k) == OmitZero(n)
    ensures ReadInt(ToJson(s).members, k) == Ok(n)
  {
    FieldOfEncoding(s, k);
    TruncInt(n);
  }

  lemma RealRead(s: Schema, k: Key, x: real)
    requires s.Node? && Field(s, k) == OmitZeroReal(x)
    ensures ReadReal(ToJson(s).members, k) == Ok(x)
  {
    FieldOfEncoding(s, k);
  }

  lemma BoolRead(s: Schema, k: Key, b: bool)
    requires s.Node? && Field(s, k) == OmitFalse(b)
    ensures ReadBool(ToJson(s).members, k) == Ok(b)
  {
    FieldOfEncoding(s, k);
  }

  /** The two keys Dispatch looks at first. */
  lemma TypeAndRef(s: Schema)
    requires s.Node?
    ensures Get(ToJson(s).members, KeyName(KType)) == OmitEmpty(s.core.jsonType)
    ensures Get(ToJson(s).members, KeyName(KRef)) == OmitEmpty(s.core.ref)
  {
    FieldOfEncoding(s, KType);
    FieldOfEncoding(s, KRef);
  }

  lemma BasicRoundTrip(s: Schema)
    requires s.Node? && s.kind.Basic? && Canonical(s)
    ensures Dispatch(ToJson(s).members) == Ok(s)
  {
    TypeAndRef(s);
    RefDispatch(ToJson(s).members, s.core.ref);
  }

  /** A document with a `$ref` and no `type`. */
  lemma RefDispatch(m: Dict<Json>, ref: string)
    requires Get(m, KeyName(KType)).None? && Get(m, KeyName(KRef)) == Some(JStr(ref))
    ensures Dispatch(m) == Ok(RefNode(ref))
  {
  }

  /** A document with a `type` other than "object" and no `$ref`. */
  lemma TypedDispatch(m: Dict<Json>, t: string)
    requires t != "object" && Get(m, KeyName(KType)) == Some(JStr(t)) && Get(m, KeyName(KRef)).None?
    ensures Dispatch(m) == DecodeTyped(m, Some(JStr(t)))
  {
  }

  lemma SimpleRoundTrip(s: Schema)
    requires s.Node? && s.kind.Simple? && Canonical(s)
    requires DecodeCore(ToJson(s).members) == Ok(s.core)
    ensures Dispatch(ToJson(s).members) == Ok(s)
  {
    var k := s.kind;
    assert Field(s, KFormat) == OmitEmpty(k.format) by { SimpleFields(s); }
    TypeAndRef(s);
    StringRead(s, KFormat, k.format);
    SimpleDecoded(ToJson(s).members, s.core, k.format);
  }

  lemma SimpleFields(s: Schema)
    requires s.Node? && s.kind.Simple?
    ensures Field(s, KFormat) == OmitEmpty(s.kind.format)
  {
  }

  lemma SimpleDecoded(m: Dict<Json>, c: Core, format: string)
    requires Get(m, KeyName(KType)) == Some(JStr("boolean")) && Get(m, KeyName(KRef)).None?
    requires DecodeCore(m) == Ok(c) && ReadString(m, KFormat) == Ok(format)
    ensures Dispatch(m) == Ok(Node(c, Simple(format)))
  {
    assert "boolean"[0] != "string"[0] && "boolean"[0] != "array"[0] && "boolean"[0] != "integer"[0];
    assert "boolean"[0] != "number"[0] && "boolean"[0] != "object"[0];
    assert DecodeSimpleLayer(m) == Ok((c, format));
    assert DecodeSimple(m) == Ok(Node(c, Simple(format)));
    assert DecodeTyped(m, Some(JStr("boolean"))) == DecodeSimple(m);
  }

  lemma StrRoundTrip(s: Schema)
    requires s.Node? && s.kind.Str? && Canonical(s)
    requires DecodeCore(ToJson(s).members) == Ok(s.core)
    ensures Dispatch(ToJson(s).members) == Ok(s)
  {
    var k := s.kind;
    StrFields(s);
    TypeAndRef(s);
    StringRead(s, KFormat, k.format);
    StringRead(s, KPattern, k.pattern);
    IntRead(s, KMaxLength, k.maxLength);
    IntRead(s, KMinLength, k.minLength);
    StrDecoded(ToJson(s).members, s.core, k.format, k.pattern, k.maxLength, k.minLength);
  }

  lemma StrFields(s: Schema)
    requires s.Node? && s.kind.Str?
    ensures Field(s, KFormat) == OmitEmpty(s.kind.format) && Field(s, KPattern) == OmitEmpty(s.kind.pattern)
    ensures Field(s, KMaxLength) == OmitZero(s.kind.maxLength) && Field(s, KMinLength) == OmitZero(s.kind.minLength)
  {
  }

  lemma StrDecoded(m: Dict<Json>, c: Core, format: string, pattern: string, maxLength: int, minLength: int)
    requires Get(m, KeyName(KType)) == Some(JStr("string")) && Get(m, KeyName(KRef)).None?
    requires DecodeCore(m) == Ok(c) && ReadString(m, KFormat) == Ok(format) && ReadString(m, KPattern) == Ok(pattern)
    requires ReadInt(m, KMaxLength) == Ok(maxLength) && ReadInt(m, KMinLength) == Ok(minLength)
    ensures Dispatch(m) == Ok(Node(c, Str(format, pattern, maxLength, minLength)))
  {
    assert "string"[0] != "object"[0];
    assert DecodeSimpleLayer(m) == Ok((c, format));
    assert DecodeString(m) == Ok(Node(c, Str(format, pattern, maxLength, minLength)));
    assert DecodeTyped(m, Some(JStr("string"))) == DecodeString(m);
  }

  lemma NumericRoundTrip(s: Schema)
    requires s.Node? && s.kind.Numeric? && Canonical(s)
    requires DecodeCore(ToJson(s).members) == Ok(s.core)
    ensures Dispatch(ToJson(s).members) == Ok(s)
  {
    var k := s.kind;
    NumericFields(s);
    TypeAndRef(s);
    StringRead(s, KFormat, k.format);
    RealRead(s, KMaximum, k.maximum);
    RealRead(s, KMinimum, k.minimum);
    RealRead(s, KMultipleOf, k.multipleOf);
    BoolRead(s, KExclusiveMaximum, k.exclusiveMaximum);
    BoolRead(s, KExclusiveMinimum, k.exclusiveMinimum);
    NumericDecoded(ToJson(s).members, s.core, k);
  }

  lemma NumericFields(s: Schema)
    requires s.Node? && s.kind.Numeric?
    ensures Field(s, KFormat) == OmitEmpty(s.kind.format)
    ensures Field(s, KMaximum) == OmitZeroReal(s.kind.maximum) && Field(s, KMinimum) == OmitZeroReal(s.kind.minimum)
    ensures Field(s, KMultipleOf) == OmitZeroReal(s.kind.multipleOf)
    ensures Field(s, KExclusiveMaximum) == OmitFalse(s.kind.exclusiveMaximum)
    ensures Field(s, KExclusiveMinimum) == OmitFalse(s.kind.exclusiveMinimum)
  {
  }

  lemma NumericDecoded(m: Dict<Json>, c: Core, k: Kind)
    requires k.Numeric? && (c.jsonType == "integer" || c.jsonType == "number")
    requires Get(m, KeyName(KType)) == Some(JStr(c.jsonType)) && Get(m, KeyName(KRef)).None?
    requires DecodeCore(m) == Ok(c) && ReadString(m, KFormat) == Ok(k.format)
    requires ReadReal(m, KMaximum) == Ok(k.maximum) && ReadReal(m, KMinimum) == Ok(k.minimum)
    requires ReadReal(m, KMultipleOf) == Ok(k.multipleOf)
    requires ReadBool(m, KExclusiveMaximum) == Ok(k.exclusiveMaximum)
    requires ReadBool(m, KExclusiveMinimum) == Ok(k.exclusiveMinimum)
    ensures Dispatch(m) == Ok(Node(c, k))
  {
    assert "integer"[0] != "string"[0] && "integer"[0] != "array"[0] && "integer"[0] != "object"[0];
    assert "number"[0] != "string"[0] && "number"[0] != "array"[0] && "number"[0] != "object"[0];
    assert DecodeSimpleLayer(m) == Ok((c, k.format));
    assert DecodeNumeric(m) == Ok(Node(c, k));
    assert DecodeTyped(m, Some(JStr(c.jsonType))) == DecodeNumeric(m);
  }

  lemma {:induction false} ArrayRoundTrip(s: Schema)
    requires s.Node? && s.kind.Array? && Canonical(s)
    requires DecodeCore(ToJson(s).members) == Ok(s.core)
    ensures Dispatch(ToJson(s).members) == Ok(s)
    decreases s, 1
  {
    var k := s.kind;
    ArrayFields(s);
    TypeAndRef(s);
    SchemaRead(s, KItems, k.items);
    FieldOfEncoding(s, KItems);
    IntRead(s, KMaxItems, k.maxItems);
    IntRead(s, KMinItems, k.minItems);
    BoolRead(s, KAdditionalItems, k.additionalItems);
    BoolRead(s, KUniqueItems, k.uniqueItems);
    ArrayDecoded(ToJson(s).members, s.core, k);
  }

  lemma ArrayFields(s: Schema)
    requires s.Node? && s.kind.Array?
    ensures Field(s, KItems) == (if s.kind.items == Nil then None else Some(ToJson(s.kind.items)))
    ensures Field(s, KMaxItems) == OmitZero(s.kind.maxItems) && Field(s, KMinItems) == OmitZero(s.kind.minItems)
    ensures Field(s, KAdditionalItems) == OmitFalse(s.kind.additionalItems)
    ensures Field(s, KUniqueItems) == OmitFalse(s.kind.uniqueItems)
  {
    assert Field(s, KItems) == (if s.kind.items == Nil then None else Some(ToJson(s.kind.items)));
    assert Field(s, KMaxItems) == OmitZero(s.kind.maxItems);
    assert Field(s, KMinItems) == OmitZero(s.kind.minItems);
    assert Field(s, KAdditionalItems) == OmitFalse(s.kind.additionalItems);
  }

  lemma ArrayDecoded(m: Dict<Json>, c: Core, k: Kind)
    requires k.Array?
    requires Get(m, KeyName(KType)) == Some(JStr("array")) && Get(m, KeyName(KRef)).None?
    requires DecodeCore(m) == Ok(c) && ReadItems(m) == Ok(k.items)
    requires ReadInt(m, KMaxItems) == Ok(k.maxItems) && ReadInt(m, KMinItems) == Ok(k.minItems)
    requires ReadBool(m, KAdditionalItems) == Ok(k.additionalItems)
    requires ReadBool(m, KUniqueItems) == Ok(k.uniqueItems)
    ensures Dispatch(m) == Ok(Node(c, k))
  {
    assert "array"[0] != "string"[0] && "array"[0] != "object"[0];
    assert DecodeArray(m) == Ok(Node(c, k));
    assert DecodeTyped(m, Some(JStr("array"))) == DecodeArray(m);
  }

  lemma {:induction false} ObjectRoundTrip(s: Schema)
    requires s.Node? && s.kind.Object? && Canonical(s)
    requires DecodeCore(ToJson(s).members) == Ok(s.core)
    ensures Dispatch(ToJson(s).members) == Ok(s)
    decreases s, 1
  {
    var k := s.kind;
    ObjectFields(s);
    TypeAndRef(s);
    IntRead(s, KMaxProperties, k.maxProperties);
    IntRead(s, KMinProperties, k.minProperties);
    DictRead(s, KProperties, k.properties);
    RequiredRead(s, k.required);
    if k.additionalProperties.Some? && k.additionalProperties.value.schema != Nil {
      RoundTrip(k.additionalProperties.value.schema);
    }
    AdditionalRead(s, k.additionalProperties);
    ObjectDecoded(ToJson(s).members, s.core, k);
  }

  lemma ObjectFields(s: Schema)
    requires s.Node? && s.kind.Object?
    ensures var k := s.kind;
            && Field(s, KMaxProperties) == OmitZero(k.maxProperties)
            && Field(s, KMinProperties) == OmitZero(k.minProperties)
            && Field(s, KProperties) == (if k.properties == [] then None else Some(JObj(EncodeDict(k.properties))))
            && Field(s, KRequired) == (if k.required == [] then None else Some(JArr(EncodeStrings(k.required))))
            && Field(s, KAdditionalProperties)
               == (if k.additionalProperties.Some? then Some(MarshalBoolOrSchema(k.additionalProperties.value)) else None)
  {
  }

  lemma ObjectDecoded(m: Dict<Json>, c: Core, k: Kind)
    requires k.Object? && k.goPath == "" && !k.suppressXAttrs
    requires Get(m, KeyName(KType)) == Some(JStr("object"))
    requires DecodeCore(m) == Ok(c)
    requires ReadInt(m, KMaxProperties) == Ok(k.maxProperties) && ReadInt(m, KMinProperties) == Ok(k.minProperties)
    requires ReadAdditionalProperties(m) == Ok(k.additionalProperties)
    requires ReadDict(m, KProperties) == Ok(k.properties) && ReadRequired(m) == Ok(k.required)
    ensures Dispatch(m) == Ok(Node(c, k))
  {
    assert DecodeObject(m) == Ok(Node(c, k));
  }

  lemma RequiredRead(s: Schema, xs: seq<string>)
    requires s.Node? && Field(s, KRequired) == (if xs == [] then None else Some(JArr(EncodeStrings(xs))))
    ensures ReadRequired(ToJson(s).members) == Ok(xs)
  {
    FieldOfEncoding(s, KRequired);
    if xs != [] {
      var r := ReadStrings(EncodeStrings(xs));
      assert r.Ok?;
      forall i | 0 <= i < |xs| ensures r.value[i] == xs[i] {
        assert EncodeStrings(r.value)[i] == JStr(r.value[i]);
      }
      assert r.value == xs;
    }
  }

  lemma AdditionalRead(s: Schema, a: Option<BoolOrSchema>)
    requires s.Node? && Field(s, KAdditionalProperties) == (if a.Some? then Some(MarshalBoolOrSchema(a.value)) else None)
    requires a.Some? && a.value.schema != Nil ==> !a.value.boolean && FromJson(ToJson(a.value.schema)) == Ok(a.value.schema)
    ensures ReadAdditionalProperties(ToJson(s).members) == Ok(a)
  {
    FieldOfEncoding(s, KAdditionalProperties);
  }

  // ---------------------------------------------------------------------------
  // BoolOrSchema

  /** A boolean survives marshalling and unmarshalling. */
  lemma BoolOrSchemaBoolRoundTrip(b: bool)
    ensures UnmarshalBoolOrSchema(MarshalBoolOrSchema(BoolOrSchema(b, Nil))) == Ok(BoolOrSchema(b, Nil))
    ensures UnmarshalBoolOrSchema(MarshalBoolOrSchema(NewBoolOrSchema(DynBool(b)))) == Ok(NewBoolOrSchema(DynBool(b)))
  {
  }

  /** A schema under `additionalProperties` is lost: it reads back as `false`, which
      forbids every additional property. */
  lemma SchemaAdditionalPropertiesLost(m: Dict<Json>, s: Schema)
    requires s.Node? && Get(m, KeyName(KAdditionalProperties)) == Some(ToJson(s))
    ensures AdditionalPropertiesAsWritten(m) == Some(BoolOrSchema(false, Nil))
  {
  }

  // ---------------------------------------------------------------------------
  // Two decoders as written

  /** `{"not": "x"}`: the nested value is not an object, so the basic layer fails with an
      error; the simple layer as written reports no error and has lost its basic part. */
  lemma SimpleLayerSwallowsError()
    ensures var m := [Entry("not", JStr("x"))];
            && DecodeCore(m).IsError()
            && SimpleLayerAsWritten(m) == Ok((None, ""))
            && DecodeSimpleLayer(m).IsError()
  {
    OnlyNot();
    BadNotDecoded([Entry("not", JStr("x"))]);
  }

  /** The document `{"not": "x"}` has no key but `not`. */
  lemma OnlyNot()
    ensures var m := [Entry("not", JStr("x"))];
            && Get(m, KeyName(KNot)) == Some(JStr("x"))
            && forall k :: k != KNot ==> Get(m, KeyName(k)).None?
  {
    var m := [Entry("not", JStr("x"))];
    forall k | k != KNot ensures Get(m, KeyName(k)).None? {
      KeyNameInjective(k, KNot);
      GetCons(m[0], [], KeyName(k));
      assert m == [m[0]] + [];
    }
    GetCons(m[0], [], KeyName(KNot));
    assert m == [m[0]] + [];
  }

  /** The layers of a document whose only key is `not`, holding a non-object. */
  lemma BadNotDecoded(m: Dict<Json>)
    requires Get(m, KeyName(KNot)) == Some(JStr("x"))
    requires forall k :: k != KNot ==> Get(m, KeyName(k)).None?
    ensures DecodeCore(m).IsError()
    ensures SimpleLayerAsWritten(m) == Ok((None, ""))
    ensures DecodeSimpleLayer(m).IsError()
  {
    assert Get(m, KeyName(KSchema)).None? && Get(m, KeyName(KId)).None? && Get(m, KeyName(KRef)).None?;
    assert Get(m, KeyName(KType)).None? && Get(m, KeyName(KTitle)).None? && Get(m, KeyName(KDescription)).None?;
    assert Get(m, KeyName(KAllOf)).None? && Get(m, KeyName(KAnyOf)).None? && Get(m, KeyName(KOneOf)).None?;
    assert ReadSchema(m, KNot).IsError();
    assert Get(m, KeyName(KFormat)).None?;
  }

  /** The object layers of the same document. */
  lemma BadNotObject(m: Dict<Json>)
    requires Get(m, KeyName(KNot)) == Some(JStr("x"))
    requires forall k :: k != KNot ==> Get(m, KeyName(k)).None?
    ensures ObjectAsWritten(m) == Ok((None, Object([], [], 0, 0, None, "", false)))
    ensures DecodeObject(m).IsError()
  {
    BadNotDecoded(m);
    assert Get(m, KeyName(KMaxProperties)).None? && Get(m, KeyName(KMinProperties)).None?;
    assert Get(m, KeyName(KAdditionalProperties)).None? && Get(m, KeyName(KProperties)).None?;
    assert Get(m, KeyName(KRequired)).None?;
  }

  /** The corrected layer keeps the basic layer's failure. */
  lemma SimpleLayerKeepsError(m: Dict<Json>)
    ensures DecodeCore(m).Fail? ==> DecodeSimpleLayer(m) == Fail(DecodeCore(m).failure)
    ensures DecodeSimpleLayer(m).Ok? ==> DecodeCore(m) == Ok(DecodeSimpleLayer(m).value.0)
    ensures DecodeCore(m).Fail? ==> DecodeString(m).Fail? && DecodeNumeric(m).Fail? && DecodeSimple(m).Fail?
  {
  }

  /** `{"not": "x"}` read as an object schema: the decoder as written reports no error and
      has lost its basic part; the corrected one reports the error. */
  lemma ObjectSwallowsError()
    ensures var m := [Entry("not", JStr("x"))];
            && ObjectAsWritten(m) == Ok((None, Object([], [], 0, 0, None, "", false)))
            && DecodeObject(m).IsError()
  {
    OnlyNot();
    BadNotObject([Entry("not", JStr("x"))]);
  }

  /** The corrected object decoder keeps the basic layer's failure. */
  lemma ObjectKeepsError(m: Dict<Json>)
    ensures DecodeCore(m).Fail? ==> DecodeObject(m) == Fail(DecodeCore(m).failure)
    ensures DecodeObject(m).Ok? ==> DecodeCore(m) == Ok(DecodeObject(m).value.core)
  {
  }
}

=== FILE: decls.dfy ===
/** The parsed Go program the generator reads: type expressions, struct fields, type
    declarations, files and packages, as go/ast and the package loader present them.

    A doc comment carries its text together with what the annotation parser extracted
    from it: whether the parser met a syntax error, and the attribute map of every
    `@jsonSchema(...)` annotation in it, in order, with attribute names lower-cased.
 */
module Decls {
  import opened Results
  import opened Dict

  /** The attributes of one annotation, in the order the program iterates them (a Go map
      has no fixed order; the list fixes the one a run happens to use). */
  type Attrs = Dict<seq<string>>

  datatype ParsedDoc = ParsedDoc(syntaxError: bool, jsonSchema: seq<Attrs>)

  datatype Doc = Doc(text: string, parsed: ParsedDoc)

  /** A struct tag: absent (or blank), not a valid Go string literal, or one whose
      `json` key has the given value ("" when the key is absent). */
  datatype FieldTag = NoTag | Unquotable | Tag(json: string)

  /** A struct field; an embedded field has no names. */
  datatype Field = Field(names: seq<string>, typ: TypeExpr, tag: FieldTag, doc: Option<Doc>)

  datatype TypeExpr =
    | StructType(fields: seq<Field>)
    | Ident(name: string)
    | Star(x: TypeExpr)
    | Selector(pkgName: string, sel: string)
    | ArrayType(len: string, elt: TypeExpr)
    | InterfaceType
    | MapType(key: TypeExpr, value: TypeExpr)
    | ChanType(elt: TypeExpr)
    | FuncType

  datatype TypeSpec = TypeSpec(name: string, typ: TypeExpr, doc: Option<Doc>)

  /** A `type` declaration, possibly grouping several specs under one doc comment. */
  datatype GenDecl = GenDecl(doc: Option<Doc>, specs: seq<TypeSpec>)

  /** A source file: its import table (local name to package path) and its type declarations. */
  datatype File = File(imports: map<string, string>, decls: seq<GenDecl>)

  datatype Package = Package(path: string, files: seq<File>)

  datatype Program = Program(packages: map<string, Package>)

  /** A type declaration found in a file of a package. */
  datatype DeclInfo = DeclInfo(pkg: Package, fileIdx: nat, gen: GenDecl, spec: TypeSpec, isRoot: bool)

  /** ast.CommentGroup.Text, which is "" for a missing comment. */
  function DocText(d: Option<Doc>): string {
    if d.Some? then d.value.text else ""
  }

  /** The comment that documents a declaration: the spec's own, else the group's. */
  function DeclDoc(decl: DeclInfo): Option<Doc> {
    if decl.spec.doc.Some? then decl.spec.doc else decl.gen.doc
  }

  /** The import table of the file a declaration lives in. */
  function DeclImports(decl: DeclInfo): map<string, string> {
    if decl.fileIdx < |decl.pkg.files| then decl.pkg.files[decl.fileIdx].imports else map[]
  }

  /** types.ExprString: the source form of a type expression.  Struct, interface and
      function types print abbreviated; they never print as an identifier. */
  function ExprString(t: TypeExpr): string {
    match t
    case StructType(_) => "struct{...}"
    case Ident(n) => n
    case Star(x) => "*" + ExprString(x)
    case Selector(p, s) => p + "." + s
    case ArrayType(n, e) => "[" + n + "]" + ExprString(e)
    case InterfaceType => "interface{}"
    case MapType(k, v) => "map[" + ExprString(k) + "]" + ExprString(v)
    case ChanType(e) => "chan " + ExprString(e)
    case FuncType => "func()"
  }
}

=== FILE: dict.dfy ===
/** Association lists standing in for Go's `map[string]V`.

    A Go map inside a recursive structure (a schema's properties, a JSON object) is
    modelled as a sequence of key/value entries, so that recursion over the structure
    has a well-founded order.  `Get` finds the first entry with a key; `Put` overwrites
    that entry or appends a new one, so a key never appears twice in a list built by
    `Put`.  The order of the entries is the insertion order; Go's maps have none.
 */
module Dict {
  import opened Results

  datatype Entry<+V> = Entry(key: string, val: V)

  type Dict<+V> = seq<Entry<V>>

  function Keys<V>(d: Dict<V>): set<string> {
    if |d| == 0 then {} else {d[0].key} + Keys(d[1..])
  }

  lemma KeysIndex<V>(d: Dict<V>, k: string)
    ensures k in Keys(d) <==> exists i :: 0 <= i < |d| && d[i].key == k
  {
    if |d| > 0 {
      KeysIndex(d[1..], k);
      if k in Keys(d[1..]) {
        var i :| 0 <= i < |d[1..]| && d[1..][i].key == k;
        assert d[i + 1].key == k;
      }
      if exists i :: 0 <= i < |d| && d[i].key == k {
        var i :| 0 <= i < |d| && d[i].key == k;
        if i > 0 {
          assert d[1..][i - 1].key == k;
        }
      }
    }
  }

  /** No key occurs twice. */
  predicate Distinct<V>(d: Dict<V>) {
    forall i, j :: 0 <= i < j < |d| ==> d[i].key != d[j].key
  }

  /** The value stored under `k`, found at the first entry carrying that key. */
  function Get<V>(d: Dict<V>, k: string): (r: Option<V>)
    ensures r.Some? <==> k in Keys(d)
    ensures r.Some? ==> exists i :: 0 <= i < |d| && d[i] == Entry(k, r.value)
  {
    if |d| == 0 then None
    else if d[0].key == k then Some(d[0].val)
    else
      var r := Get(d[1..], k);
      assert r.Some? ==> exists i :: 0 <= i < |d[1..]| && d[1..][i] == Entry(k, r.value);
      r
  }

  /** Looking up in a dictionary with one more entry in front. */
  lemma GetCons<V>(e: Entry<V>, d: Dict<V>, k: string)
    ensures Get([e] + d, k) == if e.key == k then Some(e.val) else Get(d, k)
  {
    assert ([e] + d)[1..] == d;
  }

  /** `d` with `k` bound to `v`: the first entry for `k` is overwritten, or a new entry appended. */
  function Put<V>(d: Dict<V>, k: string, v: V): (r: Dict<V>)
    ensures Get(r, k) == Some(v)
    ensures forall k' :: k' != k ==> Get(r, k') == Get(d, k')
    ensures Keys(r) == Keys(d) + {k}
  {
    if |d| == 0 then [Entry(k, v)]
    else if d[0].key == k then
      var r := [Entry(k, v)] + d[1..];
      assert r[1..] == d[1..];
      r
    else
      var r := [d[0]] + Put(d[1..], k, v);
      assert r[1..] == Put(d[1..], k, v);
      r
  }

  /** A new key is appended at the end; an existing key keeps its position. */
  lemma PutShape<V>(d: Dict<V>, k: string, v: V)
    ensures k !in Keys(d) ==> Put(d, k, v) == d + [Entry(k, v)]
    ensures k in Keys(d) ==> |Put(d, k, v)| == |d| && forall i :: 0 <= i < |d| ==> Put(d, k, v)[i].key == d[i].key
  {
    if |d| > 0 && d[0].key != k {
      PutShape(d[1..], k, v);
      var t := Put(d[1..], k, v);
      assert Put(d, k, v) == [d[0]] + t;
      assert k in Keys(d) <==> k in Keys(d[1..]);
      if k !in Keys(d) {
        assert d == [d[0]] + d[1..];
      } else {
        forall i | 0 <= i < |d|
          ensures ([d[0]] + t)[i].key == d[i].key
        {
          if i > 0 {
            assert ([d[0]] + t)[i] == t[i - 1] && d[i] == d[1..][i - 1];
          }
        }
      }
    }
  }

  lemma PutDistinct<V>(d: Dict<V>, k: string, v: V)
    requires Distinct(d)
    ensures Distinct(Put(d, k, v))
  {
    PutShape(d, k, v);
    if k !in Keys(d) {
      var r := d + [Entry(k, v)];
      forall i, j | 0 <= i < j < |r|
        ensures r[i].key != r[j].key
      {
        if j == |d| {
          assert r[i] == d[i];
          KeysIndex(d, k);
        }
      }
    }
  }

  /** Entry `i` is the last one in `d` carrying its key. */
  predicate LastBinding<V>(d: Dict<V>, i: int)
    requires 0 <= i < |d|
  {
    forall j :: i < j < |d| ==> d[j].key != d[i].key
  }

  /** Every binding of `src` written over `dst`, in the order of `src`: a key of `src`
      ends up with the value of its last entry there. */
  function PutAll<V>(dst: Dict<V>, src: Dict<V>): (r: Dict<V>)
    ensures forall k :: k !in Keys(src) ==> Get(r, k) == Get(dst, k)
    ensures forall i :: 0 <= i < |src| && LastBinding(src, i) ==> Get(r, src[i].key) == Some(src[i].val)
    ensures Keys(r) == Keys(dst) + Keys(src)
    decreases |src|
  {
    if |src| == 0 then dst
    else
      var r := PutAll(Put(dst, src[0].key, src[0].val), src[1..]);
      assert forall i :: 0 < i < |src| && LastBinding(src, i) ==> LastBinding(src[1..], i - 1);
      assert LastBinding(src, 0) ==> src[0].key !in Keys(src[1..]) by {
        KeysIndex(src[1..], src[0].key);
      }
      r
  }

  lemma KeysAppend<V>(d: Dict<V>, e: Entry<V>)
    ensures Keys(d + [e]) == Keys(d) + {e.key}
  {
    if |d| > 0 {
      assert (d + [e])[1..] == d[1..] + [e];
      KeysAppend(d[1..], e);
    }
  }

  /** In a list without repeated keys, every entry is the one `Get` finds. */
  lemma GetDistinct<V>(d: Dict<V>, i: int)
    requires Distinct(d) && 0 <= i < |d|
    ensures Get(d, d[i].key) == Some(d[i].val)
  {
    if i > 0 {
      assert d[0].key != d[i].key;
      assert d[1..][i - 1] == d[i];
      GetDistinct(d[1..], i - 1);
    }
  }
}

=== FILE: generation.dfy ===
/** The entry points of package `generator`: finding the root declaration, generating its
    schema, stamping the spec version, and publishing the cached objects that are
    referenced by `$ref` as the root's definitions.

    Go keeps the caches in the generator object, so a later SubGenerate still sees the
    simple-type cache of earlier runs; here they are passed in and returned.  Loading
    the program (go/loader) is not modelled: the loaded program is part of `Env`.
 */
module Generation {
  import opened Results
  import opened Dict
  import opened Strs
  import opened Decls
  import opened TypeHelper
  import opened Schema
  import opened Host
  import opened Annotation
  import opened SchemaAttrs
  import opened Generator

  /** findRootDecl: the first type spec called `rootType` in the base package, marked as the
      root after its definition key was computed. */
  function FindRootDecl(env: Env, basePackage: string, rootType: string): (r: Result<Decl>)
    ensures r.Ok? ==> && basePackage in env.prog.packages
                      && r.value.info.pkg == env.prog.packages[basePackage]
                      && r.value.info.spec.name == rootType && r.value.info.isRoot
    ensures r.Ok? ==> r.value.info.fileIdx < |r.value.info.pkg.files|
                      && Declares(r.value.info.pkg.files[r.value.info.fileIdx], rootType)
    ensures basePackage !in env.prog.packages ==> r == Fail(Error("root not found"))
    ensures basePackage in env.prog.packages
            && (forall i :: 0 <= i < |env.prog.packages[basePackage].files| ==> !Declares(env.prog.packages[basePackage].files[i], rootType))
            ==> r == Fail(Error("root not found"))
    ensures r.IsError() ==> r == Fail(Error("root not found"))
  {
    if basePackage !in env.prog.packages then Fail(Error("root not found"))
    else
      match FindDeclInPackage(env.prog.packages[basePackage], None, rootType)
      case Fail(_) => Fail(Error("root not found"))
      case Ok(info) =>
        var d :- NewDecl(env, info);
        Ok(Decl(d.info.(isRoot := true), d.key))
  }

  /** A cache entry under `k` whose declaration is referenced rather than inlined. */
  predicate Published(env: Env, defs: Dict<Def>, k: string) {
    Get(defs, k).Some? && ShouldReturnRef(env, Get(defs, k).value.decl) == Ok(true)
  }

  /** The loop over the global cache at the end of doGenerate: every entry whose declaration
      is referenced is added to the root's definitions under its definition key. */
  function Publish(env: Env, defs: Dict<Def>, s: Schema): (r: Result<Schema>)
    requires s.Node?
    ensures r.Ok? ==> r.value.Node? && r.value.kind == s.kind
    ensures r.Ok? ==> r.value.core.(definitions := s.core.definitions) == s.core
    ensures r.Fail? ==> r.failure.Aborts()
    ensures (forall i :: 0 <= i < |defs| ==> ShouldReturnRef(env, defs[i].val.decl).Ok?) ==> r.Ok?
    decreases |defs|
  {
    if |defs| == 0 then Ok(s)
    else
      var e := defs[0];
      match ShouldReturnRef(env, e.val.decl)
      case Fail(x) => Fail(x)
      case Ok(asRef) =>
        var s' := if asRef then AddDefinition(s, e.val.decl.key, e.val.schema) else s;
        assert forall i :: 0 <= i < |defs[1..]| ==> defs[1..][i] == defs[i + 1];
        Publish(env, defs[1..], s')
  }

  /** The tail of a cache keeps its invariants and loses exactly the head's key. */
  lemma TailOfCache(defs: Dict<Def>)
    requires |defs| > 0 && Distinct(defs) && KeysMatch(defs)
    ensures Distinct(defs[1..]) && KeysMatch(defs[1..])
    ensures Get(defs[1..], defs[0].key).None?
    ensures forall k :: k != defs[0].key ==> Get(defs[1..], k) == Get(defs, k)
    ensures defs[0].val.decl.key == defs[0].key
  {
    var t := defs[1..];
    KeysIndex(t, defs[0].key);
    forall i | 0 <= i < |t| ensures t[i].key != defs[0].key {
      assert t[i] == defs[i + 1];
    }
    forall i, j | 0 <= i < j < |t| ensures t[i].key != t[j].key {
      assert t[i] == defs[i + 1] && t[j] == defs[j + 1];
    }
    forall k | Get(t, k).Some? ensures Get(t, k).value.decl.key == k {
      assert Get(t, k) == Get(defs, k);
    }
    assert Get(defs, defs[0].key) == Some(defs[0].val);
  }

  /** After publishing, the definitions hold every referenced cache entry under its key, and
      every other key keeps what the node had before. */
  lemma {:induction false} PublishLaw(env: Env, defs: Dict<Def>, s: Schema, k: string)
    requires s.Node? && Distinct(defs) && KeysMatch(defs) && Publish(env, defs, s).Ok?
    ensures Get(Publish(env, defs, s).value.core.definitions, k)
            == (if Published(env, defs, k) then Some(Get(defs, k).value.schema) else Get(s.core.definitions, k))
    decreases |defs|
  {
    if |defs| > 0 {
      var e := defs[0];
      var asRef := ShouldReturnRef(env, e.val.decl).value;
      var s' := if asRef then AddDefinition(s, e.val.decl.key, e.val.schema) else s;
      assert Publish(env, defs, s) == Publish(env, defs[1..], s');
      TailOfCache(defs);
      PublishLaw(env, defs[1..], s', k);
      if k == e.key {
        assert Get(defs, k) == Some(e.val);
        assert !Published(env, defs[1..], k);
      } else {
        assert Get(defs[1..], k) == Get(defs, k);
        assert Published(env, defs[1..], k) == Published(env, defs, k);
      }
    }
  }

  /** The root node and its definitions, once the root declaration is known. */
  function GenerateRoot(env: Env, c: Caches, fuel: nat, root: Decl): (o: Out<Schema>)
    ensures o.result.Ok? ==> o.result.value.Node? && o.result.value.core.schemaUri == env.opts.specVersion
    ensures CachesOk(c) ==> CachesOk(o.caches)
    ensures Grows(c, o.caches)
  {
    var g := GenExpr(env, c, fuel, root, root.info.spec.typ, None);
    match g.result
    case Fail(e) => Out(g.caches, Fail(e))
    case Ok(s) =>
      var p := Publish(env, g.caches.global, SetSchemaUri(s, env.opts.specVersion));
      Out(g.caches, if p.Ok? then Ok(p.value) else Fail(p.failure))
  }

  /** The published definitions are exactly the referenced entries of the global cache the
      run left behind; every other key keeps what the generated root node had. */
  lemma GenerateRootDefinitions(env: Env, c: Caches, fuel: nat, root: Decl, k: string)
    requires CachesOk(c) && GenerateRoot(env, c, fuel, root).result.Ok?
    ensures var o := GenerateRoot(env, c, fuel, root);
            var g := GenExpr(env, c, fuel, root, root.info.spec.typ, None);
            && g.result.Ok? && o.caches == g.caches
            && Get(o.result.value.core.definitions, k)
               == (if Published(env, o.caches.global, k) then Some(Get(o.caches.global, k).value.schema)
                   else Get(g.result.value.core.definitions, k))
  {
    var g := GenExpr(env, c, fuel, root, root.info.spec.typ, None);
    PublishLaw(env, g.caches.global, SetSchemaUri(g.result.value, env.opts.specVersion), k);
  }

  /** Inline mode: without automatic definitions and without a `definition` annotation on
      any cached declaration, nothing is published. */
  lemma InlineModePublishesNothing(env: Env, c: Caches, fuel: nat, root: Decl, k: string)
    requires CachesOk(c) && !env.opts.autoCreateDefs && GenerateRoot(env, c, fuel, root).result.Ok?
    requires var o := GenerateRoot(env, c, fuel, root);
             Get(o.caches.global, k).Some? && DeclAnno(env.ext, Get(o.caches.global, k).value.decl.info).Ok? ==>
               AnnoText(DeclAnno(env.ext, Get(o.caches.global, k).value.decl.info).value, Definition) == ""
    ensures var o := GenerateRoot(env, c, fuel, root);
            var g := GenExpr(env, c, fuel, root, root.info.spec.typ, None);
            g.result.Ok? && Get(o.result.value.core.definitions, k) == Get(g.result.value.core.definitions, k)
  {
    GenerateRootDefinitions(env, c, fuel, root, k);
  }

  /** doGenerate: the root declaration's schema with its spec version and definitions. */
  function DoGenerate(env: Env, c: Caches, fuel: nat, basePackage: string, rootType: string): (o: Out<Schema>)
    ensures FindRootDecl(env, basePackage, rootType).Fail? ==> o == Out(c, Fail(FindRootDecl(env, basePackage, rootType).failure))
    ensures basePackage !in env.prog.packages ==> o == Out(c, Fail(Error("root not found")))
    ensures o.result.Ok? ==> o.result.value.Node? && o.result.value.core.schemaUri == env.opts.specVersion
    ensures CachesOk(c) ==> CachesOk(o.caches)
    ensures Grows(c, o.caches)
  {
    match FindRootDecl(env, basePackage, rootType)
    case Fail(e) => Out(c, Fail(e))
    case Ok(root) => GenerateRoot(env, c, fuel, root)
  }

  /** Generate: a first run, with empty caches. */
  function Generate(env: Env, fuel: nat, basePackage: string, rootType: string): (o: Out<Schema>)
    ensures CachesOk(o.caches)
    ensures o.result.Ok? ==> o.result.value.Node? && o.result.value.core.schemaUri == env.opts.specVersion
  {
    assert CachesOk(NoCaches) by {
      forall k ensures Get(NoCaches.global, k).None? && Get(NoCaches.embedded, k).None? { }
    }
    DoGenerate(env, NoCaches, fuel, basePackage, rootType)
  }

  /** SubGenerate: a later run for another root, which forgets the object caches but keeps
      the simple-type cache. */
  function SubGenerate(env: Env, c: Caches, fuel: nat, basePackage: string, rootType: string): (o: Out<Schema>)
    ensures Keys(c.simple) <= Keys(o.caches.simple)
    ensures CachesOk(o.caches)
    ensures o.result.Ok? ==> o.result.value.Node? && o.result.value.core.schemaUri == env.opts.specVersion
  {
    var start := Caches([], [], c.simple);
    assert CachesOk(start) by {
      forall k ensures Get(start.global, k).None? && Get(start.embedded, k).None? { }
    }
    DoGenerate(env, start, fuel, basePackage, rootType)
  }

  /** What a SubGenerate run computes depends on the earlier runs only through the
      simple-type cache. */
  lemma SubGenerateForgetsObjects(env: Env, c1: Caches, c2: Caches, fuel: nat, basePackage: string, rootType: string)
    requires c1.simple == c2.simple
    ensures SubGenerate(env, c1, fuel, basePackage, rootType) == SubGenerate(env, c2, fuel, basePackage, rootType)
  {
  }

  /** defKeyFromPath: the escaped definition key of a package type path, "" for any other
      string. */
  function DefKeyFromPath(opts: Options, path: string): (r: string)
    ensures !IsPackageType(path) ==> r == ""
    ensures IsPackageType(path) ==> |r| == |opts.definitionPrefix| + |path| && '.' !in r && '/' !in r
  {
    if !IsPackageType(path) then "" else EscapeKey(opts.definitionPrefix + path)
  }

  /** A package type path gives the key the generator computes for the declaration it
      names, when that declaration has no `definition` override and no vendor directory. */
  lemma DefKeyFromPathAgrees(env: Env, info: DeclInfo)
    requires IsPackageType(info.pkg.path + "/" + info.spec.name)
    requires !DeclAnno(env.ext, info).Fail? || DeclAnno(env.ext, info).IsError()
    requires AnnoText(IgnoreError(DeclAnno(env.ext, info)).value, Definition) == ""
    requires !Contains(env.opts.definitionPrefix + info.pkg.path + "/" + info.spec.name, VendorDir)
    ensures DefinitionKey(env, info) == Ok(DefKeyFromPath(env.opts, info.pkg.path + "/" + info.spec.name))
  {
    assert env.opts.definitionPrefix + info.pkg.path + "/" + info.spec.name
        == env.opts.definitionPrefix + (info.pkg.path + "/" + info.spec.name);
  }
}

=== FILE: generator.dfy ===
/** The synthesis engine of package `generator`: the recursive walk from a type
    expression to a schema node, over struct, identifier, pointer, selector, array,
    interface and map types.

    Go's generator keeps three memo tables (objects met as types, objects met as
    embedded structs, and aliases of built-in types) in maps it mutates in place; here
    they are a `Caches` value threaded through every call and returned with every
    outcome, so that entries stored before an error survive it as they do in Go.

    Go's recursion is unbounded, because an object is cached only once all of its fields
    succeeded.  An inline anonymous struct field regenerates its owner, and a cycle of
    struct types through pointers that the self-reference test (a `*Owner` field of
    `Owner`) misses recurses until the stack overflows: `type Node struct{ Children
    []*Node }`, whose array element is generated without its field, or `A{ B *B }`
    with `B{ A *A }`.  Every call between the
    members below spends one unit of `fuel`; a member called without fuel reports
    `OutOfFuel`.  A list walk (struct fields, type paths) moves along the list without
    spending fuel.
 */
module Generator {
  import opened Results
  import opened Dict
  import opened Runes
  import opened Decls
  import opened TypeHelper
  import opened Schema
  import opened Host
  import opened Annotation
  import opened SchemaAttrs

  /** A cached schema and the declaration it was generated for (Go's `definition`). */
  datatype Def = Def(decl: Decl, schema: Schema)

  /** The three memo tables, keyed by definition key. */
  datatype Caches = Caches(global: Dict<Def>, embedded: Dict<Def>, simple: Dict<Def>)

  const NoCaches: Caches := Caches([], [], [])

  /** An outcome, with the caches as the computation left them. */
  datatype Out<+T> = Out(caches: Caches, result: Result<T>)

  /** A node mutated in place by a sequence of setters, the caches as they were left, and the
      failure that cut the sequence short, if any: Go's setters stay applied after an error. */
  datatype Overlay = Overlay(caches: Caches, schema: Schema, failure: Option<Failure>)

  /** A schema generated for a type expression, with the declaration a type name resolved
      to when there was one (its docs then feed the field's title and description). */
  datatype Generated = Generated(schema: Schema, found: Option<Decl>)

  // ----- cache invariants -----

  /** Every entry holds an object schema. */
  ghost predicate ObjectsOnly(d: Dict<Def>) {
    forall k :: Get(d, k).Some? ==> Get(d, k).value.schema.IsObject()
  }

  /** Every entry is stored under its declaration's definition key. */
  ghost predicate KeysMatch(d: Dict<Def>) {
    forall k :: Get(d, k).Some? ==> Get(d, k).value.decl.key == k
  }

  /** What every cache the generator builds satisfies. */
  ghost predicate CachesOk(c: Caches) {
    && ObjectsOnly(c.global) && ObjectsOnly(c.embedded)
    && KeysMatch(c.global) && Distinct(c.global)
  }

  /** No cached key is ever forgotten. */
  predicate Grows(c: Caches, c': Caches) {
    Keys(c.global) <= Keys(c'.global) && Keys(c.embedded) <= Keys(c'.embedded) && Keys(c.simple) <= Keys(c'.simple)
  }

  /** The object cache a lookup uses: the embedded one for embedded structs. */
  function ObjectCache(c: Caches, embedded: bool): Dict<Def> {
    if embedded then c.embedded else c.global
  }

  /** An object schema stored under its declaration's key in the cache `embedded` selects. */
  function StoreObject(c: Caches, embedded: bool, d: Decl, obj: Schema): (c': Caches)
    requires obj.IsObject()
    ensures Get(ObjectCache(c', embedded), d.key) == Some(Def(d, obj))
    ensures CachesOk(c) ==> CachesOk(c')
    ensures Grows(c, c')
    ensures c'.simple == c.simple && ObjectCache(c', !embedded) == ObjectCache(c, !embedded)
  {
    if embedded then c.(embedded := Put(c.embedded, d.key, Def(d, obj)))
    else
      StoreKeepsDistinct(c.global, d.key, Def(d, obj));
      c.(global := Put(c.global, d.key, Def(d, obj)))
  }

  lemma StoreKeepsDistinct(d: Dict<Def>, k: string, v: Def)
    ensures Distinct(d) ==> Distinct(Put(d, k, v))
  {
    if Distinct(d) {
      PutDistinct(d, k, v);
    }
  }

  // ----- built-in types -----

  /** The JSON type of a built-in Go type name: the name itself when it already is a JSON
      type, else its entry in the built-in table. */
  function BuiltinJsonType(name: string): (r: Option<string>)
    ensures r.Some? <==> name in JsonTypes || name in BuiltinTypes
    ensures r.Some? ==> r.value in JsonTypes
  {
    TablesAgree();
    if name in JsonTypes then Some(name)
    else if name in BuiltinTypes then Some(BuiltinTypes[name])
    else None
  }

  /** A built-in Go type name maps to its table entry (only "string" is also a JSON type,
      and it maps to itself). */
  lemma BuiltinNameIsJsonType(name: string)
    requires name in BuiltinTypes
    ensures BuiltinJsonType(name) == Some(BuiltinTypes[name])
  {
    if name in JsonTypes {
      assert name == "string";
    }
  }

  /** The field is of type time.Time, or the Go type is. */
  predicate IsTime(goType: string, field: Option<Field>) {
    goType == "time.Time" || (field.Some? && ExprString(field.value.typ) == "time.Time")
  }

  /** generateSimpleSchema: a string node with the field's string bounds (and the date-time
      format for times), a numeric node with the field's numeric bounds, or a simple node. */
  function GenSimple(env: Env, goType: string, jsonType: string, field: Option<Field>): (r: Result<Schema>)
    ensures r.Ok? ==> r.value.HasFormat() && r.value.core == EmptyCore(jsonType)
    ensures r.Ok? ==> (r.value.IsStr() <==> jsonType == "string") && (r.value.IsNumeric() <==> jsonType == "number" || jsonType == "integer")
    ensures r.Ok? && jsonType == "string" && field.Some? && IsTime(goType, field) ==> r.value.kind.format == "date-time"
    ensures r.Fail? <==> (jsonType == "string" || jsonType == "number" || jsonType == "integer") && OptionalFieldAnno(env, field).Fail?
  {
    if jsonType == "string" then
      var ss :- AddStringAttrsForField(env, NewStringSchema(), field);
      Ok(if field.Some? && IsTime(goType, field) then SetFormat(ss, "date-time") else ss)
    else if jsonType == "number" || jsonType == "integer" then
      AddNumericAttrsForField(env, NewNumericSchema(jsonType), field)
    else Ok(NewSimpleSchema(jsonType))
  }

  /** generateSchemaForBuiltIn: Some node for a built-in name, None for any other name, or
      the error of the field's annotation. */
  function GenBuiltIn(env: Env, name: string, field: Option<Field>): (r: Result<Option<Schema>>)
    ensures BuiltinJsonType(name).None? ==> r == Ok(None)
    ensures r.Ok? && r.value.Some? ==> BuiltinJsonType(name).Some? && r.value.value.HasFormat()
    ensures r.Ok? && r.value.Some? ==> r.value.value.core.jsonType == BuiltinJsonType(name).value
    ensures r.Ok? && r.value.Some? && name == "time.Time" && field.Some? ==> r.value.value.IsStr() && r.value.value.kind.format == "date-time"
    ensures r.Fail? ==> BuiltinJsonType(name).Some? && OptionalFieldAnno(env, field).Fail?
    ensures BuiltinJsonType(name).Some? && field.None? ==> r.Ok? && r.value.Some?
  {
    match BuiltinJsonType(name)
    case None => Ok(None)
    case Some(jsonType) =>
      var s :- GenSimple(env, name, jsonType, field);
      Ok(Some(s))
  }

  /** The alias branch of generateSchemaForExpr as the program writes it: the declaration's
      annotation is dereferenced without a nil check for string and numeric aliases. */
  function PopulateAliasAsWritten(jsonType: string, s: Schema, anno: Option<SchemaAnno>): (r: Result<Schema>)
    requires jsonType == "string" ==> s.IsStr()
    requires jsonType == "number" || jsonType == "integer" ==> s.IsNumeric()
    ensures r.Fail? <==> anno.None? && (jsonType == "string" || jsonType == "number" || jsonType == "integer")
  {
    if jsonType == "string" then
      if anno.None? then Fail(Panic("nil pointer dereference")) else Ok(PopulateStringAttrs(s, anno.value))
    else if jsonType == "number" || jsonType == "integer" then
      if anno.None? then Fail(Panic("nil pointer dereference")) else Ok(PopulateNumericAttrs(s, anno.value))
    else Ok(s)
  }

  /** The alias branch with the nil check the program evidently intends: an alias without an
      annotation has nothing to copy. */
  function PopulateAlias(jsonType: string, s: Schema, anno: Option<SchemaAnno>): (r: Schema)
    requires jsonType == "string" ==> s.IsStr()
    requires jsonType == "number" || jsonType == "integer" ==> s.IsNumeric()
    requires s.Node?
    ensures anno.None? ==> r == s
    ensures anno.Some? ==> PopulateAliasAsWritten(jsonType, s, anno) == Ok(r)
    ensures r.Node? && r.core == s.core && (r.HasFormat() <==> s.HasFormat())
  {
    if anno.None? then s
    else if jsonType == "string" then PopulateStringAttrs(s, anno.value)
    else if jsonType == "number" || jsonType == "integer" then PopulateNumericAttrs(s, anno.value)
    else s
  }

  /** A string alias declared without a doc comment crashes the program as written. */
  lemma AliasWithoutAnnotationCrashes(env: Env, info: DeclInfo)
    requires info.spec.typ == Ident("string") && DeclDoc(info).None?
    ensures DeclAnno(env.ext, info) == Ok(None)
    ensures PopulateAliasAsWritten("string", NewStringSchema(), DeclAnno(env.ext, info).value).Fail?
    ensures PopulateAliasAsWritten("string", NewStringSchema(), DeclAnno(env.ext, info).value).failure.Panic?
    ensures PopulateAlias("string", NewStringSchema(), DeclAnno(env.ext, info).value) == NewStringSchema()
  {
  }

  // ----- lookups -----

  /** findDeclInfoForSelector: the declaration `sel` in the package the owner's file imports
      as `pkgName`.  The program crashes when the name is not an import of the file or the
      package is not loaded. */
  function SelectorDecl(env: Env, owner: Decl, pkgName: string, sel: string): (r: Result<Decl>)
    ensures pkgName !in DeclImports(owner.info) ==> r.Fail? && r.failure.Panic?
    ensures r.Ok? ==> pkgName in DeclImports(owner.info) && DeclImports(owner.info)[pkgName] in env.prog.packages
    ensures r.Ok? ==> r.value.info.spec.name == sel && r.value.info.pkg == env.prog.packages[DeclImports(owner.info)[pkgName]]
  {
    var imports := DeclImports(owner.info);
    if pkgName !in imports || imports[pkgName] !in env.prog.packages then Fail(Panic("nil pointer dereference"))
    else FindDecl(env, env.prog.packages[imports[pkgName]], None, sel)
  }

  /** A declaration lookup whose error the program discards and then dereferences the nil
      result of: the error becomes a crash. */
  function MustFind(r: Result<Decl>): (r': Result<Decl>)
    ensures r.Ok? ==> r' == r
    ensures r'.Fail? ==> r'.failure.Aborts()
  {
    if r.IsError() then Fail(Panic("nil pointer dereference")) else r
  }

  /** The error text of a failed composition target, as addCommonAttrs words it. */
  function SettingFailure(attr: string, name: string, e: Failure): (f: Failure)
    ensures f.Aborts() <==> e.Aborts()
    ensures !e.Aborts() ==> f.msg == "error setting '" + attr + "' for " + name + ": " + e.msg
  {
    if e.Error? then Error("error setting '" + attr + "' for " + name + ": " + e.msg) else e
  }

  /** The error text of a type path that yields no schema, as generateSchemasFromTypePaths
      words it (a nil error prints as "%!s(<nil>)"). */
  function PathFailure(path: string, e: Failure): (f: Failure)
    ensures f.Aborts() <==> e.Aborts()
    ensures !e.Aborts() ==> f.msg == "unable to generate schema for path '" + path + "': " + e.msg
  {
    if e.Error? then Error("unable to generate schema for path '" + path + "': " + e.msg) else e
  }

  /** The composition keyword a list of type paths fills. */
  datatype Slot = AllOfSlot | AnyOfSlot | OneOfSlot | NotSlot

  function SlotName(slot: Slot): string {
    match slot
    case AllOfSlot => "allOf"
    case AnyOfSlot => "anyOf"
    case OneOfSlot => "oneOf"
    case NotSlot => "not"
  }

  /** The order addCommonAttrs fills the keywords in. */
  function SlotIndex(slot: Slot): nat {
    match slot
    case AllOfSlot => 0
    case AnyOfSlot => 1
    case OneOfSlot => 2
    case NotSlot => 3
  }

  function NextSlot(slot: Slot): (r: Slot)
    requires slot != NotSlot
    ensures SlotIndex(r) == SlotIndex(slot) + 1
  {
    match slot
    case AllOfSlot => AnyOfSlot
    case AnyOfSlot => OneOfSlot
    case OneOfSlot => NotSlot
  }

  /** The type paths an annotation names for a keyword (`not` names at most one). */
  function SlotPaths(a: SchemaAnno, slot: Slot): (r: seq<string>)
    ensures slot == NotSlot ==> |r| <= 1
  {
    match slot
    case AllOfSlot => a.List(AllOf)
    case AnyOfSlot => a.List(AnyOf)
    case OneOfSlot => a.List(OneOf)
    case NotSlot => if a.Text(Not) != "" then [a.Text(Not)] else []
  }

  /** The schemas a node holds under a keyword (`not` as a one-element list). */
  function SlotItems(c: Core, slot: Slot): seq<Schema> {
    match slot
    case AllOfSlot => c.allOf
    case AnyOfSlot => c.anyOf
    case OneOfSlot => c.oneOf
    case NotSlot => [c.not]
  }

  /** The keywords an overlay of common attributes never touches. */
  predicate SameIdentity(a: Core, b: Core) {
    a.schemaUri == b.schemaUri && a.id == b.id && a.ref == b.ref && a.jsonType == b.jsonType && a.definitions == b.definitions
  }

  /** Only composition keywords differ. */
  predicate OnlyComposition(a: Core, b: Core) {
    SameIdentity(a, b) && a.title == b.title && a.description == b.description && a.defaultValue == b.defaultValue
  }

  /** A keyword the annotation names no path for is left alone; otherwise it holds one
      non-nil schema per path. */
  predicate Composed(a: SchemaAnno, before: Core, after: Core, slot: Slot) {
    if |SlotPaths(a, slot)| == 0 then SlotItems(after, slot) == SlotItems(before, slot)
    else
      && |SlotItems(after, slot)| == |SlotPaths(a, slot)|
      && forall j :: 0 <= j < |SlotItems(after, slot)| ==> !SlotItems(after, slot)[j].Nil?
  }

  /** A lookup of one type path never forgets a cached key, keeps the caches consistent,
      and never yields a nil schema. */
  ghost predicate GoodStep(step: (Caches, string) -> Out<Option<Schema>>) {
    forall c: Caches, path: string ::
      && Grows(c, step(c, path).caches)
      && (CachesOk(c) ==> CachesOk(step(c, path).caches))
      && (step(c, path).result.Ok? && step(c, path).result.value.Some? ==> !step(c, path).result.value.value.Nil?)
  }

  /** The loop of generateSchemasFromTypePaths, from path `i` on, after the schemas `acc`,
      with `step` looking up one path: one schema per path, in order; the first path that
      yields no schema stops the loop with an error naming it. */
  function PathLoop(step: (Caches, string) -> Out<Option<Schema>>, c: Caches, paths: seq<string>, i: nat, acc: seq<Schema>): (o: Out<seq<Schema>>)
    requires i <= |paths|
    ensures o.result.Ok? ==> |o.result.value| == |acc| + |paths| - i && acc <= o.result.value
    ensures GoodStep(step) && (forall j :: 0 <= j < |acc| ==> !acc[j].Nil?) && o.result.Ok? ==>
              forall j :: 0 <= j < |o.result.value| ==> !o.result.value[j].Nil?
    ensures GoodStep(step) && CachesOk(c) ==> CachesOk(o.caches)
    ensures GoodStep(step) ==> Grows(c, o.caches)
    decreases |paths| - i
  {
    if i == |paths| then Out(c, Ok(acc))
    else
      var item := step(c, paths[i]);
      match item.result
      case Fail(e) => Out(item.caches, Fail(PathFailure(paths[i], e)))
      case Ok(None) => Out(item.caches, Fail(PathFailure(paths[i], Error("%!s(<nil>)"))))
      case Ok(Some(s)) => PathLoop(step, item.caches, paths, i + 1, acc + [s])
  }

  /** The error the path loop reports for a lookup result `r` that holds no schema. */
  function PathError(r: Result<Option<Schema>>): Failure {
    if r.Fail? then r.failure else Error("%!s(<nil>)")
  }

  /** The caches the path loop, started at path `i` from `c`, holds when it reaches path `k`. */
  function LoopCaches(step: (Caches, string) -> Out<Option<Schema>>, c: Caches, paths: seq<string>, i: nat, k: int): Caches
    requires i <= k < |paths|
    decreases k - i
  {
    if k == i then c else LoopCaches(step, step(c, paths[i]).caches, paths, i + 1, k)
  }

  /** The caches the loop reaches have grown from the ones it started with. */
  lemma {:induction false} LoopCachesGrow(step: (Caches, string) -> Out<Option<Schema>>, c: Caches, paths: seq<string>, i: nat, k: int)
    requires i <= k < |paths| && GoodStep(step)
    ensures Grows(c, LoopCaches(step, c, paths, i, k))
    decreases k - i
  {
    if k != i {
      LoopCachesGrow(step, step(c, paths[i]).caches, paths, i + 1, k);
    }
  }

  /** The loop's schema `n`, for path `k` (the loop started at path `i` after the schemas
      `acc`), is what `step` gives for path `k` from the caches the loop holds there. */
  lemma {:induction false} LoopItem(step: (Caches, string) -> Out<Option<Schema>>, c: Caches, paths: seq<string>, i: nat, acc: seq<Schema>,
                                    items: seq<Schema>, k: int, n: int)
    requires i <= k < |paths| && n == |acc| + k - i
    requires PathLoop(step, c, paths, i, acc).result == Ok(items)
    ensures n < |items| && step(LoopCaches(step, c, paths, i, k), paths[k]).result == Ok(Some(items[n]))
    decreases k - i
  {
    var item := step(c, paths[i]);
    var v := item.result.value.value;
    assert items[|acc|] == (acc + [v])[|acc|];
    if k != i {
      LoopItem(step, item.caches, paths, i + 1, acc + [v], items, k, n);
    }
  }

  /** A failed loop reports the lookup result of one path `j`, the first that yielded no
      schema, wrapped with that path. */
  lemma {:induction false} LoopFailure(step: (Caches, string) -> Out<Option<Schema>>, c: Caches, paths: seq<string>, i: nat, acc: seq<Schema>,
                                       f: Failure) returns (j: int)
    requires i <= |paths| && PathLoop(step, c, paths, i, acc).result == Fail(f)
    ensures i <= j < |paths|
    ensures f == PathFailure(paths[j], PathError(step(LoopCaches(step, c, paths, i, j), paths[j]).result))
    ensures forall m :: i <= m < j ==> step(LoopCaches(step, c, paths, i, m), paths[m]).result.Ok?
    decreases |paths| - i
  {
    var item := step(c, paths[i]);
    if item.result.Ok? && item.result.value.Some? {
      j := LoopFailure(step, item.caches, paths, i + 1, acc + [item.result.value.value], f);
      forall m | i < m < j
        ensures LoopCaches(step, c, paths, i, m) == LoopCaches(step, item.caches, paths, i + 1, m)
      {
      }
    } else {
      j := i;
    }
  }

  /** The node with a composition keyword set. */
  function SetSlot(s: Schema, slot: Slot, items: seq<Schema>): (r: Schema)
    requires s.Node? && (slot == NotSlot ==> |items| == 1)
    ensures r.Node? && r.kind == s.kind && OnlyComposition(r.core, s.core)
    ensures SlotItems(r.core, slot) == items
    ensures forall other :: other != slot ==> SlotItems(r.core, other) == SlotItems(s.core, other)
  {
    match slot
    case AllOfSlot => WithCore(s, s.core.(allOf := items))
    case AnyOfSlot => WithCore(s, s.core.(anyOf := items))
    case OneOfSlot => WithCore(s, s.core.(oneOf := items))
    case NotSlot => WithCore(s, s.core.(not := items[0]))
  }

  // ----- the recursive generator -----

  /** generateSchemaForExpr: the schema of a type expression met in `owner`, for `field` when
      it is a struct field's type.  A non-nil node cached in the simple-type cache under the
      owner's key wins; otherwise the expression's shape decides. */
  function GenExpr(env: Env, c: Caches, fuel: nat, owner: Decl, expr: TypeExpr, field: Option<Field>): (o: Out<Schema>)
    ensures o.result.Ok? ==> !o.result.value.Nil?
    ensures CachesOk(c) ==> CachesOk(o.caches)
    ensures Grows(c, o.caches)
    decreases fuel, 1
  {
    if fuel == 0 then Out(c, Fail(OutOfFuel))
    else
      var cached := Get(c.simple, owner.key);
      var g := if cached.Some? && !cached.value.schema.Nil? then Out(c, Ok(Generated(cached.value.schema, None)))
               else GenShape(env, c, fuel - 1, owner, expr, field);
      FinishExpr(env, fuel, g, field)
  }

  /** The end of generateSchemaForExpr: a clone of the node found, with the field's common
      attributes (their errors ignored) and then its title and description laid over it. */
  function FinishExpr(env: Env, fuel: nat, g: Out<Generated>, field: Option<Field>): (o: Out<Schema>)
    requires fuel > 0
    ensures o.result.Ok? ==> g.result.Ok? && !g.result.value.schema.Nil?
    ensures o.result.Ok? ==> !o.result.value.Nil? && o.result.value.kind == g.result.value.schema.kind
    ensures field.None? && g.result.Ok? && !g.result.value.schema.Nil? ==> o == Out(g.caches, Ok(g.result.value.schema))
    ensures o.result.Ok? && field.Some? && IgnoreError(FieldAnno(env.ext, field.value)).Ok?
            && AnnoText(IgnoreError(FieldAnno(env.ext, field.value)).value, Title) != "" ==>
      o.result.value.core.title == AnnoText(IgnoreError(FieldAnno(env.ext, field.value)).value, Title)
    ensures o.result.Ok? && field.Some? && IgnoreError(FieldAnno(env.ext, field.value)).Ok?
            && AnnoText(IgnoreError(FieldAnno(env.ext, field.value)).value, Description) != "" ==>
      o.result.value.core.description == AnnoText(IgnoreError(FieldAnno(env.ext, field.value)).value, Description)
    ensures CachesOk(g.caches) ==> CachesOk(o.caches)
    ensures Grows(g.caches, o.caches)
    decreases fuel, 0
  {
    if g.result.Fail? then Out(g.caches, Fail(g.result.failure))
    else if g.result.value.schema.Nil? then Out(g.caches, Fail(Panic("nil pointer dereference")))
    else
      var s := Clone(g.result.value.schema);
      var ov := if field.Some? then AddCommonAttrsForField(env, g.caches, fuel - 1, s, field.value)
                else Overlay(g.caches, s, None);
      if ov.failure.Some? && ov.failure.value.Aborts() then Out(ov.caches, Fail(ov.failure.value))
      else Out(ov.caches, AddDocsForField(env, ov.schema, g.result.value.found, field))
  }

  /** What generateSchemaForExpr returns: a non-nil node in the simple-type cache under the
      owner's key decides the result's kind, and otherwise the expression's shape does. */
  lemma GenExprBase(env: Env, c: Caches, fuel: nat, owner: Decl, expr: TypeExpr, field: Option<Field>)
    ensures fuel > 0 && GenExpr(env, c, fuel, owner, expr, field).result.Ok? && Get(c.simple, owner.key).Some? && !Get(c.simple, owner.key).value.schema.Nil? ==>
      GenExpr(env, c, fuel, owner, expr, field).result.value.kind == Get(c.simple, owner.key).value.schema.kind
    ensures fuel > 0 && GenExpr(env, c, fuel, owner, expr, field).result.Ok? && (Get(c.simple, owner.key).None? || Get(c.simple, owner.key).value.schema.Nil?) ==>
      GenShape(env, c, fuel - 1, owner, expr, field).result.Ok? &&
      !GenShape(env, c, fuel - 1, owner, expr, field).result.value.schema.Nil? &&
      GenExpr(env, c, fuel, owner, expr, field).result.value.kind == GenShape(env, c, fuel - 1, owner, expr, field).result.value.schema.kind
  {
  }

  /** Without a field, generateSchemaForExpr returns the cached node for the owner's key, or
      else the node its shape gives, together with the caches that produced it. */
  lemma GenExprNoField(env: Env, c: Caches, fuel: nat, owner: Decl, expr: TypeExpr)
    ensures fuel > 0 && Get(c.simple, owner.key).Some? && !Get(c.simple, owner.key).value.schema.Nil? ==>
      GenExpr(env, c, fuel, owner, expr, None) == Out(c, Ok(Get(c.simple, owner.key).value.schema))
    ensures fuel > 0 && (Get(c.simple, owner.key).None? || Get(c.simple, owner.key).value.schema.Nil?) && GenShape(env, c, fuel - 1, owner, expr, None).result.Ok?
            && !GenShape(env, c, fuel - 1, owner, expr, None).result.value.schema.Nil? ==>
      GenExpr(env, c, fuel, owner, expr, None) == Out(GenShape(env, c, fuel - 1, owner, expr, None).caches, Ok(GenShape(env, c, fuel - 1, owner, expr, None).result.value.schema))
  {
  }

  /** A non-empty title in a field's annotation becomes the title of the schema generated
      for the field. */
  lemma GenExprFieldTitle(env: Env, c: Caches, fuel: nat, owner: Decl, expr: TypeExpr, field: Option<Field>)
    ensures GenExpr(env, c, fuel, owner, expr, field).result.Ok? && field.Some? && IgnoreError(FieldAnno(env.ext, field.value)).Ok?
            && AnnoText(IgnoreError(FieldAnno(env.ext, field.value)).value, Title) != "" ==>
      GenExpr(env, c, fuel, owner, expr, field).result.value.core.title == AnnoText(IgnoreError(FieldAnno(env.ext, field.value)).value, Title)
  {
  }

  /** A non-empty description in a field's annotation becomes the description of the schema
      generated for the field. */
  lemma GenExprFieldDescription(env: Env, c: Caches, fuel: nat, owner: Decl, expr: TypeExpr, field: Option<Field>)
    ensures GenExpr(env, c, fuel, owner, expr, field).result.Ok? && field.Some? && IgnoreError(FieldAnno(env.ext, field.value)).Ok?
            && AnnoText(IgnoreError(FieldAnno(env.ext, field.value)).value, Description) != "" ==>
      GenExpr(env, c, fuel, owner, expr, field).result.value.core.description == AnnoText(IgnoreError(FieldAnno(env.ext, field.value)).value, Description)
  {
  }

  /** An outcome without a declaration attached. */
  function Unnamed(g: Out<Schema>): (o: Out<Generated>)
    ensures o.caches == g.caches && (o.result.Ok? <==> g.result.Ok?)
    ensures o.result.Ok? ==> o.result.value == Generated(g.result.value, None)
  {
    Out(g.caches, if g.result.Ok? then Ok(Generated(g.result.value, None)) else Fail(g.result.failure))
  }

  /** The switch on the expression's shape inside generateSchemaForExpr.  Channel and
      function types have no case and leave no node. */
  function GenShape(env: Env, c: Caches, fuel: nat, owner: Decl, expr: TypeExpr, field: Option<Field>): (o: Out<Generated>)
    ensures fuel > 1 && expr.Star? && field.Some? && ExprString(expr.x) == owner.info.spec.name
            ==> o.caches == c && o.result == Ok(Generated(SelfRef(), None))
    ensures fuel > 1 && expr.Selector? && expr.pkgName + "." + expr.sel == "json.RawMessage"
            ==> o.caches == c && o.result == Ok(Generated(NewMapSchema(env.opts.suppressXAttrs), None))
    ensures fuel > 1 && (expr.ChanType? || expr.FuncType?) ==> o.caches == c && o.result == Ok(Generated(Nil, None))
    ensures fuel > 1 && (expr.InterfaceType? || expr.MapType?) && o.result.Ok? ==> o.result.value.schema.IsObject()
    ensures fuel > 1 && expr.ArrayType? && o.result.Ok? ==> o.result.value.schema.IsArray()
    ensures o.result.Ok? && o.result.value.found.Some? ==> expr.Ident? || expr.Selector?
    ensures CachesOk(c) ==> CachesOk(o.caches)
    ensures Grows(c, o.caches)
    decreases fuel, 0
  {
    if fuel == 0 then Out(c, Fail(OutOfFuel))
    else
      match expr
      case StructType(_) => Unnamed(GenObject(env, c, fuel - 1, owner, false))
      case Ident(name) => GenIdent(env, c, fuel - 1, owner, name, field)
      case Star(x) => Unnamed(GenPointer(env, c, fuel - 1, owner, x, field))
      case Selector(pkgName, sel) => GenSelector(env, c, fuel - 1, owner, pkgName, sel, field)
      case _ => Unnamed(GenUnnamed(env, c, fuel - 1, owner, expr, field))
  }

  /** A pointer type: a field pointing at its own struct refers to the root ("#"); any other
      pointer has the schema of what it points at. */
  function GenPointer(env: Env, c: Caches, fuel: nat, owner: Decl, x: TypeExpr, field: Option<Field>): (o: Out<Schema>)
    ensures fuel > 0 && field.Some? && ExprString(x) == owner.info.spec.name ==> o.caches == c && o.result == Ok(SelfRef())
    ensures CachesOk(c) ==> CachesOk(o.caches)
    ensures Grows(c, o.caches)
    decreases fuel, 0
  {
    if fuel == 0 then Out(c, Fail(OutOfFuel))
    else if field.Some? && ExprString(x) == owner.info.spec.name then Out(c, Ok(SelfRef()))
    else GenExpr(env, c, fuel - 1, owner, x, field)
  }

  /** The shapes that never name a declaration: arrays, interfaces and maps, and the channel
      and function types, which have no schema. */
  function GenUnnamed(env: Env, c: Caches, fuel: nat, owner: Decl, expr: TypeExpr, field: Option<Field>): (o: Out<Schema>)
    requires expr.ArrayType? || expr.InterfaceType? || expr.MapType? || expr.ChanType? || expr.FuncType?
    ensures fuel > 0 && (expr.ChanType? || expr.FuncType?) ==> o == Out(c, Ok(Nil))
    ensures fuel > 0 && (expr.InterfaceType? || expr.MapType?) && o.result.Ok? ==> o.result.value.IsObject()
    ensures fuel > 0 && expr.ArrayType? && o.result.Ok? ==> o.result.value.IsArray()
    ensures CachesOk(c) ==> CachesOk(o.caches)
    ensures Grows(c, o.caches)
    decreases fuel, 0
  {
    if fuel == 0 then Out(c, Fail(OutOfFuel))
    else
      match expr
      case ArrayType(_, elt) => GenArray(env, c, fuel - 1, owner, elt, field)
      case InterfaceType =>
        if field.Some? then GenInterfaceForField(env, c, fuel - 1, owner, field.value) else GenInterfaceForDecl(env, c, fuel - 1, owner)
      case MapType(_, _) =>
        if field.Some? then GenInterfaceForField(env, c, fuel - 1, owner, field.value) else GenInterfaceForDecl(env, c, fuel - 1, owner)
      case ChanType(_) => Out(c, Ok(Nil))
      case FuncType => Out(c, Ok(Nil))
  }

  /** The identifier case: a built-in name gives its simple node before any lookup; otherwise
      the name is looked up in the owner's package (its own file first).  A declaration whose
      type is a built-in is an alias: its node, with the alias's own annotation bounds, is
      built once and then served from the simple-type cache.  Any other declaration is
      generated from its type expression. */
  function GenIdent(env: Env, c: Caches, fuel: nat, owner: Decl, name: string, field: Option<Field>): (o: Out<Generated>)
    ensures fuel > 0 && GenBuiltIn(env, name, field).Ok? && GenBuiltIn(env, name, field).value.Some?
            ==> o == Out(c, Ok(Generated(GenBuiltIn(env, name, field).value.value, None)))
    ensures fuel > 0 && GenBuiltIn(env, name, field).Fail? ==> o == Out(c, Fail(GenBuiltIn(env, name, field).failure))
    ensures o.result.Ok? && o.result.value.found.Some? ==>
      && BuiltinJsonType(name).None?
      && FindDecl(env, owner.info.pkg, Some(owner.info.fileIdx), name) == Ok(o.result.value.found.value)
    ensures fuel > 0 && BuiltinJsonType(name).None? && FindDecl(env, owner.info.pkg, Some(owner.info.fileIdx), name).Fail?
            ==> o == Out(c, Fail(FindDecl(env, owner.info.pkg, Some(owner.info.fileIdx), name).failure))
    ensures CachesOk(c) ==> CachesOk(o.caches)
    ensures Grows(c, o.caches)
    decreases fuel, 0
  {
    if fuel == 0 then Out(c, Fail(OutOfFuel))
    else
      match GenBuiltIn(env, name, field)
      case Fail(e) => Out(c, Fail(e))
      case Ok(Some(s)) => Out(c, Ok(Generated(s, None)))
      case Ok(None) =>
        match FindDecl(env, owner.info.pkg, Some(owner.info.fileIdx), name)
        case Fail(e) => Out(c, Fail(e))
        case Ok(found) => GenNamed(env, c, fuel - 1, found, field)
  }

  /** A type name resolved to a declaration: the simple-type cache, the alias of a built-in,
      or the declaration's own type expression. */
  function GenNamed(env: Env, c: Caches, fuel: nat, found: Decl, field: Option<Field>): (o: Out<Generated>)
    ensures o.result.Ok? ==> o.result.value.found == Some(found)
    ensures fuel > 0 && Get(c.simple, found.key).Some? ==> o == Out(c, Ok(Generated(Get(c.simple, found.key).value.schema, Some(found))))
    ensures fuel > 0 && Get(c.simple, found.key).None? && AliasBase(env, found, field).Some? ==> o == GenAlias(env, c, found, field)
    ensures CachesOk(c) ==> CachesOk(o.caches)
    ensures Grows(c, o.caches)
    decreases fuel, 0
  {
    if fuel == 0 then Out(c, Fail(OutOfFuel))
    else
      var hit := Get(c.simple, found.key);
      if hit.Some? then Out(c, Ok(Generated(hit.value.schema, Some(found))))
      else if AliasBase(env, found, field).Some? then GenAlias(env, c, found, field)
      else
        var g := GenExpr(env, c, fuel - 1, found, found.info.spec.typ, field);
        Out(g.caches, if g.result.Ok? then Ok(Generated(g.result.value, Some(found))) else Fail(g.result.failure))
  }

  /** The built-in node a declaration aliases, when its type is a built-in name (with the
      field's bounds, and silently skipped when they do not validate). */
  function AliasBase(env: Env, found: Decl, field: Option<Field>): (r: Option<Schema>)
    ensures r.Some? ==> ExprString(found.info.spec.typ) in BuiltinTypes
    ensures r.Some? ==> GenBuiltIn(env, ExprString(found.info.spec.typ), field) == Ok(r)
    ensures r.Some? ==> r.value.HasFormat() && r.value.core.jsonType == BuiltinTypes[ExprString(found.info.spec.typ)]
  {
    var typeName := ExprString(found.info.spec.typ);
    if typeName !in BuiltinTypes then None
    else
      BuiltinNameIsJsonType(typeName);
      match GenBuiltIn(env, typeName, field)
      case Ok(Some(s)) => Some(s)
      case _ => None
  }

  /** An alias of a built-in type: its built-in node with the alias declaration's own
      string or numeric bounds, stored in the simple-type cache under the alias's key. */
  function GenAlias(env: Env, c: Caches, found: Decl, field: Option<Field>): (o: Out<Generated>)
    requires AliasBase(env, found, field).Some?
    ensures o.result.Ok? <==> DeclAnno(env.ext, found.info).Ok?
    ensures o.result.Fail? ==> o == Out(c, Fail(DeclAnno(env.ext, found.info).failure))
    ensures o.result.Ok? ==> o.result.value.found == Some(found)
    ensures o.result.Ok? ==> o.caches == c.(simple := Put(c.simple, found.key, Def(found, o.result.value.schema)))
    ensures o.result.Ok? && DeclAnno(env.ext, found.info).value.None? ==> o.result.value.schema == AliasBase(env, found, field).value
    ensures o.result.Ok? ==> o.result.value.schema.HasFormat() && o.result.value.schema.core == AliasBase(env, found, field).value.core
    ensures CachesOk(c) ==> CachesOk(o.caches)
    ensures Grows(c, o.caches)
  {
    var base := AliasBase(env, found, field).value;
    match DeclAnno(env.ext, found.info)
    case Fail(e) => Out(c, Fail(e))
    case Ok(anno) =>
      var s := PopulateAlias(BuiltinTypes[ExprString(found.info.spec.typ)], base, anno);
      Out(c.(simple := Put(c.simple, found.key, Def(found, s))), Ok(Generated(s, Some(found))))
  }

  /** The selector case: json.RawMessage is a free-form object, a built-in (time.Time and
      friends) its simple node, anything else the declaration the selector names in the
      imported package. */
  function GenSelector(env: Env, c: Caches, fuel: nat, owner: Decl, pkgName: string, sel: string, field: Option<Field>): (o: Out<Generated>)
    ensures fuel > 0 && GenBuiltIn(env, pkgName + "." + sel, field).Ok? && GenBuiltIn(env, pkgName + "." + sel, field).value.Some?
            ==> o == Out(c, Ok(Generated(GenBuiltIn(env, pkgName + "." + sel, field).value.value, None)))
    ensures fuel > 0 && pkgName + "." + sel == "json.RawMessage"
            ==> o.caches == c && o.result == Ok(Generated(NewMapSchema(env.opts.suppressXAttrs), None))
    ensures o.result.Ok? && o.result.value.found.Some? ==> SelectorDecl(env, owner, pkgName, sel) == Ok(o.result.value.found.value)
    ensures CachesOk(c) ==> CachesOk(o.caches)
    ensures Grows(c, o.caches)
    decreases fuel, 0
  {
    if fuel == 0 then Out(c, Fail(OutOfFuel))
    else if pkgName + "." + sel == "json.RawMessage" then Out(c, Ok(Generated(NewMapSchema(env.opts.suppressXAttrs), None)))
    else
      match GenBuiltIn(env, pkgName + "." + sel, field)
      case Fail(e) => Out(c, Fail(e))
      case Ok(Some(s)) => Out(c, Ok(Generated(s, None)))
      case Ok(None) =>
        match SelectorDecl(env, owner, pkgName, sel)
        case Fail(e) => Out(c, Fail(e))
        case Ok(found) =>
          var g := GenExpr(env, c, fuel - 1, found, found.info.spec.typ, field);
          Out(g.caches, if g.result.Ok? then Ok(Generated(g.result.value, Some(found))) else Fail(g.result.failure))
  }

  /** generateArraySchema: an array node with the field's array bounds whose items are the
      element type's schema; an object element must pass the interface-field check. */
  function GenArray(env: Env, c: Caches, fuel: nat, owner: Decl, elt: TypeExpr, field: Option<Field>): (o: Out<Schema>)
    ensures o.result.Ok? ==> AddArrayAttrsForField(env, NewArraySchema(), field).Ok?
    ensures o.result.Ok? ==> o.result.value.IsArray() && o.result.value.core == EmptyCore("array")
    ensures o.result.Ok? ==> o.result.value.kind.(items := Nil) == AddArrayAttrsForField(env, NewArraySchema(), field).value.kind
    ensures o.result.Ok? ==> !o.result.value.kind.items.Nil?
    ensures o.result.Ok? && o.result.value.kind.items.IsObject() ==> env.ext.checkInterfaceField(o.result.value.kind.items, field).None?
    ensures fuel > 0 && AddArrayAttrsForField(env, NewArraySchema(), field).Fail?
            ==> o == Out(c, Fail(AddArrayAttrsForField(env, NewArraySchema(), field).failure))
    ensures CachesOk(c) ==> CachesOk(o.caches)
    ensures Grows(c, o.caches)
    decreases fuel, 0
  {
    if fuel == 0 then Out(c, Fail(OutOfFuel))
    else
      match AddArrayAttrsForField(env, NewArraySchema(), field)
      case Fail(e) => Out(c, Fail(e))
      case Ok(arr) =>
        var el := GenExpr(env, c, fuel - 1, owner, elt, None);
        if el.result.Fail? then Out(el.caches, Fail(el.result.failure))
        else
          var items := el.result.value;
          var check := if items.IsObject() then env.ext.checkInterfaceField(items, field) else None;
          if check.Some? then Out(el.caches, Fail(Error(check.value)))
          else Out(el.caches, Ok(Node(arr.core, arr.kind.(items := items))))
  }

  /** generateInterfaceSchemaForField: an interface or map field is an open map carrying the
      declaration's common attributes, unless the field names allOf/anyOf/oneOf targets or
      the declaration is annotated, which makes it an object with the declaration's object
      attributes.  Either must then pass the interface-field check. */
  function GenInterfaceForField(env: Env, c: Caches, fuel: nat, decl: Decl, f: Field): (o: Out<Schema>)
    ensures o.result.Ok? ==> o.result.value.IsObject() && FieldHasXof(env, f).Ok?
    ensures o.result.Ok? ==> env.ext.checkInterfaceField(o.result.value, Some(f)).None?
    ensures o.result.Ok? && FieldHasXof(env, f) == Ok(false) && DeclHasAnnotation(env, decl) == Ok(false) ==>
      && o.result.value.kind.properties == [] && o.result.value.kind.required == []
      && o.result.value.kind.additionalProperties == Some(BoolOrSchema(true, Nil))
    ensures o.result.Ok? && (FieldHasXof(env, f) == Ok(true) || DeclHasAnnotation(env, decl) == Ok(true)) ==>
      && o.result.value.kind.properties == [] && o.result.value.kind.required == []
      && DeclAnno(env.ext, decl.info).Ok?
      && (DeclAnno(env.ext, decl.info).value.None? || DeclAnno(env.ext, decl.info).value.value.Props().None?
          ==> o.result.value.kind.additionalProperties.None?)
    ensures fuel > 0 && FieldHasXof(env, f).Fail? ==> o == Out(c, Fail(FieldHasXof(env, f).failure))
    ensures CachesOk(c) ==> CachesOk(o.caches)
    ensures Grows(c, o.caches)
    decreases fuel, 0
  {
    if fuel == 0 then Out(c, Fail(OutOfFuel))
    else
      match FieldHasXof(env, f)
      case Fail(e) => Out(c, Fail(e))
      case Ok(fieldXof) =>
        match DeclHasAnnotation(env, decl)
        case Fail(e) => Out(c, Fail(e))
        case Ok(declAnnotated) =>
          if !(fieldXof || declAnnotated) then
            CheckInterface(env, f, Finished(AddCommonAttrsForDecl(env, c, fuel - 1, NewMapSchema(env.opts.suppressXAttrs), decl)))
          else CheckInterface(env, f, AddObjectAttrsForDecl(env, c, fuel - 1, NewObjectSchema(env.opts.suppressXAttrs), decl))
  }

  /** An overlay as an outcome: its failure, or the overlaid node. */
  function Finished(ov: Overlay): (o: Out<Schema>)
    ensures o.caches == ov.caches
    ensures o.result.Ok? <==> ov.failure.None?
    ensures o.result.Ok? ==> o.result.value == ov.schema
    ensures o.result.Fail? ==> o.result.failure == ov.failure.value
  {
    Out(ov.caches, if ov.failure.Some? then Fail(ov.failure.value) else Ok(ov.schema))
  }

  /** ensureProperTypeForInterfaceField applied to a generated node: its message becomes the
      error. */
  function CheckInterface(env: Env, f: Field, g: Out<Schema>): (o: Out<Schema>)
    ensures o.caches == g.caches
    ensures g.result.Fail? ==> o == g
    ensures o.result.Ok? ==> o == g && env.ext.checkInterfaceField(g.result.value, Some(f)).None?
    ensures g.result.Ok? && env.ext.checkInterfaceField(g.result.value, Some(f)).Some? ==>
      o.result == Fail(Error(env.ext.checkInterfaceField(g.result.value, Some(f)).value))
  {
    if g.result.Fail? then g
    else
      var check := env.ext.checkInterfaceField(g.result.value, Some(f));
      if check.Some? then Out(g.caches, Fail(Error(check.value))) else g
  }

  /** generateInterfaceSchemaForDecl: an object with the declaration's object attributes. */
  function GenInterfaceForDecl(env: Env, c: Caches, fuel: nat, decl: Decl): (o: Out<Schema>)
    ensures o.result.Ok? ==> o.result.value.IsObject() && o.result.value.kind.properties == [] && o.result.value.kind.required == []
    ensures o.result.Ok? && DeclAnno(env.ext, decl.info) == Ok(None) ==> o.result.value.kind.additionalProperties.None?
    ensures CachesOk(c) ==> CachesOk(o.caches)
    ensures Grows(c, o.caches)
    decreases fuel, 0
  {
    if fuel == 0 then Out(c, Fail(OutOfFuel))
    else AddObjectAttrsForDecl(env, c, fuel - 1, NewObjectSchema(env.opts.suppressXAttrs), decl)
  }

  /** generateObjectSchema: the object schema of a struct declaration.  A cached object is
      reused: as a `$ref` to its definition when it is not embedded and should be referenced,
      otherwise as itself.  A new object gets its Go path and object attributes, then one
      property per field; it is cached only if every field succeeded, and is returned as a
      `$ref` exactly when it should be referenced and is not embedded. */
  function GenObject(env: Env, c: Caches, fuel: nat, decl: Decl, embedded: bool): (o: Out<Schema>)
    ensures fuel > 0 && Get(ObjectCache(c, embedded), decl.key).Some? ==> o.caches == c
    ensures fuel > 0 && Get(ObjectCache(c, embedded), decl.key).Some? && (embedded || ShouldReturnRef(env, decl) == Ok(false))
            ==> o.result == Ok(Get(ObjectCache(c, embedded), decl.key).value.schema)
    ensures fuel > 0 && Get(ObjectCache(c, embedded), decl.key).Some? && !embedded && ShouldReturnRef(env, decl) == Ok(true)
            ==> o.result == Ok(RefNode(DefinitionRoot + decl.key))
    ensures Get(ObjectCache(c, embedded), decl.key).None? && o.result.Ok? ==>
      && Get(ObjectCache(o.caches, embedded), decl.key).Some?
      && Get(ObjectCache(o.caches, embedded), decl.key).value.decl == decl
      && Get(ObjectCache(o.caches, embedded), decl.key).value.schema.IsObject()
      && ShouldReturnRef(env, decl).Ok?
      && o.result.value == (if !embedded && ShouldReturnRef(env, decl).value then RefNode(DefinitionRoot + decl.key)
                            else Get(ObjectCache(o.caches, embedded), decl.key).value.schema)
    ensures embedded && CachesOk(c) && o.result.Ok? ==> o.result.value.IsObject()
    ensures CachesOk(c) ==> CachesOk(o.caches)
    ensures Grows(c, o.caches)
    decreases fuel, 0
  {
    if fuel == 0 then Out(c, Fail(OutOfFuel))
    else
      var hit := Get(ObjectCache(c, embedded), decl.key);
      if hit.Some? then
        if embedded then Out(c, Ok(hit.value.schema))
        else
          match ShouldReturnRef(env, decl)
          case Fail(e) => Out(c, Fail(e))
          case Ok(asRef) => Out(c, Ok(if asRef then RefNode(DefinitionRoot + decl.key) else hit.value.schema))
      else GenNewObject(env, c, fuel - 1, decl, embedded)
  }

  /** generateObjectSchema for a declaration not cached yet: the object schema with its
      go path, declaration-level attributes and properties, stored in the cache. */
  function GenNewObject(env: Env, c: Caches, fuel: nat, decl: Decl, embedded: bool): (o: Out<Schema>)
    requires Get(ObjectCache(c, embedded), decl.key).None?
    ensures o.result.Ok? ==>
      && Get(ObjectCache(o.caches, embedded), decl.key).Some?
      && Get(ObjectCache(o.caches, embedded), decl.key).value.decl == decl
      && Get(ObjectCache(o.caches, embedded), decl.key).value.schema.IsObject()
      && ShouldReturnRef(env, decl).Ok?
      && o.result.value == (if !embedded && ShouldReturnRef(env, decl).value then RefNode(DefinitionRoot + decl.key)
                            else Get(ObjectCache(o.caches, embedded), decl.key).value.schema)
    ensures CachesOk(c) ==> CachesOk(o.caches)
    ensures Grows(c, o.caches)
    decreases fuel, 0
  {
    if fuel == 0 then Out(c, Fail(OutOfFuel))
    else
      var obj := SetGoPath(NewObjectSchema(env.opts.suppressXAttrs), decl.info.pkg.path + "/" + decl.info.spec.name);
      var attrs := AddObjectAttrsForDecl(env, c, fuel - 1, obj, decl);
      if attrs.result.Fail? then attrs
      else if !decl.info.spec.typ.StructType? then Out(attrs.caches, Fail(Panic("interface conversion: not a struct type")))
      else
        var fields := GenFields(env, attrs.caches, fuel - 1, decl, decl.info.spec.typ.fields, 0, attrs.result.value, []);
        match ShouldReturnRef(env, decl)
        case Fail(e) => Out(fields.caches, Fail(e))
        case Ok(asRef) =>
          match fields.result
          case Fail(e) => Out(fields.caches, Fail(e))
          case Ok(built) =>
            var done := Node(built.0.core, built.0.kind.(properties := built.1));
            var c' := StoreObject(fields.caches, embedded, decl, done);
            Out(c', Ok(if asRef && !embedded then RefNode(DefinitionRoot + decl.key) else done))
  }

  /** A struct field that becomes a property of its own: named, exported, not `json:"-"`. */
  predicate Listed(f: Field) {
    |f.names| > 0 && IsExported(f.names[0]) && !JsonTagInfo(f).1
  }

  /** The property names the listed fields contribute. */
  function ListedNames(fs: seq<Field>): set<string> {
    if |fs| == 0 then {}
    else (if Listed(fs[0]) then {JsonTagInfo(fs[0]).0} else {}) + ListedNames(fs[1..])
  }

  /** The property names of the listed fields annotated `required=true`, in field order. */
  function RequiredNames(ext: Foreign, fs: seq<Field>): seq<string> {
    if |fs| == 0 then []
    else (if Listed(fs[0]) && FieldIsRequired(ext, fs[0]) == Ok(true) then [JsonTagInfo(fs[0]).0] else [])
         + RequiredNames(ext, fs[1..])
  }

  /** No field is embedded. */
  predicate AllNamed(fs: seq<Field>) {
    forall i :: 0 <= i < |fs| ==> |fs[i].names| > 0
  }

  /** The field loop of generateObjectSchema, from field `i` on: an embedded field's
      properties and required names are merged in, each listed field adds its property
      (a later one of the same name replacing an earlier one) and, when required, its name.
      The first failing field stops the loop. */
  function GenFields(env: Env, c: Caches, fuel: nat, decl: Decl, fields: seq<Field>, i: nat, obj: Schema, props: Dict<Schema>)
    : (o: Out<(Schema, Dict<Schema>)>)
    requires obj.IsObject() && i <= |fields|
    ensures o.result.Ok? ==> OnlyRequiredGrows(obj, o.result.value.0)
    ensures CachesOk(c) ==> CachesOk(o.caches)
    ensures Grows(c, o.caches)
    decreases fuel, |fields| - i
  {
    if i == |fields| then Out(c, Ok((obj, props)))
    else if fuel == 0 then Out(c, Fail(OutOfFuel))
    else
      var f := fields[i];
      if |f.names| == 0 then
        var e := GenEmbedded(env, c, fuel - 1, decl, f.typ);
        match e.result
        case Fail(x) => Out(e.caches, Fail(x))
        case Ok(es) =>
          if !es.IsObject() then Out(e.caches, Fail(Panic("interface conversion: not an object schema")))
          else GenFields(env, e.caches, fuel, decl, fields, i + 1, Node(obj.core, obj.kind.(required := obj.kind.required + es.kind.required)), PutAll(props, es.kind.properties))
      else if !Listed(f) then GenFields(env, c, fuel, decl, fields, i + 1, obj, props)
      else
        var name := JsonTagInfo(f).0;
        var g := GenExpr(env, c, fuel - 1, decl, f.typ, Some(f));
        match g.result
        case Fail(x) => Out(g.caches, Fail(x))
        case Ok(fs) =>
          match FieldIsRequired(env.ext, f)
          case Fail(x) => Out(g.caches, Fail(x))
          case Ok(required) =>
            GenFields(env, g.caches, fuel, decl, fields, i + 1, if required then AddRequiredField(obj, name) else obj, Put(props, name, fs))
  }

  /** `after` is `before` with names appended to its required list, and nothing else changed. */
  predicate OnlyRequiredGrows(before: Schema, after: Schema)
    requires before.IsObject()
  {
    && after.IsObject() && after.core == before.core
    && after.kind.properties == before.kind.properties
    && after.kind.maxProperties == before.kind.maxProperties
    && after.kind.minProperties == before.kind.minProperties
    && after.kind.additionalProperties == before.kind.additionalProperties
    && after.kind.goPath == before.kind.goPath
    && after.kind.suppressXAttrs == before.kind.suppressXAttrs
    && before.kind.required <= after.kind.required
  }

  /** What the field loop promises from field `i` on, for the node and properties it
      started from and the pair it returned: every listed field contributes its property;
      without embedded fields the properties are exactly the listed fields' and the required
      names are exactly the listed fields annotated `required=true`, in field order, after
      the ones already there. */
  predicate FieldsOutcome(ext: Foreign, fields: seq<Field>, i: nat, obj: Schema, props: Dict<Schema>, r: (Schema, Dict<Schema>))
    requires obj.IsObject() && r.0.IsObject() && i <= |fields|
  {
    && Keys(props) + ListedNames(fields[i..]) <= Keys(r.1)
    && (AllNamed(fields[i..]) ==> Keys(r.1) == Keys(props) + ListedNames(fields[i..]))
    && (AllNamed(fields[i..]) ==> r.0.kind.required == obj.kind.required + RequiredNames(ext, fields[i..]))
  }

  /** The field loop keeps its promise. */
  lemma {:induction false} FieldsProperties(env: Env, c: Caches, fuel: nat, decl: Decl, fields: seq<Field>, i: nat, obj: Schema, props: Dict<Schema>)
    requires obj.IsObject() && i <= |fields|
    requires GenFields(env, c, fuel, decl, fields, i, obj, props).result.Ok?
    ensures FieldsOutcome(env.ext, fields, i, obj, props, GenFields(env, c, fuel, decl, fields, i, obj, props).result.value)
    decreases |fields| - i
  {
    var o := GenFields(env, c, fuel, decl, fields, i, obj, props);
    if i == |fields| {
      assert fields[i..] == [];
    } else {
      var f := fields[i];
      if |f.names| == 0 {
        var e := GenEmbedded(env, c, fuel - 1, decl, f.typ);
        var es := e.result.value;
        var obj' := Node(obj.core, obj.kind.(required := obj.kind.required + es.kind.required));
        var props' := PutAll(props, es.kind.properties);
        assert o == GenFields(env, e.caches, fuel, decl, fields, i + 1, obj', props');
        FieldsProperties(env, e.caches, fuel, decl, fields, i + 1, obj', props');
        EmbeddedStep(env.ext, fields, i, obj, props, obj', props', o.result.value);
      } else if !Listed(f) {
        assert o == GenFields(env, c, fuel, decl, fields, i + 1, obj, props);
        FieldsProperties(env, c, fuel, decl, fields, i + 1, obj, props);
        SkipStep(env.ext, fields, i, obj, props, o.result.value);
      } else {
        var name := JsonTagInfo(f).0;
        var g := GenExpr(env, c, fuel - 1, decl, f.typ, Some(f));
        var required := FieldIsRequired(env.ext, f).value;
        var obj' := if required then AddRequiredField(obj, name) else obj;
        var props' := Put(props, name, g.result.value);
        assert o == GenFields(env, g.caches, fuel, decl, fields, i + 1, obj', props');
        FieldsProperties(env, g.caches, fuel, decl, fields, i + 1, obj', props');
        ListedStep(env.ext, fields, i, obj, props, g.result.value, required, o.result.value);
      }
    }
  }

  lemma EmbeddedStep(ext: Foreign, fields: seq<Field>, i: nat, obj: Schema, props: Dict<Schema>, obj': Schema, props': Dict<Schema>,
                     r: (Schema, Dict<Schema>))
    requires i < |fields| && |fields[i].names| == 0
    requires obj.IsObject() && obj'.IsObject() && r.0.IsObject() && Keys(props) <= Keys(props')
    requires FieldsOutcome(ext, fields, i + 1, obj', props', r)
    ensures FieldsOutcome(ext, fields, i, obj, props, r)
  {
    assert fields[i..][1..] == fields[i + 1..] && fields[i..][0] == fields[i];
  }

  lemma SkipStep(ext: Foreign, fields: seq<Field>, i: nat, obj: Schema, props: Dict<Schema>, r: (Schema, Dict<Schema>))
    requires i < |fields| && |fields[i].names| > 0 && !Listed(fields[i])
    requires obj.IsObject() && r.0.IsObject()
    requires FieldsOutcome(ext, fields, i + 1, obj, props, r)
    ensures FieldsOutcome(ext, fields, i, obj, props, r)
  {
    assert fields[i..][1..] == fields[i + 1..] && fields[i..][0] == fields[i];
    assert ListedNames(fields[i..]) == ListedNames(fields[i + 1..]);
    assert RequiredNames(ext, fields[i..]) == [] + RequiredNames(ext, fields[i + 1..]);
    assert [] + RequiredNames(ext, fields[i + 1..]) == RequiredNames(ext, fields[i + 1..]);
    AllNamedTail(fields[i..]);
  }

  lemma ListedStep(ext: Foreign, fields: seq<Field>, i: nat, obj: Schema, props: Dict<Schema>, v: Schema, required: bool,
                   r: (Schema, Dict<Schema>))
    requires i < |fields| && Listed(fields[i]) && FieldIsRequired(ext, fields[i]) == Ok(required)
    requires obj.IsObject() && r.0.IsObject()
    requires FieldsOutcome(ext, fields, i + 1, if required then AddRequiredField(obj, JsonTagInfo(fields[i]).0) else obj,
                           Put(props, JsonTagInfo(fields[i]).0, v), r)
    ensures FieldsOutcome(ext, fields, i, obj, props, r)
  {
    var name := JsonTagInfo(fields[i]).0;
    var tail := fields[i + 1..];
    assert fields[i..][1..] == tail && fields[i..][0] == fields[i];
    assert ListedNames(fields[i..]) == {name} + ListedNames(tail);
    var head := if required then [name] else [];
    assert RequiredNames(ext, fields[i..]) == head + RequiredNames(ext, tail);
    var obj' := if required then AddRequiredField(obj, name) else obj;
    assert obj'.kind.required == obj.kind.required + head;
    AllNamedTail(fields[i..]);
    if AllNamed(fields[i..]) {
      assert r.0.kind.required == obj.kind.required + head + RequiredNames(ext, tail);
      ConcatAssoc(obj.kind.required, head, RequiredNames(ext, tail));
    }
  }

  lemma ConcatAssoc(a: seq<string>, b: seq<string>, c: seq<string>)
    ensures a + b + c == a + (b + c)
  {
  }

  lemma AllNamedTail(fs: seq<Field>)
    requires |fs| > 0
    ensures AllNamed(fs) ==> AllNamed(fs[1..])
  {
    if AllNamed(fs) {
      forall j | 0 <= j < |fs[1..]|
        ensures |fs[1..][j].names| > 0
      {
        assert fs[1..][j] == fs[j + 1];
      }
    }
  }

  /** `v` is what generating field `f`'s type yields inside the field loop, which runs with
      `fuel` and calls the expression generator with one unit less, from caches that extend
      `c` (the ones the loop started from). */
  ghost predicate GeneratedFor(env: Env, c: Caches, fuel: nat, decl: Decl, f: Field, v: Schema) {
    fuel > 0 && exists c': Caches :: Grows(c, c') && GenExpr(env, c', fuel - 1, decl, f.typ, Some(f)).result == Ok(v)
  }

  /** Field `j` is the last listed field of its property name, and no embedded field follows it. */
  predicate LastListed(fields: seq<Field>, j: nat)
    requires j < |fields|
  {
    Listed(fields[j]) && JsonTagInfo(fields[j]).0 !in ListedNames(fields[j + 1..]) && AllNamed(fields[j + 1..])
  }

  /** Without embedded fields from `i` on, a name no listed field uses keeps its value. */
  ghost predicate KeptOutcome(fields: seq<Field>, i: nat, props: Dict<Schema>, r: Dict<Schema>)
    requires i <= |fields|
  {
    AllNamed(fields[i..]) ==> forall n :: n !in ListedNames(fields[i..]) ==> Get(r, n) == Get(props, n)
  }

  /** Every property whose last contributor from `i` on is a listed field holds the schema
      generated for that field. */
  ghost predicate LastOutcome(env: Env, c: Caches, fuel: nat, decl: Decl, fields: seq<Field>, i: nat, r: Dict<Schema>)
    requires i <= |fields|
  {
    forall j :: i <= j < |fields| && LastListed(fields, j) ==>
      Get(r, JsonTagInfo(fields[j]).0).Some? && GeneratedFor(env, c, fuel, decl, fields[j], Get(r, JsonTagInfo(fields[j]).0).value)
  }

  /** The property values the field loop promises from field `i` on. */
  ghost predicate ValuesOutcome(env: Env, c: Caches, fuel: nat, decl: Decl, fields: seq<Field>, i: nat, props: Dict<Schema>, r: Dict<Schema>)
    requires i <= |fields|
  {
    KeptOutcome(fields, i, props, r) && LastOutcome(env, c, fuel, decl, fields, i, r)
  }

  /** The field loop's property values: the last listed field of a name decides its value. */
  lemma {:induction false} FieldValues(env: Env, c: Caches, fuel: nat, decl: Decl, fields: seq<Field>, i: nat, obj: Schema, props: Dict<Schema>)
    requires obj.IsObject() && i <= |fields|
    requires GenFields(env, c, fuel, decl, fields, i, obj, props).result.Ok?
    ensures ValuesOutcome(env, c, fuel, decl, fields, i, props, GenFields(env, c, fuel, decl, fields, i, obj, props).result.value.1)
    decreases |fields| - i
  {
    var o := GenFields(env, c, fuel, decl, fields, i, obj, props);
    if i == |fields| {
      assert fields[i..] == [];
    } else {
      var f := fields[i];
      if |f.names| == 0 {
        var e := GenEmbedded(env, c, fuel - 1, decl, f.typ);
        var es := e.result.value;
        var obj' := Node(obj.core, obj.kind.(required := obj.kind.required + es.kind.required));
        var props' := PutAll(props, es.kind.properties);
        assert o == GenFields(env, e.caches, fuel, decl, fields, i + 1, obj', props');
        FieldValues(env, e.caches, fuel, decl, fields, i + 1, obj', props');
        ValuesLater(env, c, e.caches, fuel, decl, fields, i, o.result.value.1);
        ValuesUnlisted(fields, i, props, props', o.result.value.1);
      } else if !Listed(f) {
        assert o == GenFields(env, c, fuel, decl, fields, i + 1, obj, props);
        FieldValues(env, c, fuel, decl, fields, i + 1, obj, props);
        ValuesLater(env, c, c, fuel, decl, fields, i, o.result.value.1);
        ValuesUnlisted(fields, i, props, props, o.result.value.1);
      } else {
        var name := JsonTagInfo(f).0;
        var g := GenExpr(env, c, fuel - 1, decl, f.typ, Some(f));
        var required := FieldIsRequired(env.ext, f).value;
        var obj' := if required then AddRequiredField(obj, name) else obj;
        var props' := Put(props, name, g.result.value);
        assert o == GenFields(env, g.caches, fuel, decl, fields, i + 1, obj', props');
        FieldValues(env, g.caches, fuel, decl, fields, i + 1, obj', props');
        ValuesLater(env, c, g.caches, fuel, decl, fields, i, o.result.value.1);
        GeneratedFrom(env, c, c, fuel, decl, f);
        ValuesListed(env, c, fuel, decl, fields, i, props, g.result.value, o.result.value.1);
      }
    }
  }

  lemma GeneratedFrom(env: Env, c: Caches, c': Caches, fuel: nat, decl: Decl, f: Field)
    requires fuel > 0 && Grows(c, c') && GenExpr(env, c', fuel - 1, decl, f.typ, Some(f)).result.Ok?
    ensures GeneratedFor(env, c, fuel, decl, f, GenExpr(env, c', fuel - 1, decl, f.typ, Some(f)).result.value)
  {
  }

  /** What the loop promises about fields after `i` holds for the caches it had at `i`. */
  lemma ValuesLater(env: Env, c: Caches, c': Caches, fuel: nat, decl: Decl, fields: seq<Field>, i: nat, r: Dict<Schema>)
    requires i < |fields| && Grows(c, c')
    requires LastOutcome(env, c', fuel, decl, fields, i + 1, r)
    ensures LastOutcome(env, c, fuel, decl, fields, i + 1, r)
  {
    forall j | i + 1 <= j < |fields| && LastListed(fields, j)
      ensures GeneratedFor(env, c, fuel, decl, fields[j], Get(r, JsonTagInfo(fields[j]).0).value)
    {
      var v := Get(r, JsonTagInfo(fields[j]).0).value;
      var c2: Caches :| Grows(c', c2) && GenExpr(env, c2, fuel - 1, decl, fields[j].typ, Some(fields[j])).result == Ok(v);
      assert Grows(c, c2);
    }
  }

  /** A field that adds no property of its own passes the promise on. */
  lemma ValuesUnlisted(fields: seq<Field>, i: nat, props: Dict<Schema>, props': Dict<Schema>, r: Dict<Schema>)
    requires i < |fields| && !Listed(fields[i])
    requires |fields[i].names| > 0 ==> props' == props
    requires KeptOutcome(fields, i + 1, props', r)
    ensures KeptOutcome(fields, i, props, r)
    ensures forall env, c, fuel, decl :: LastOutcome(env, c, fuel, decl, fields, i + 1, r) ==> LastOutcome(env, c, fuel, decl, fields, i, r)
  {
    assert fields[i..][1..] == fields[i + 1..] && fields[i..][0] == fields[i];
    AllNamedTail(fields[i..]);
    if |fields[i].names| == 0 {
      assert !AllNamed(fields[i..]);
    } else {
      assert ListedNames(fields[i..]) == ListedNames(fields[i + 1..]);
    }
  }

  /** A listed field `i` gives its property the schema generated for it, unless a later
      listed field of the same name replaces it. */
  lemma ValuesListed(env: Env, c: Caches, fuel: nat, decl: Decl, fields: seq<Field>, i: nat, props: Dict<Schema>, v: Schema,
                     r: Dict<Schema>)
    requires i < |fields| && Listed(fields[i])
    requires GeneratedFor(env, c, fuel, decl, fields[i], v)
    requires KeptOutcome(fields, i + 1, Put(props, JsonTagInfo(fields[i]).0, v), r)
    requires LastOutcome(env, c, fuel, decl, fields, i + 1, r)
    ensures ValuesOutcome(env, c, fuel, decl, fields, i, props, r)
  {
    var name := JsonTagInfo(fields[i]).0;
    assert fields[i..][1..] == fields[i + 1..] && fields[i..][0] == fields[i];
    assert ListedNames(fields[i..]) == {name} + ListedNames(fields[i + 1..]);
    AllNamedTail(fields[i..]);
    if LastListed(fields, i) {
      assert Get(r, name) == Some(v);
    }
  }

  /** generateEmbeddedSchema: the object schema of an embedded struct, found through its
      name (behind any number of pointers).  A failed lookup is dereferenced as nil and
      crashes; a declaration that is not a struct is an error. */
  function GenEmbedded(env: Env, c: Caches, fuel: nat, owner: Decl, expr: TypeExpr): (o: Out<Schema>)
    ensures CachesOk(c) && o.result.Ok? ==> o.result.value.IsObject()
    ensures fuel > 0 && !(expr.Ident? || expr.Selector? || expr.Star?) ==> o.result.Fail? && o.result.failure.Panic?
    ensures CachesOk(c) ==> CachesOk(o.caches)
    ensures Grows(c, o.caches)
    decreases fuel, 0
  {
    if fuel == 0 then Out(c, Fail(OutOfFuel))
    else
      match expr
      case Star(x) => GenEmbedded(env, c, fuel - 1, owner, x)
      case Ident(name) => GenEmbeddedDecl(env, c, fuel - 1, expr, MustFind(FindDecl(env, owner.info.pkg, Some(owner.info.fileIdx), name)))
      case Selector(pkgName, sel) => GenEmbeddedDecl(env, c, fuel - 1, expr, MustFind(SelectorDecl(env, owner, pkgName, sel)))
      case _ => Out(c, Fail(Panic("nil pointer dereference")))
  }

  /** The embedded declaration found: a struct is generated as an embedded object. */
  function GenEmbeddedDecl(env: Env, c: Caches, fuel: nat, expr: TypeExpr, found: Result<Decl>): (o: Out<Schema>)
    ensures found.Fail? ==> o == Out(c, Fail(found.failure))
    ensures fuel > 0 && found.Ok? && !found.value.info.spec.typ.StructType? ==>
      o == Out(c, Fail(Error("unable to resolve embedded struct for: " + ExprString(expr))))
    ensures CachesOk(c) && o.result.Ok? ==> o.result.value.IsObject()
    ensures CachesOk(c) ==> CachesOk(o.caches)
    ensures Grows(c, o.caches)
    decreases fuel, 0
  {
    if found.Fail? then Out(c, Fail(found.failure))
    else if fuel == 0 then Out(c, Fail(OutOfFuel))
    else if found.value.info.spec.typ.StructType? then GenObject(env, c, fuel - 1, found.value, true)
    else Out(c, Fail(Error("unable to resolve embedded struct for: " + ExprString(expr))))
  }

  /** addObjectAttrsForDecl: the declaration's title and description when non-empty, then
      the attributes of its annotation, if it has one. */
  function AddObjectAttrsForDecl(env: Env, c: Caches, fuel: nat, sch: Schema, decl: Decl): (o: Out<Schema>)
    requires sch.IsObject()
    ensures o.result.Ok? ==> o.result.value.IsObject()
    ensures o.result.Ok? ==> o.result.value.kind.properties == sch.kind.properties && o.result.value.kind.required == sch.kind.required
    ensures o.result.Ok? ==> o.result.value.kind.goPath == sch.kind.goPath && o.result.value.kind.suppressXAttrs == sch.kind.suppressXAttrs
    ensures o.result.Ok? ==> DeclAnno(env.ext, decl.info).Ok? && ObjectTitleAndDescription(env, Some(decl)).Ok?
    ensures o.result.Ok? && DeclAnno(env.ext, decl.info).value.None? ==>
      var td := ObjectTitleAndDescription(env, Some(decl)).value;
      && o.result.value.kind == sch.kind
      && o.result.value.core == sch.core.(title := if td.0 != "" then td.0 else sch.core.title,
                                         description := if td.1 != "" then td.1 else sch.core.description)
    ensures o.result.Ok? && DeclAnno(env.ext, decl.info).value.Some? ==>
      ObjectAnnoApplied(DeclAnno(env.ext, decl.info).value.value, sch, o.result.value)
    ensures fuel > 0 && ObjectTitleAndDescription(env, Some(decl)).Ok? && DeclAnno(env.ext, decl.info).Fail?
            ==> o.result == Fail(DeclAnno(env.ext, decl.info).failure)
    ensures CachesOk(c) ==> CachesOk(o.caches)
    ensures Grows(c, o.caches)
    decreases fuel, 0
  {
    if fuel == 0 then Out(c, Fail(OutOfFuel))
    else
      match ObjectTitleAndDescription(env, Some(decl))
      case Fail(e) => Out(c, Fail(e))
      case Ok(td) =>
        var core := sch.core.(title := if td.0 != "" then td.0 else sch.core.title,
                              description := if td.1 != "" then td.1 else sch.core.description);
        match DeclAnno(env.ext, decl.info)
        case Fail(e) => Out(c, Fail(e))
        case Ok(None) => Out(c, Ok(Node(core, sch.kind)))
        case Ok(Some(a)) => ApplyObjectAnno(env, c, fuel - 1, Node(core, sch.kind), a, decl.info.spec.name)
  }

  /** What an object annotation sets: the id when non-empty, maxProperties when positive,
      minProperties when above -1, a boolean additionalProperties as given (a type path's is
      never the boolean true); the properties, required names and Go path stay. */
  predicate ObjectAnnoApplied(a: SchemaAnno, before: Schema, after: Schema)
    requires before.IsObject() && after.IsObject()
  {
    && after.core.id == (if a.Text(Id) != "" then a.Text(Id) else before.core.id)
    && after.kind.maxProperties == (if a.Int(MaxProperties) > 0 then a.Int(MaxProperties) else before.kind.maxProperties)
    && after.kind.minProperties == (if a.Int(MinProperties) > -1 then a.Int(MinProperties) else before.kind.minProperties)
    && (a.Props().None? ==> after.kind.additionalProperties == before.kind.additionalProperties)
    && (a.Props().Some? && a.Props().value.isBool ==>
          after.kind.additionalProperties == Some(BoolOrSchema(a.Props().value.boolean, Nil)))
    && (a.Props().Some? && !a.Props().value.isBool ==>
          after.kind.additionalProperties.Some? && !after.kind.additionalProperties.value.boolean)
  }

  /** The annotation part of addObjectAttrsForDecl: id, property-count bounds,
      additionalProperties, then the common attributes. */
  function ApplyObjectAnno(env: Env, c: Caches, fuel: nat, sch: Schema, a: SchemaAnno, name: string): (o: Out<Schema>)
    requires sch.IsObject()
    ensures o.result.Ok? ==> o.result.value.IsObject() && ObjectAnnoApplied(a, sch, o.result.value)
    ensures o.result.Ok? ==> o.result.value.kind.properties == sch.kind.properties && o.result.value.kind.required == sch.kind.required
    ensures o.result.Ok? ==> o.result.value.kind.goPath == sch.kind.goPath && o.result.value.kind.suppressXAttrs == sch.kind.suppressXAttrs
    ensures CachesOk(c) ==> CachesOk(o.caches)
    ensures Grows(c, o.caches)
    decreases fuel, 0
  {
    if fuel == 0 then Out(c, Fail(OutOfFuel))
    else
      var props := AdditionalProperties(env, c, fuel - 1, a.Props());
      match props.result
      case Fail(e) => Out(props.caches, Fail(e))
      case Ok(ap) =>
        Finished(AddCommonAttrs(env, props.caches, fuel - 1, SetObjectAnnoAttrs(sch, a, ap), a, name))
  }

  /** The id, property-count bounds and additionalProperties an object annotation sets. */
  function SetObjectAnnoAttrs(sch: Schema, a: SchemaAnno, ap: Option<BoolOrSchema>): (r: Schema)
    requires sch.IsObject()
    ensures r.IsObject() && r.core == sch.core.(id := r.core.id)
    ensures r.core.id == (if a.Text(Id) != "" then a.Text(Id) else sch.core.id)
    ensures r.kind.maxProperties == (if a.Int(MaxProperties) > 0 then a.Int(MaxProperties) else sch.kind.maxProperties)
    ensures r.kind.minProperties == (if a.Int(MinProperties) > -1 then a.Int(MinProperties) else sch.kind.minProperties)
    ensures r.kind.additionalProperties == (if ap.Some? then ap else sch.kind.additionalProperties)
    ensures r.kind.properties == sch.kind.properties && r.kind.required == sch.kind.required
    ensures r.kind.goPath == sch.kind.goPath && r.kind.suppressXAttrs == sch.kind.suppressXAttrs
  {
    var k := sch.kind;
    var kind := k.(maxProperties := if a.Int(MaxProperties) > 0 then a.Int(MaxProperties) else k.maxProperties,
                   minProperties := if a.Int(MinProperties) > -1 then a.Int(MinProperties) else k.minProperties,
                   additionalProperties := if ap.Some? then ap else k.additionalProperties);
    Node(sch.core.(id := if a.Text(Id) != "" then a.Text(Id) else sch.core.id), kind)
  }

  /** The additionalProperties an annotation asks for: its boolean, or (through
      NewBoolOrSchema) the schema of its type path; a path that resolves to no schema gives
      {false, nil}.  None when the annotation has no additionalProperties. */
  function AdditionalProperties(env: Env, c: Caches, fuel: nat, props: Option<BoolOrPath>): (o: Out<Option<BoolOrSchema>>)
    ensures props.None? ==> o == Out(c, Ok(None))
    ensures props.Some? && props.value.isBool ==> o == Out(c, Ok(Some(NewBoolOrSchema(DynBool(props.value.boolean)))))
    ensures props.Some? && o.result.Ok? ==> o.result.value.Some?
    ensures props.Some? && !props.value.isBool && o.result.Ok? ==> !o.result.value.value.boolean
    ensures CachesOk(c) ==> CachesOk(o.caches)
    ensures Grows(c, o.caches)
    decreases fuel, 0
  {
    if props.None? then Out(c, Ok(None))
    else if props.value.isBool then Out(c, Ok(Some(NewBoolOrSchema(DynBool(props.value.boolean)))))
    else if fuel == 0 then Out(c, Fail(OutOfFuel))
    else
      var item := GenFromTypePath(env, c, fuel - 1, props.value.path);
      match item.result
      case Fail(e) => Out(item.caches, Fail(e))
      case Ok(None) => Out(item.caches, Ok(Some(NewBoolOrSchema(DynOther))))
      case Ok(Some(s)) => Out(item.caches, Ok(Some(NewBoolOrSchema(DynSchema(s)))))
  }

  /** addCommonAttrsForField: the common attributes of a named field's annotation. */
  function AddCommonAttrsForField(env: Env, c: Caches, fuel: nat, s: Schema, f: Field): (o: Overlay)
    requires s.Node?
    ensures o.schema.Node? && o.schema.kind == s.kind
    ensures fuel > 0 && (FieldAnno(env.ext, f) == Ok(None) || |f.names| == 0) ==> o.schema == s
    ensures CachesOk(c) ==> CachesOk(o.caches)
    ensures Grows(c, o.caches)
    decreases fuel, 0
  {
    if fuel == 0 then Overlay(c, s, Some(OutOfFuel))
    else if |f.names| == 0 then Overlay(c, s, Some(Panic("index out of range")))
    else
      match FieldAnno(env.ext, f)
      case Fail(e) => Overlay(c, s, Some(e))
      case Ok(None) => Overlay(c, s, None)
      case Ok(Some(a)) => AddCommonAttrs(env, c, fuel - 1, s, a, f.names[0])
  }

  /** addCommonAttrsForDecl: the common attributes of a declaration's annotation. */
  function AddCommonAttrsForDecl(env: Env, c: Caches, fuel: nat, s: Schema, decl: Decl): (o: Overlay)
    requires s.Node?
    ensures o.schema.Node? && o.schema.kind == s.kind
    ensures fuel > 0 && DeclAnno(env.ext, decl.info) == Ok(None) ==> o == Overlay(c, s, None)
    ensures fuel > 0 && DeclAnno(env.ext, decl.info).Fail? ==> o == Overlay(c, s, Some(DeclAnno(env.ext, decl.info).failure))
    ensures CachesOk(c) ==> CachesOk(o.caches)
    ensures Grows(c, o.caches)
    decreases fuel, 0
  {
    if fuel == 0 then Overlay(c, s, Some(OutOfFuel))
    else
      match DeclAnno(env.ext, decl.info)
      case Fail(e) => Overlay(c, s, Some(e))
      case Ok(None) => Overlay(c, s, None)
      case Ok(Some(a)) => AddCommonAttrs(env, c, fuel - 1, s, a, decl.info.spec.name)
  }

  /** The default, title and description of annotation `a` over those of `core`, each
      where the annotation gives a non-empty one. */
  function CommonText(core: Core, a: SchemaAnno): Core {
    core.(defaultValue := if a.Text(Default) != "" then a.Text(Default) else core.defaultValue,
          title := if a.Text(Title) != "" then a.Text(Title) else core.title,
          description := if a.Text(Description) != "" then a.Text(Description) else core.description)
  }

  /** addCommonAttrs: default, title and description when non-empty, then the allOf, anyOf
      and oneOf targets (when any are named) and the `not` target, each list resolved in
      annotation order.  The first target that fails stops the overlay with an error naming
      the keyword and the annotated name; the keywords set before it stay set. */
  function AddCommonAttrs(env: Env, c: Caches, fuel: nat, s: Schema, a: SchemaAnno, name: string): (o: Overlay)
    requires s.Node?
    ensures o.schema.Node? && o.schema.kind == s.kind && SameIdentity(o.schema.core, s.core)
    ensures fuel > 0 ==> o.schema.core.defaultValue == (if a.Text(Default) != "" then a.Text(Default) else s.core.defaultValue)
    ensures fuel > 0 ==> o.schema.core.title == (if a.Text(Title) != "" then a.Text(Title) else s.core.title)
    ensures fuel > 0 ==> o.schema.core.description == (if a.Text(Description) != "" then a.Text(Description) else s.core.description)
    ensures o.failure.None? ==> forall slot :: Composed(a, s.core, o.schema.core, slot)
    ensures CachesOk(c) ==> CachesOk(o.caches)
    ensures Grows(c, o.caches)
    decreases fuel, 0
  {
    if fuel == 0 then Overlay(c, s, Some(OutOfFuel))
    else
      var s1 := Node(CommonText(s.core, a), s.kind);
      assert forall slot :: SlotItems(s1.core, slot) == SlotItems(s.core, slot);
      ComposeFrom(env, c, fuel - 1, s1, a, name, AllOfSlot)
  }

  /** The composition keywords from `slot` on, in order, stopping at the first failure. */
  function ComposeFrom(env: Env, c: Caches, fuel: nat, s: Schema, a: SchemaAnno, name: string, slot: Slot): (o: Overlay)
    requires s.Node?
    ensures o.schema.Node? && o.schema.kind == s.kind && OnlyComposition(o.schema.core, s.core)
    ensures forall sl :: SlotIndex(sl) < SlotIndex(slot) ==> SlotItems(o.schema.core, sl) == SlotItems(s.core, sl)
    ensures o.failure.None? ==> forall sl :: SlotIndex(sl) >= SlotIndex(slot) ==> Composed(a, s.core, o.schema.core, sl)
    ensures CachesOk(c) ==> CachesOk(o.caches)
    ensures Grows(c, o.caches)
    decreases fuel, 4 - SlotIndex(slot)
  {
    var o1 := Compose(env, c, fuel, s, a, name, slot);
    if o1.failure.Some? || slot == NotSlot then o1
    else
      var o2 := ComposeFrom(env, o1.caches, fuel, o1.schema, a, name, NextSlot(slot));
      assert forall sl :: SlotIndex(sl) >= SlotIndex(slot) ==> sl == slot || SlotIndex(sl) >= SlotIndex(NextSlot(slot));
      o2
  }

  /** One composition keyword of addCommonAttrs: nothing when no path is named, otherwise
      the schemas of the type paths, or the error wrapped with the keyword and the name. */
  function Compose(env: Env, c: Caches, fuel: nat, s: Schema, a: SchemaAnno, name: string, slot: Slot): (o: Overlay)
    requires s.Node?
    ensures o.schema.Node? && o.schema.kind == s.kind && OnlyComposition(o.schema.core, s.core)
    ensures forall other :: other != slot ==> SlotItems(o.schema.core, other) == SlotItems(s.core, other)
    ensures |SlotPaths(a, slot)| == 0 ==> o == Overlay(c, s, None)
    ensures o.failure.Some? ==> o.schema == s
    ensures o.failure.None? ==> Composed(a, s.core, o.schema.core, slot)
    ensures CachesOk(c) ==> CachesOk(o.caches)
    ensures Grows(c, o.caches)
    decreases fuel, 0
  {
    var paths := SlotPaths(a, slot);
    if |paths| == 0 then Overlay(c, s, None)
    else if fuel == 0 then Overlay(c, s, Some(OutOfFuel))
    else
      var ps := GenFromTypePaths(env, c, fuel - 1, paths, 0, []);
      match ps.result
      case Fail(e) => Overlay(ps.caches, s, Some(SettingFailure(SlotName(slot), name, e)))
      case Ok(items) => Overlay(ps.caches, SetSlot(s, slot, items), None)
  }

  /** generateSchemasFromTypePaths, from path `i` on, after the schemas `acc`: the path loop
      with each path looked up by generateSchemaFromTypePath. */
  function GenFromTypePaths(env: Env, c: Caches, fuel: nat, paths: seq<string>, i: nat, acc: seq<Schema>): (o: Out<seq<Schema>>)
    requires i <= |paths|
    requires forall j :: 0 <= j < |acc| ==> !acc[j].Nil?
    ensures o.result.Ok? ==> |o.result.value| == |acc| + |paths| - i && acc <= o.result.value
    ensures o.result.Ok? ==> forall j :: 0 <= j < |o.result.value| ==> !o.result.value[j].Nil?
    ensures CachesOk(c) ==> CachesOk(o.caches)
    ensures Grows(c, o.caches)
    decreases fuel, 2
  {
    if i == |paths| then Out(c, Ok(acc))
    else if fuel == 0 then Out(c, Fail(OutOfFuel))
    else
      assert GoodStep(PathStep(env, fuel - 1));
      PathLoop(PathStep(env, fuel - 1), c, paths, i, acc)
  }

  /** Looking up one type path with `fuel`, as the path loop does. */
  function PathStep(env: Env, fuel: nat): (Caches, string) -> Out<Option<Schema>>
    decreases fuel, 1
  {
    (c: Caches, path: string) => GenFromTypePath(env, c, fuel, path)
  }

  /** generateSchemaFromTypePath: an identifier names a built-in type (any other identifier
      gives no schema); a package type path names a declaration in a loaded package (an
      unloaded package gives no schema, a missing declaration an error). */
  function GenFromTypePath(env: Env, c: Caches, fuel: nat, path: string): (o: Out<Option<Schema>>)
    ensures o.result.Ok? && o.result.value.Some? ==> !o.result.value.value.Nil?
    ensures fuel > 0 && IsIdent(path) && BuiltinJsonType(path).None? ==> o == Out(c, Ok(None))
    ensures fuel > 0 && IsIdent(path) && BuiltinJsonType(path).Some? ==>
      o.caches == c && o.result.Ok? && o.result.value.Some? && o.result.value.value.core.jsonType == BuiltinJsonType(path).value
    ensures fuel > 0 && !IsIdent(path) && SplitPackageTypePath(path).0 !in env.prog.packages ==> o == Out(c, Ok(None))
    ensures CachesOk(c) ==> CachesOk(o.caches)
    ensures Grows(c, o.caches)
    decreases fuel, 0
  {
    if fuel == 0 then Out(c, Fail(OutOfFuel))
    else if IsIdent(path) then
      match GenBuiltIn(env, path, None)
      case Fail(e) => Out(c, Fail(e))
      case Ok(s) => Out(c, Ok(s))
    else
      var (pkgPath, typeName) := SplitPackageTypePath(path);
      if pkgPath !in env.prog.packages then Out(c, Ok(None))
      else
        match FindDecl(env, env.prog.packages[pkgPath], None, typeName)
        case Fail(e) => Out(c, Fail(e))
        case Ok(d) =>
          var g := GenExpr(env, c, fuel - 1, d, d.info.spec.typ, None);
          Out(g.caches, if g.result.Ok? then Ok(Some(g.result.value)) else Fail(g.result.failure))
  }

  // ----- what composition resolves -----

  /** `v` is what `path` resolves to, with `fuel`, from caches `c'` grown from `c`. */
  predicate ResolvedAt(env: Env, c: Caches, c': Caches, fuel: nat, path: string, v: Schema) {
    Grows(c, c') && GenFromTypePath(env, c', fuel, path).result == Ok(Some(v))
  }

  /** The caches the composition, started at keyword `slot` from `c`, holds when it
      reaches keyword `sl`. */
  ghost function SlotCaches(env: Env, c: Caches, fuel: nat, s: Schema, a: SchemaAnno, name: string, slot: Slot, sl: Slot): Caches
    requires s.Node? && SlotIndex(sl) >= SlotIndex(slot)
    decreases 4 - SlotIndex(slot)
  {
    if sl == slot then c
    else
      var o1 := Compose(env, c, fuel, s, a, name, slot);
      SlotCaches(env, o1.caches, fuel, o1.schema, a, name, NextSlot(slot), sl)
  }

  /** generateSchemasFromTypePaths over a list of paths is the path loop run with
      generateSchemaFromTypePath. */
  lemma PathsLoop(env: Env, c: Caches, fuel: nat, paths: seq<string>)
    requires |paths| > 0
    ensures fuel == 0 ==> GenFromTypePaths(env, c, fuel, paths, 0, []) == Out(c, Fail(OutOfFuel))
    ensures fuel > 0 ==> GenFromTypePaths(env, c, fuel, paths, 0, []) == PathLoop(PathStep(env, fuel - 1), c, paths, 0, [])
    ensures fuel > 0 ==> GoodStep(PathStep(env, fuel - 1))
  {
  }

  /** The path loop run over a whole list of paths: schema `j` is what path `j` resolves to
      from the caches the loop holds there. */
  lemma PathsItemAt(env: Env, c: Caches, fuel: nat, paths: seq<string>, items: seq<Schema>, j: int)
    requires GenFromTypePaths(env, c, fuel, paths, 0, []).result == Ok(items) && 0 <= j < |paths|
    ensures fuel > 0 && j < |items|
    ensures ResolvedAt(env, c, LoopCaches(PathStep(env, fuel - 1), c, paths, 0, j), fuel - 1, paths[j], items[j])
  {
    PathsLoop(env, c, fuel, paths);
    var none: seq<Schema> := [];
    LoopItem(PathStep(env, fuel - 1), c, paths, 0, none, items, j, j);
    LoopCachesGrow(PathStep(env, fuel - 1), c, paths, 0, j);
  }

  /** A failed path loop over a whole list of paths reports, wrapped as "unable to generate
      schema for path '<path>': ...", the error of the first path `j` that yielded no schema
      (or "%!s(<nil>)" when its lookup gave no schema and no error); every path before it
      resolved. */
  lemma PathsFailure(env: Env, c: Caches, fuel: nat, paths: seq<string>, f: Failure) returns (j: int)
    requires fuel > 0 && GenFromTypePaths(env, c, fuel, paths, 0, []).result == Fail(f)
    ensures 0 <= j < |paths| && Grows(c, LoopCaches(PathStep(env, fuel - 1), c, paths, 0, j))
    ensures f == PathFailure(paths[j], PathError(GenFromTypePath(env, LoopCaches(PathStep(env, fuel - 1), c, paths, 0, j), fuel - 1, paths[j]).result))
    ensures forall m :: 0 <= m < j ==> GenFromTypePath(env, LoopCaches(PathStep(env, fuel - 1), c, paths, 0, m), fuel - 1, paths[m]).result.Ok?
  {
    PathsLoop(env, c, fuel, paths);
    var none: seq<Schema> := [];
    j := LoopFailure(PathStep(env, fuel - 1), c, paths, 0, none, f);
    LoopCachesGrow(PathStep(env, fuel - 1), c, paths, 0, j);
  }

  /** A composed keyword holds the schemas the path loop gives for its paths. */
  lemma ComposeItems(env: Env, c: Caches, fuel: nat, s: Schema, a: SchemaAnno, name: string, slot: Slot)
    requires s.Node? && Compose(env, c, fuel, s, a, name, slot).failure.None? && |SlotPaths(a, slot)| > 0
    ensures fuel > 0
    ensures GenFromTypePaths(env, c, fuel - 1, SlotPaths(a, slot), 0, []).result == Ok(SlotItems(Compose(env, c, fuel, s, a, name, slot).schema.core, slot))
  {
    var items := GenFromTypePaths(env, c, fuel - 1, SlotPaths(a, slot), 0, []).result.value;
    assert Compose(env, c, fuel, s, a, name, slot).schema == SetSlot(s, slot, items);
  }

  /** A path loop's schema for an identifier path is the built-in type's node. */
  lemma PathsIdentItem(env: Env, c: Caches, fuel: nat, paths: seq<string>, items: seq<Schema>, j: int)
    requires GenFromTypePaths(env, c, fuel, paths, 0, []).result == Ok(items) && 0 <= j < |paths| && IsIdent(paths[j])
    ensures j < |items| && BuiltinJsonType(paths[j]).Some? && items[j] == GenBuiltIn(env, paths[j], None).value.value
  {
    PathsItemAt(env, c, fuel, paths, items, j);
  }

  /** Keyword `sl`, composed at or after `slot`, holds the schemas the path loop gives for
      its paths from the caches the composition holds when it reaches the keyword. */
  lemma {:induction false} ComposeFromItems(env: Env, c: Caches, fuel: nat, s: Schema, a: SchemaAnno, name: string, slot: Slot, sl: Slot)
    requires s.Node? && ComposeFrom(env, c, fuel, s, a, name, slot).failure.None?
    requires SlotIndex(sl) >= SlotIndex(slot) && |SlotPaths(a, sl)| > 0
    ensures fuel > 0 && Grows(c, SlotCaches(env, c, fuel, s, a, name, slot, sl))
    ensures GenFromTypePaths(env, SlotCaches(env, c, fuel, s, a, name, slot, sl), fuel - 1, SlotPaths(a, sl), 0, []).result
            == Ok(SlotItems(ComposeFrom(env, c, fuel, s, a, name, slot).schema.core, sl))
    decreases 4 - SlotIndex(slot)
  {
    var o1 := Compose(env, c, fuel, s, a, name, slot);
    if sl == slot {
      ComposeItems(env, c, fuel, s, a, name, slot);
      if slot != NotSlot {
        var o2 := ComposeFrom(env, o1.caches, fuel, o1.schema, a, name, NextSlot(slot));
        assert SlotItems(o2.schema.core, sl) == SlotItems(o1.schema.core, sl);
      }
    } else {
      ComposeFromItems(env, o1.caches, fuel, o1.schema, a, name, NextSlot(slot), sl);
    }
  }

  /** The caches addCommonAttrs holds when it reaches keyword `slot`. */
  ghost function AttrsCaches(env: Env, c: Caches, fuel: nat, s: Schema, a: SchemaAnno, name: string, slot: Slot): Caches
    requires s.Node?
  {
    if fuel == 0 then c
    else SlotCaches(env, c, fuel - 1, Node(CommonText(s.core, a), s.kind), a, name, AllOfSlot, slot)
  }

  /** addCommonAttrs: each of allOf, anyOf, oneOf and not that names paths holds the schemas
      the path loop gives for exactly those paths, in order, run from caches grown from the
      starting ones (what item `j` is follows from PathsItemAt and PathsIdentItem). */
  lemma AddCommonAttrsItems(env: Env, c: Caches, fuel: nat, s: Schema, a: SchemaAnno, name: string, slot: Slot)
    requires s.Node? && AddCommonAttrs(env, c, fuel, s, a, name).failure.None? && |SlotPaths(a, slot)| > 0
    ensures fuel > 1 && Grows(c, AttrsCaches(env, c, fuel, s, a, name, slot))
    ensures GenFromTypePaths(env, AttrsCaches(env, c, fuel, s, a, name, slot), fuel - 1 - 1, SlotPaths(a, slot), 0, []).result
            == Ok(SlotItems(AddCommonAttrs(env, c, fuel, s, a, name).schema.core, slot))
  {
    ComposeFromItems(env, c, fuel - 1, Node(CommonText(s.core, a), s.kind), a, name, AllOfSlot, slot);
  }

  /** A failed keyword reports the failure of its path loop, wrapped as "error setting
      '<keyword>' for <name>: ...". */
  lemma ComposeFailure(env: Env, c: Caches, fuel: nat, s: Schema, a: SchemaAnno, name: string, slot: Slot)
    requires s.Node?
    ensures Compose(env, c, fuel, s, a, name, slot).failure.Some? && !Compose(env, c, fuel, s, a, name, slot).failure.value.Aborts() ==>
              && fuel > 0 && |SlotPaths(a, slot)| > 0
              && GenFromTypePaths(env, c, fuel - 1, SlotPaths(a, slot), 0, []).result.Fail?
              && Compose(env, c, fuel, s, a, name, slot).failure.value
                 == SettingFailure(SlotName(slot), name, GenFromTypePaths(env, c, fuel - 1, SlotPaths(a, slot), 0, []).result.failure)
  {
  }

  /** A failed composition from `slot` on reports the failure of the path loop of a keyword
      `sl` at or after `slot`, run from the caches the composition holds when it reaches
      that keyword, wrapped with the keyword and the name. */
  lemma {:induction false} ComposeFromFailure(env: Env, c: Caches, fuel: nat, s: Schema, a: SchemaAnno, name: string, slot: Slot)
    returns (sl: Slot)
    requires s.Node?
    ensures ComposeFrom(env, c, fuel, s, a, name, slot).failure.Some? && !ComposeFrom(env, c, fuel, s, a, name, slot).failure.value.Aborts() ==>
              && SlotIndex(sl) >= SlotIndex(slot) && fuel > 0 && |SlotPaths(a, sl)| > 0
              && GenFromTypePaths(env, SlotCaches(env, c, fuel, s, a, name, slot, sl), fuel - 1, SlotPaths(a, sl), 0, []).result.Fail?
              && ComposeFrom(env, c, fuel, s, a, name, slot).failure.value
                 == SettingFailure(SlotName(sl), name, GenFromTypePaths(env, SlotCaches(env, c, fuel, s, a, name, slot, sl), fuel - 1, SlotPaths(a, sl), 0, []).result.failure)
    decreases 4 - SlotIndex(slot)
  {
    var o1 := Compose(env, c, fuel, s, a, name, slot);
    ComposeFailure(env, c, fuel, s, a, name, slot);
    sl := slot;
    if o1.failure.None? && slot != NotSlot {
      sl := ComposeFromFailure(env, o1.caches, fuel, o1.schema, a, name, NextSlot(slot));
    }
  }

  /** addCommonAttrs: an error is the failure of the path loop of one composition keyword
      `slot`, run from the caches it holds there, wrapped as "error setting '<keyword>' for
      <name>: ..." (what that failure is follows from PathsFailure). */
  lemma AddCommonAttrsFailure(env: Env, c: Caches, fuel: nat, s: Schema, a: SchemaAnno, name: string) returns (slot: Slot)
    requires s.Node?
    ensures AddCommonAttrs(env, c, fuel, s, a, name).failure.Some? && !AddCommonAttrs(env, c, fuel, s, a, name).failure.value.Aborts() ==>
              && fuel > 1 && |SlotPaths(a, slot)| > 0
              && GenFromTypePaths(env, AttrsCaches(env, c, fuel, s, a, name, slot), fuel - 1 - 1, SlotPaths(a, slot), 0, []).result.Fail?
              && AddCommonAttrs(env, c, fuel, s, a, name).failure.value
                 == SettingFailure(SlotName(slot), name, GenFromTypePaths(env, AttrsCaches(env, c, fuel, s, a, name, slot), fuel - 1 - 1, SlotPaths(a, slot), 0, []).result.failure)
  {
    slot := AllOfSlot;
    if fuel > 0 {
      slot := ComposeFromFailure(env, c, fuel - 1, Node(CommonText(s.core, a), s.kind), a, name, AllOfSlot);
    }
  }

  /** A package type path in a loaded package: the declaration lookup's error, or the node
      generated for the declaration's type with no field. */
  lemma TypePathDecl(env: Env, c: Caches, fuel: nat, path: string)
    requires fuel > 0 && !IsIdent(path) && SplitPackageTypePath(path).0 in env.prog.packages
    ensures FindDecl(env, env.prog.packages[SplitPackageTypePath(path).0], None, SplitPackageTypePath(path).1).Fail? ==>
              GenFromTypePath(env, c, fuel, path)
              == Out(c, Fail(FindDecl(env, env.prog.packages[SplitPackageTypePath(path).0], None, SplitPackageTypePath(path).1).failure))
    ensures FindDecl(env, env.prog.packages[SplitPackageTypePath(path).0], None, SplitPackageTypePath(path).1).Ok? ==>
              var d := FindDecl(env, env.prog.packages[SplitPackageTypePath(path).0], None, SplitPackageTypePath(path).1).value;
              var g := GenExpr(env, c, fuel - 1, d, d.info.spec.typ, None);
              && GenFromTypePath(env, c, fuel, path).caches == g.caches
              && (GenFromTypePath(env, c, fuel, path).result.Ok? <==> g.result.Ok?)
              && (g.result.Ok? ==> GenFromTypePath(env, c, fuel, path).result.value == Some(g.result.value))
  {
  }
}

=== FILE: gostrconv.dfy ===
/** strconv.ParseBool and strconv.ParseInt(s, 10, 64), the two parsers the annotation
    validator applies to attribute values, and the decimal printing they invert. */
module GoStrconv {
  import opened Results

  const Int64Min: int := -0x8000_0000_0000_0000
  const Int64Max: int := 0x7FFF_FFFF_FFFF_FFFF

  predicate IsInt64(n: int) {
    Int64Min <= n <= Int64Max
  }

  /** strconv.ParseBool: the twelve spellings Go accepts. */
  function ParseBool(s: string): (r: Option<bool>)
    ensures r == Some(true) <==> s in {"1", "t", "T", "TRUE", "true", "True"}
    ensures r == Some(false) <==> s in {"0", "f", "F", "FALSE", "false", "False"}
  {
    match s
    case "1" => Some(true)
    case "t" => Some(true)
    case "T" => Some(true)
    case "TRUE" => Some(true)
    case "true" => Some(true)
    case "True" => Some(true)
    case "0" => Some(false)
    case "f" => Some(false)
    case "F" => Some(false)
    case "FALSE" => Some(false)
    case "false" => Some(false)
    case "False" => Some(false)
    case _ => None
  }

  predicate IsDecimalDigit(c: char) {
    '0' <= c <= '9'
  }

  predicate AllDigits(s: string) {
    forall i :: 0 <= i < |s| ==> IsDecimalDigit(s[i])
  }

  /** The number a string of decimal digits denotes. */
  function DigitsValue(s: string): nat
    requires AllDigits(s)
  {
    if |s| == 0 then 0 else DigitsValue(s[..|s| - 1]) * 10 + (s[|s| - 1] as int - '0' as int)
  }

  const Uint64Max: int := 0xFFFF_FFFF_FFFF_FFFF

  /** The two reasons strconv reports in a NumError. */
  datatype NumError = ErrSyntax | ErrRange

  /** What a strconv parser returns: the number, or the reason it was refused. */
  datatype NumParse<+T> = Num(value: T) | NumFail(err: NumError)

  /** The text after an optional leading sign. */
  function Unsigned(s: string): (u: string)
    ensures u == s || (|s| > 0 && s[0] in "+-" && u == s[1..])
  {
    if |s| > 0 && (s[0] == '+' || s[0] == '-') then s[1..] else s
  }

  /** The longest prefix of decimal digits. */
  function DigitRun(s: string): (d: string)
    ensures d <= s && AllDigits(d)
    ensures |d| == |s| || !IsDecimalDigit(s[|d|])
  {
    if |s| == 0 || !IsDecimalDigit(s[0]) then [] else [s[0]] + DigitRun(s[1..])
  }

  /** The syntax strconv.ParseInt(s, 10, 64) accepts: an optional sign, then one or more
      decimal digits. */
  predicate IntSyntax(s: string) {
    |Unsigned(s)| > 0 && AllDigits(Unsigned(s))
  }

  /** The number a string in IntSyntax denotes. */
  function SignedValue(s: string): int
    requires IntSyntax(s)
  {
    var v: int := DigitsValue(Unsigned(s));
    if s[0] == '-' then -v else v
  }

  /** strconv.ParseInt(s, 10, 64).  The unsigned digits are read left to right and the
      read stops with a range error as soon as they exceed the unsigned 64-bit range, even
      when a rune that is not a digit follows; otherwise anything but IntSyntax is a syntax
      error, and a well-formed number outside the signed 64-bit range a range error. */
  function ParseInt64(s: string): (r: NumParse<int>)
    ensures r.Num? <==> IntSyntax(s) && IsInt64(SignedValue(s))
    ensures r.Num? ==> r.value == SignedValue(s)
    ensures IntSyntax(s) && r.NumFail? ==> r.err == ErrRange
    ensures !IntSyntax(s) ==> r.NumFail? && (r.err == ErrRange <==> DigitsValue(DigitRun(Unsigned(s))) > Uint64Max)
  {
    if |s| == 0 then NumFail(ErrSyntax)
    else
      var digits := Unsigned(s);
      assert AllDigits(digits) ==> DigitRun(digits) == digits by {
        if AllDigits(digits) { AllDigitsRun(digits); }
      }
      if DigitsValue(DigitRun(digits)) > Uint64Max then NumFail(ErrRange)
      else if |digits| == 0 || DigitRun(digits) != digits then NumFail(ErrSyntax)
      else
        var v: int := DigitsValue(digits);
        if s[0] == '-' then (if v <= -Int64Min then Num(-v) else NumFail(ErrRange))
        else (if v <= Int64Max then Num(v) else NumFail(ErrRange))
  }

  lemma {:induction false} AllDigitsRun(s: string)
    requires AllDigits(s)
    ensures DigitRun(s) == s
  {
    if |s| > 0 {
      AllDigitsRun(s[1..]);
    }
  }

  /** A leading zero does not change the number a run of digits denotes. */
  lemma {:induction false} LeadingZeroValue(d: string)
    requires AllDigits(d)
    ensures AllDigits("0" + d) && DigitsValue("0" + d) == DigitsValue(d)
    decreases |d|
  {
    if |d| > 0 {
      var z := "0" + d;
      assert z[..|z| - 1] == "0" + d[..|d| - 1];
      LeadingZeroValue(d[..|d| - 1]);
    }
  }

  /** Two well-formed numbers denoting the same value parse alike. */
  lemma SameValueSameParse(a: string, b: string)
    requires IntSyntax(a) && IntSyntax(b) && SignedValue(a) == SignedValue(b)
    ensures ParseInt64(a) == ParseInt64(b)
  {
  }

  /** ParseInt64 ignores a leading "+" and leading zeros: "+7" and "007" parse as 7. */
  lemma ParseIgnoresPlusAndZeros(d: string)
    requires |d| > 0 && AllDigits(d)
    ensures ParseInt64("+" + d) == ParseInt64(d)
    ensures ParseInt64("0" + d) == ParseInt64(d)
    ensures ParseInt64("-0" + d) == ParseInt64("-" + d)
  {
    LeadingZeroValue(d);
    assert Unsigned("+" + d) == d;
    assert Unsigned("-" + d) == d;
    assert Unsigned("-0" + d) == "0" + d;
    assert d[0] != '+' && d[0] != '-';
    assert Unsigned("0" + d) == "0" + d;
    SameValueSameParse("+" + d, d);
    SameValueSameParse("0" + d, d);
    SameValueSameParse("-0" + d, "-" + d);
  }

  const LowerHex: string := "0123456789abcdef"

  /** strconv.IsPrint on Latin-1; every rune above U+00FF counts as printable. */
  predicate IsPrint(c: char) {
    if c <= '\U{00FF}' then (' ' <= c <= '~') || ('\U{00A1}' <= c && c != '\U{00AD}') else true
  }

  /** The form one rune takes inside strconv.Quote's output. */
  function QuoteRune(c: char): (q: string)
    ensures c != '"' && c != '\\' && IsPrint(c) ==> q == [c]
    ensures !(c != '"' && c != '\\' && IsPrint(c)) ==> |q| >= 2 && q[0] == '\\'
  {
    if c == '"' || c == '\\' then ['\\', c]
    else if IsPrint(c) then [c]
    else if c == '\U{0007}' then "\\a"
    else if c == '\U{0008}' then "\\b"
    else if c == '\U{000C}' then "\\f"
    else if c == '\n' then "\\n"
    else if c == '\r' then "\\r"
    else if c == '\t' then "\\t"
    else if c == '\U{000B}' then "\\v"
    else if c < ' ' || c == '\U{007F}' then "\\x" + [LowerHex[c as int / 16], LowerHex[c as int % 16]]
    else "\\u00" + [LowerHex[c as int / 16], LowerHex[c as int % 16]]
  }

  function QuoteRunes(s: string): string {
    if |s| == 0 then [] else QuoteRune(s[0]) + QuoteRunes(s[1..])
  }

  /** strconv.Quote: `s` as a double-quoted Go string literal. */
  function Quote(s: string): (q: string)
    ensures |q| >= 2 && q[0] == '"' && q[|q| - 1] == '"'
  {
    "\"" + QuoteRunes(s) + "\""
  }

  /** A string of printable runes other than a quote or a backslash is quoted verbatim. */
  lemma {:induction false} QuotePlain(s: string)
    requires forall i :: 0 <= i < |s| ==> s[i] != '"' && s[i] != '\\' && IsPrint(s[i])
    ensures Quote(s) == "\"" + s + "\""
  {
    QuoteRunesPlain(s);
  }

  lemma {:induction false} QuoteRunesPlain(s: string)
    requires forall i :: 0 <= i < |s| ==> s[i] != '"' && s[i] != '\\' && IsPrint(s[i])
    ensures QuoteRunes(s) == s
    decreases |s|
  {
    if |s| > 0 {
      QuoteRunesPlain(s[1..]);
      assert s == [s[0]] + s[1..];
    }
  }

  /** NumError.Error(): the message of a failed strconv parse. */
  function NumErrorText(fn: string, s: string, e: NumError): (m: string)
    ensures "strconv." + fn + ": parsing " + Quote(s) + ": " <= m
    ensures e == ErrSyntax ==> HasTail(m, "invalid syntax")
    ensures e == ErrRange ==> HasTail(m, "value out of range")
  {
    "strconv." + fn + ": parsing " + Quote(s) + ": " + (if e == ErrSyntax then "invalid syntax" else "value out of range")
  }

  predicate HasTail(s: string, t: string) {
    |t| <= |s| && s[|s| - |t|..] == t
  }

  /** strconv.FormatInt(n, 10) for a non-negative n. */
  function FormatNat(n: nat): (s: string)
    ensures |s| > 0 && AllDigits(s)
  {
    if n < 10 then [('0' as int + n) as char]
    else FormatNat(n / 10) + [('0' as int + n % 10) as char]
  }

  /** strconv.FormatInt(n, 10). */
  function FormatInt(n: int): string {
    if n < 0 then "-" + FormatNat(-n) else FormatNat(n)
  }

  lemma {:induction false} FormatNatValue(n: nat)
    ensures DigitsValue(FormatNat(n)) == n
  {
    if n >= 10 {
      var s := FormatNat(n);
      assert s[..|s| - 1] == FormatNat(n / 10);
      FormatNatValue(n / 10);
    }
  }

  /** FormatInt writes an optional minus sign and digits denoting the number. */
  lemma FormatIntSyntax(n: int)
    ensures IntSyntax(FormatInt(n)) && SignedValue(FormatInt(n)) == n
  {
    var d := FormatNat(if n < 0 then -n else n);
    FormatNatValue(if n < 0 then -n else n);
    assert IsDecimalDigit(d[0]);
    if n < 0 {
      assert FormatInt(n) == "-" + d;
      assert Unsigned("-" + d) == d;
    } else {
      assert FormatInt(n) == d;
      assert Unsigned(d) == d;
    }
  }

  /** ParseInt64 inverts FormatInt on the whole signed 64-bit range. */
  lemma ParseFormatRoundTrip(n: int)
    requires IsInt64(n)
    ensures ParseInt64(FormatInt(n)) == Num(n)
  {
    FormatIntSyntax(n);
  }
}

=== FILE: host.dfy ===
/** The generator's configuration and the collaborators the model does not define.

    `Foreign` gathers the functions the generator calls but whose code lies outside
    the modelled files: strconv.ParseFloat(s, 64), the `isSelfRef` test for allOf/anyOf/
    oneOf items, go/doc.Synopsis, and ensureProperTypeForInterfaceField (the message of
    the error it reports, or None when it accepts the schema).
 */
module Host {
  import opened Results
  import opened Decls
  import opened Schema
  import opened GoStrconv

  /** Options, without the log level and the test-file switch (they only affect logging
      and which files the package loader reads). */
  datatype Options = Options(
    specVersion: string,
    autoCreateDefs: bool,
    definitionPrefix: string,
    suppressXAttrs: bool)

  /** NewOptions: draft-04, definitions created automatically, no prefix, x-attributes kept. */
  function NewOptions(): (o: Options)
    ensures o.autoCreateDefs && !o.suppressXAttrs && o.definitionPrefix == ""
    ensures o.specVersion == "http://json-schema.org/draft-04/schema#"
  {
    Options(SpecVersionDraftV4, true, "", false)
  }

  datatype Foreign = Foreign(
    parseFloat: string -> NumParse<real>,
    isSelfRef: string -> bool,
    synopsis: string -> string,
    checkInterfaceField: (Schema, Option<Field>) -> Option<string>)

  /** Everything a generator run reads: its options, the loaded program, the collaborators. */
  datatype Env = Env(opts: Options, prog: Program, ext: Foreign)
}

=== FILE: json_keys.dfy ===
/** The JSON keys of a schema node's fields: the struct tags of package `schema`. */
module JsonKeys {
  import opened Results

  /** The JSON keys of a node's fields, in the order json.Marshal writes them (the
      embedded basic layer first, then the simple layer's format, then the kind's own). */
  datatype Key =
    | KSchema | KId | KRef | KType | KTitle | KDescription | KAllOf | KAnyOf | KOneOf | KNot
    | KDefinitions | KDefault | KFormat | KPattern | KMaxLength | KMinLength | KMaximum | KMinimum
    | KMultipleOf | KExclusiveMaximum | KExclusiveMinimum | KItems | KMaxItems | KMinItems
    | KAdditionalItems | KUniqueItems | KProperties | KRequired | KMaxProperties | KMinProperties
    | KAdditionalProperties | KGoPath

  /** The struct tag of each field. */
  function KeyName(k: Key): string {
    match k
    case KSchema => "$schema"
    case KId => "id"
    case KRef => "$ref"
    case KType => "type"
    case KTitle => "title"
    case KDescription => "description"
    case KAllOf => "allOf"
    case KAnyOf => "anyOf"
    case KOneOf => "oneOf"
    case KNot => "not"
    case KDefinitions => "definitions"
    case KDefault => "default"
    case KFormat => "format"
    case KPattern => "pattern"
    case KMaxLength => "maxLength"
    case KMinLength => "minLength"
    case KMaximum => "maximum"
    case KMinimum => "minimum"
    case KMultipleOf => "multipleOf"
    case KExclusiveMaximum => "exclusiveMaximum"
    case KExclusiveMinimum => "exclusiveMinimum"
    case KItems => "items"
    case KMaxItems => "maxItems"
    case KMinItems => "minItems"
    case KAdditionalItems => "additionalItems"
    case KUniqueItems => "uniqueItems"
    case KProperties => "properties"
    case KRequired => "required"
    case KMaxProperties => "maxProperties"
    case KMinProperties => "minProperties"
    case KAdditionalProperties => "additionalProperties"
    case KGoPath => "x-go-path"
  }

  /** The field a key names, if any. */
  function KeyOf(name: string): Option<Key> {
    if |name| == 2 then
      if name == "id" then Some(KId)
      else None
    else if |name| == 3 then
      if name == "not" then Some(KNot)
      else None
    else if |name| == 4 then
      if name == "$ref" then Some(KRef)
      else if name == "type" then Some(KType)
      else None
    else if |name| == 5 then
      if name == "title" then Some(KTitle)
      else if name == "allOf" then Some(KAllOf)
      else if name == "anyOf" then Some(KAnyOf)
      else if name == "oneOf" then Some(KOneOf)
      else if name == "items" then Some(KItems)
      else None
    else if |name| == 6 then
      if name == "format" then Some(KFormat)
      else None
    else if |name| == 7 then
      if name == "$schema" then Some(KSchema)
      else if name == "default" then Some(KDefault)
      else if name == "pattern" then Some(KPattern)
      else if name == "maximum" then Some(KMaximum)
      else if name == "minimum" then Some(KMinimum)
      else None
    else if |name| == 8 then
      if name == "maxItems" then Some(KMaxItems)
      else if name == "minItems" then Some(KMinItems)
      else if name == "required" then Some(KRequired)
      else None
    else if |name| == 9 then
      if name == "maxLength" then Some(KMaxLength)
      else if name == "minLength" then Some(KMinLength)
      else if name == "x-go-path" then Some(KGoPath)
      else None
    else if |name| == 10 then
      if name == "multipleOf" then Some(KMultipleOf)
      else if name == "properties" then Some(KProperties)
      else None
    else if |name| == 11 then
      if name == "description" then Some(KDescription)
      else if name == "definitions" then Some(KDefinitions)
      else if name == "uniqueItems" then Some(KUniqueItems)
      else None
    else if |name| == 13 then
      if name == "maxProperties" then Some(KMaxProperties)
      else if name == "minProperties" then Some(KMinProperties)
      else None
    else if |name| == 15 then
      if name == "additionalItems" then Some(KAdditionalItems)
      else None
    else if |name| == 16 then
      if name == "exclusiveMaximum" then Some(KExclusiveMaximum)
      else if name == "exclusiveMinimum" then Some(KExclusiveMinimum)
      else None
    else if |name| == 20 then
      if name == "additionalProperties" then Some(KAdditionalProperties)
      else None
    else None
  }

  lemma KeyOfName(k: Key)
    ensures KeyOf(KeyName(k)) == Some(k)
  {
  }

  /** No two fields share a tag. */
  lemma KeyNameInjective(a: Key, b: Key)
    ensures KeyName(a) == KeyName(b) ==> a == b
  {
    KeyOfName(a);
    KeyOfName(b);
  }

  const AllKeys: seq<Key> := [
    KSchema, KId, KRef, KType, KTitle, KDescription, KAllOf, KAnyOf, KOneOf, KNot,
    KDefinitions, KDefault, KFormat, KPattern, KMaxLength, KMinLength, KMaximum, KMinimum,
    KMultipleOf, KExclusiveMaximum, KExclusiveMinimum, KItems, KMaxItems, KMinItems,
    KAdditionalItems, KUniqueItems, KProperties, KRequired, KMaxProperties, KMinProperties,
    KAdditionalProperties, KGoPath]

  lemma AllKeysListed(k: Key)
    ensures k in AllKeys
  {
  }
}

=== FILE: results.dfy ===
/** Outcome types shared by every module of the model.

    The Go program reports ordinary problems as `error` values, and can also crash
    (a nil dereference, a failed type assertion, an index out of range).  The model
    keeps the two apart: `Error` is an error value a caller may inspect or ignore,
    `Panic` is a crash no caller survives, and `OutOfFuel` marks a run of the
    recursive generator that exceeded its recursion budget (the Go program would
    not terminate there).
 */
module Results {

  datatype Option<+T> = None | Some(value: T) {
    function GetOr(default: T): T {
      match this
      case Some(v) => v
      case None => default
    }
  }

  datatype Failure = Error(msg: string) | Panic(msg: string) | OutOfFuel {
    /** True for the failures that end the whole run: a crash or a diverging recursion. */
    predicate Aborts() {
      !Error?
    }
  }

  /** A failure-compatible result, usable with `:-`. */
  datatype Result<+T> = Ok(value: T) | Fail(failure: Failure) {
    predicate IsFailure() {
      Fail?
    }

    function PropagateFailure<U>(): Result<U>
      requires Fail?
    {
      Fail(failure)
    }

    function Extract(): T
      requires Ok?
    {
      value
    }

    /** True if this is an ordinary error value. */
    predicate IsError() {
      Fail? && failure.Error?
    }
  }
}

=== FILE: runes.dfy ===
/** Character classes of Go's `unicode` package, on runes.

    A Go string is a byte sequence that the program ranges over as runes; the model
    works on the decoded runes (`string` is `seq<char>`).  The classes below agree with
    Go's tables for every rune up to U+00FF (the Latin-1 block, which Go itself handles
    with a dedicated table); above U+00FF every rune is treated as neither letter, digit,
    upper-case letter nor space, and `ToTitle` leaves it unchanged.
 */
module Runes {

  /** The rune `utf8.DecodeRuneInString` reports for an empty string. */
  const RuneError: char := '\U{FFFD}'

  predicate IsAsciiLetter(c: char) {
    'a' <= c <= 'z' || 'A' <= c <= 'Z'
  }

  /** unicode.IsLetter, on Latin-1. */
  predicate IsLetter(c: char) {
    IsAsciiLetter(c) || c == '\U{00AA}' || c == '\U{00B5}' || c == '\U{00BA}'
    || ('\U{00C0}' <= c <= '\U{00FF}' && c != '\U{00D7}' && c != '\U{00F7}')
  }

  /** unicode.IsDigit, on Latin-1. */
  predicate IsDigit(c: char) {
    '0' <= c <= '9'
  }

  /** unicode.IsUpper, on Latin-1. */
  predicate IsUpper(c: char) {
    'A' <= c <= 'Z' || ('\U{00C0}' <= c <= '\U{00DE}' && c != '\U{00D7}')
  }

  /** unicode.IsSpace, on Latin-1. */
  predicate IsSpace(c: char) {
    c == ' ' || '\t' <= c <= '\r' || c == '\U{0085}' || c == '\U{00A0}'
  }

  /** unicode.ToTitle, on Latin-1 (for these runes title case is upper case). */
  function ToTitle(c: char): (t: char)
    ensures IsUpper(c) || !IsLetter(c) ==> t == c
    ensures 'a' <= c <= 'z' ==> 'A' <= t <= 'Z'
    ensures 'a' <= c <= 'z' || ('\U{00E0}' <= c <= '\U{00FE}' && c != '\U{00F7}') ==>
      IsUpper(t) && t as int == c as int - 32
    ensures c == '\U{00B5}' ==> t == '\U{039C}'
    ensures c == '\U{00FF}' ==> t == '\U{0178}'
    ensures c == '\U{00AA}' || c == '\U{00BA}' || c == '\U{00DF}' ==> t == c
  {
    if 'a' <= c <= 'z' then (c as int - 32) as char
    else if c == '\U{00B5}' then '\U{039C}'
    else if c == '\U{00FF}' then '\U{0178}'
    else if ('\U{00E0}' <= c <= '\U{00FE}' && c != '\U{00F7}') then (c as int - 32) as char
    else c
  }

  /** The first rune of `s`, as utf8.DecodeRuneInString reports it. */
  function FirstRune(s: string): (c: char)
    ensures |s| > 0 ==> c == s[0]
    ensures |s| == 0 ==> !IsUpper(c) && !IsLetter(c)
  {
    if |s| == 0 then RuneError else s[0]
  }

  /** The name is exported: its first rune is an upper-case letter. */
  predicate IsExported(name: string) {
    IsUpper(FirstRune(name))
  }
}

=== FILE: schema.dfy ===
/** The JSON-schema node types of package `schema`: a basic node (used for `$ref`
    nodes), simple (boolean), string, numeric, array and object schemas, each carrying
    the common draft-04 keywords in its `core`.

    `Nil` stands for Go's nil `JSONSchema` interface value.  A Go map field is an
    association list (see module Dict).  Go objects are mutable and shared by pointer;
    the model is a value, so `Clone` is the identity and a setter returns a new node.
 */
module Schema {
  import opened Results
  import opened Dict

  /** The keywords every node carries (Go's basicSchema). `defaultValue` is "" when Go's
      `DefaultValue interface{}` is nil; the generator only ever stores strings there. */
  datatype Core = Core(
    schemaUri: string,
    id: string,
    ref: string,
    jsonType: string,
    title: string,
    description: string,
    allOf: seq<Schema>,
    anyOf: seq<Schema>,
    oneOf: seq<Schema>,
    not: Schema,
    definitions: Dict<Schema>,
    defaultValue: string)

  datatype BoolOrSchema = BoolOrSchema(boolean: bool, schema: Schema)

  /** A schema node: Go's nil interface value, or a node whose kind-specific keywords sit
      next to the common ones (every Go schema type embeds basicSchema). */
  datatype Schema = Nil | Node(core: Core, kind: Kind)
  {
    /** The node carries a format (Go's SimpleSchema interface). */
    predicate HasFormat() {
      Node? && (kind.Simple? || kind.Str? || kind.Numeric?)
    }

    predicate IsStr() {
      Node? && kind.Str?
    }

    predicate IsNumeric() {
      Node? && kind.Numeric?
    }

    predicate IsArray() {
      Node? && kind.Array?
    }

    predicate IsObject() {
      Node? && kind.Object?
    }
  }

  /** The concrete schema types: basic (used for `$ref` nodes), simple (boolean), string,
      numeric, array and object. */
  datatype Kind =
    | Basic
    | Simple(format: string)
    | Str(format: string, pattern: string, maxLength: int, minLength: int)
    | Numeric(format: string, maximum: real, minimum: real, multipleOf: real,
              exclusiveMaximum: bool, exclusiveMinimum: bool)
    | Array(items: Schema, maxItems: int, minItems: int, additionalItems: bool, uniqueItems: bool)
    | Object(properties: Dict<Schema>, required: seq<string>, maxProperties: int,
             minProperties: int, additionalProperties: Option<BoolOrSchema>, goPath: string,
             suppressXAttrs: bool)

  /** The prefix of every reference into the root's definitions. */
  const DefinitionRoot: string := "#/definitions/"

  const SpecVersionDraftV4: string := "http://json-schema.org/draft-04/schema#"

  function EmptyCore(jsonType: string): Core {
    Core("", "", "", jsonType, "", "", [], [], [], Nil, [], "")
  }

  function NewBasicSchema(jsonType: string): Schema {
    Node(EmptyCore(jsonType), Basic)
  }

  function NewSimpleSchema(jsonType: string): Schema {
    Node(EmptyCore(jsonType), Simple(""))
  }

  function NewStringSchema(): Schema {
    Node(EmptyCore("string"), Str("", "", 0, 0))
  }

  function NewNumericSchema(jsonType: string): Schema {
    Node(EmptyCore(jsonType), Numeric("", 0.0, 0.0, 0.0, false, false))
  }

  function NewArraySchema(): Schema {
    Node(EmptyCore("array"), Array(Nil, 0, 0, false, false))
  }

  function NewObjectSchema(suppressXAttrs: bool): (s: Schema)
    ensures s.IsObject() && s.kind.suppressXAttrs == suppressXAttrs
  {
    Node(EmptyCore("object"), Object([], [], 0, 0, None, "", suppressXAttrs))
  }

  /** An object that admits any additional property. */
  function NewMapSchema(suppressXAttrs: bool): (s: Schema)
    ensures s.IsObject() && s.core.jsonType == "object" && s.kind.properties == [] && s.kind.required == []
    ensures s.kind.additionalProperties == Some(BoolOrSchema(true, Nil))
  {
    var o := NewObjectSchema(suppressXAttrs);
    Node(o.core, o.kind.(additionalProperties := Some(BoolOrSchema(true, Nil))))
  }

  /** The `interface{}` argument of NewBoolOrSchema: a schema, a bool, or anything else. */
  datatype Dynamic = DynSchema(s: Schema) | DynBool(b: bool) | DynOther

  /** NewBoolOrSchema: a non-nil schema is kept (with Boolean false), a bool is kept (with
      no schema), and anything else, a nil schema included, gives {false, nil}. */
  function NewBoolOrSchema(v: Dynamic): (r: BoolOrSchema)
    ensures r.schema != Nil ==> !r.boolean && v == DynSchema(r.schema)
    ensures r.boolean ==> v == DynBool(true)
    ensures v.DynBool? ==> r == BoolOrSchema(v.b, Nil)
  {
    match v
    case DynSchema(s) => BoolOrSchema(false, s)
    case DynBool(b) => BoolOrSchema(b, Nil)
    case DynOther => BoolOrSchema(false, Nil)
  }

  /** Clone: a field-equal copy.  A value has no identity to separate from. */
  function Clone(s: Schema): Schema {
    s
  }

  function WithCore(s: Schema, c: Core): Schema
    requires !s.Nil?
  {
    s.(core := c)
  }

  function SetSchemaUri(s: Schema, uri: string): Schema
    requires !s.Nil?
  {
    s.(core := s.core.(schemaUri := uri))
  }

  function SetId(s: Schema, id: string): Schema
    requires !s.Nil?
  {
    s.(core := s.core.(id := id))
  }

  function SetRef(s: Schema, ref: string): Schema
    requires !s.Nil?
  {
    s.(core := s.core.(ref := ref))
  }

  function SetTitle(s: Schema, title: string): Schema
    requires !s.Nil?
  {
    s.(core := s.core.(title := title))
  }

  function SetDescription(s: Schema, description: string): Schema
    requires !s.Nil?
  {
    s.(core := s.core.(description := description))
  }

  function SetDefault(s: Schema, d: string): Schema
    requires !s.Nil?
  {
    s.(core := s.core.(defaultValue := d))
  }

  function SetAllOf(s: Schema, items: seq<Schema>): Schema
    requires !s.Nil?
  {
    s.(core := s.core.(allOf := items))
  }

  function SetAnyOf(s: Schema, items: seq<Schema>): Schema
    requires !s.Nil?
  {
    s.(core := s.core.(anyOf := items))
  }

  function SetOneOf(s: Schema, items: seq<Schema>): Schema
    requires !s.Nil?
  {
    s.(core := s.core.(oneOf := items))
  }

  function SetNot(s: Schema, not: Schema): Schema
    requires !s.Nil?
  {
    s.(core := s.core.(not := not))
  }

  /** SetFormat: the format of a simple, string or numeric node. */
  function SetFormat(s: Schema, format: string): (r: Schema)
    requires s.HasFormat()
    ensures r.HasFormat() && r.kind.format == format && r.core == s.core
    ensures r.kind.(format := s.kind.format) == s.kind
  {
    match s.kind
    case Simple(_) => Node(s.core, Simple(format))
    case Str(_, p, mx, mn) => Node(s.core, Str(format, p, mx, mn))
    case Numeric(_, mx, mn, m, emx, emn) => Node(s.core, Numeric(format, mx, mn, m, emx, emn))
  }

  /** AddDefinition: bind `key` in the node's definitions. */
  function AddDefinition(s: Schema, key: string, def: Schema): (r: Schema)
    requires !s.Nil?
    ensures !r.Nil? && r.core.(definitions := s.core.definitions) == s.core
    ensures WithCore(r, s.core) == s
    ensures Get(r.core.definitions, key) == Some(def)
    ensures forall k :: k != key ==> Get(r.core.definitions, k) == Get(s.core.definitions, k)
  {
    s.(core := s.core.(definitions := Put(s.core.definitions, key, def)))
  }

  /** SetGoPath: records the Go path unless non-standard attributes are suppressed. */
  function SetGoPath(s: Schema, path: string): (r: Schema)
    requires s.IsObject()
    ensures r.IsObject() && r.core == s.core && r.kind.(goPath := s.kind.goPath) == s.kind
    ensures s.kind.suppressXAttrs ==> r.kind.goPath == ""
    ensures !s.kind.suppressXAttrs ==> r.kind.goPath == path
  {
    Node(s.core, s.kind.(goPath := if s.kind.suppressXAttrs then "" else path))
  }

  /** AddRequiredField: append a property name to `required`. */
  function AddRequiredField(s: Schema, name: string): (r: Schema)
    requires s.IsObject()
    ensures r.IsObject() && r.core == s.core && r.kind.(required := s.kind.required) == s.kind
    ensures |r.kind.required| == |s.kind.required| + 1
    ensures r.kind.required[..|s.kind.required|] == s.kind.required && r.kind.required[|s.kind.required|] == name
  {
    Node(s.core, s.kind.(required := s.kind.required + [name]))
  }

  /** A reference node: a basic node holding only `$ref`. */
  function RefNode(ref: string): (r: Schema)
    ensures r.Node? && r.kind.Basic? && r.core.ref == ref && r.core.jsonType == ""
    ensures r.core.definitions == [] && r.core.title == "" && r.core.description == ""
  {
    SetRef(NewBasicSchema(""), ref)
  }

  /** generateSelfRef: the node `{"$ref": "#"}`. */
  function SelfRef(): Schema {
    RefNode("#")
  }

  /** Setting a basic keyword changes that keyword and nothing else, and reading it back
      returns what was set. */
  lemma SetterLaws(s: Schema, t: string)
    requires !s.Nil?
    ensures SetTitle(s, t).core.title == t && WithCore(SetTitle(s, t), s.core) == s
    ensures SetTitle(s, t).core.(title := s.core.title) == s.core
    ensures SetDescription(s, t).core.description == t && SetDescription(s, t).core.(description := s.core.description) == s.core
    ensures SetRef(s, t).core.ref == t && SetRef(s, t).core.(ref := s.core.ref) == s.core
    ensures SetId(s, t).core.id == t && SetId(s, t).core.(id := s.core.id) == s.core
    ensures SetSchemaUri(s, t).core.schemaUri == t && WithCore(SetSchemaUri(s, t), s.core) == s
    ensures Clone(SetTitle(Clone(s), t)).core.title == t && Clone(s) == s
  {
  }
}

=== FILE: schema_attrs.dfy ===
/** The attribute overlay of package `generator`: definition keys, the ref-or-inline
    decision, titles and descriptions taken from doc comments and annotations, and the
    copying of annotation bounds onto string, numeric, array and object nodes.

    Everything here is free of the recursive schema generation; the members of
    schema_attrs.go that generate schemas for type paths (addObjectAttrsForDecl,
    addCommonAttrs and the type-path resolution) live in module Generator.
 */
module SchemaAttrs {
  import opened Results
  import opened Runes
  import opened Strs
  import opened Decls
  import opened TypeHelper
  import opened Schema
  import opened Host
  import opened Annotation

  /** A declaration as the generator carries it (Go's declInfo): where it was found and
      the definition key computed when it was found. */
  datatype Decl = Decl(info: DeclInfo, key: string)

  /** An annotation lookup whose error value the caller discards: an error reads as no
      annotation, a crash still ends the run. */
  function IgnoreError(r: Result<Option<SchemaAnno>>): (r': Result<Option<SchemaAnno>>)
    ensures r.Ok? ==> r' == r
    ensures r.IsError() ==> r' == Ok(None)
    ensures r'.Fail? ==> r == r' && r'.failure.Aborts()
  {
    if r.IsError() then Ok(None) else r
  }

  /** The annotation's value for a text attribute, "" without an annotation. */
  function AnnoText(a: Option<SchemaAnno>, key: AttrKey): string {
    if a.Some? then a.value.Text(key) else ""
  }

  // ----- definition keys -----

  const VendorDir: string := "/vendor/"

  /** The key before escaping: the prefix and the annotation's `definition`, or the prefix
      and the declaration's package path and name. */
  function RawDefinitionKey(opts: Options, info: DeclInfo, anno: Option<SchemaAnno>): string {
    if AnnoText(anno, Definition) != "" then opts.definitionPrefix + AnnoText(anno, Definition)
    else opts.definitionPrefix + info.pkg.path + "/" + info.spec.name
  }

  /** Everything up to and including the last "/vendor/" dropped. */
  function StripVendor(k: string): (r: string)
    ensures HasSuffix(k, r)
    ensures !Contains(r, VendorDir)
    ensures !Contains(k, VendorDir) ==> r == k
    ensures Contains(k, VendorDir) ==> OccursAt(k, VendorDir, |k| - |r| - |VendorDir|)
  {
    if Contains(k, VendorDir) then
      var i := LastIndexOf(k, VendorDir);
      var r := k[i + 8..];
      assert !Contains(r, VendorDir) by {
        forall j | 0 <= j <= |r| && OccursAt(r, VendorDir, j) ensures false {
          assert k[i + 8 + j..i + 8 + j + 8] == r[j..j + 8];
          assert OccursAt(k, VendorDir, i + 8 + j);
        }
      }
      r
    else k
  }

  /** The key escaped for use as a JSON Pointer token: '.' becomes '_' and '/' becomes '-'. */
  function EscapeKey(s: string): (r: string)
    ensures |r| == |s|
    ensures forall i :: 0 <= i < |s| ==> r[i] == (if s[i] == '.' then '_' else if s[i] == '/' then '-' else s[i])
  {
    ReplaceRuneIsMap(s, '.', '_');
    var t := ReplaceAll(s, ".", "_");
    ReplaceRuneIsMap(t, '/', '-');
    ReplaceAll(t, "/", "-")
  }

  /** getDefinitionKey.  The annotation's errors are ignored; its crash is not. */
  function DefinitionKey(env: Env, info: DeclInfo): (r: Result<string>)
    ensures r.Fail? <==> DeclAnno(env.ext, info).Fail? && DeclAnno(env.ext, info).failure.Aborts()
    ensures r.Ok? ==> '.' !in r.value && '/' !in r.value
    ensures r.Ok? ==> |r.value| <= |RawDefinitionKey(env.opts, info, IgnoreError(DeclAnno(env.ext, info)).value)|
    ensures r.Ok? && !Contains(RawDefinitionKey(env.opts, info, IgnoreError(DeclAnno(env.ext, info)).value), VendorDir)
            ==> |r.value| == |RawDefinitionKey(env.opts, info, IgnoreError(DeclAnno(env.ext, info)).value)|
  {
    var anno :- IgnoreError(DeclAnno(env.ext, info));
    Ok(EscapeKey(StripVendor(RawDefinitionKey(env.opts, info, anno))))
  }

  /** newDeclInfo: a declaration with its definition key. */
  function NewDecl(env: Env, info: DeclInfo): (r: Result<Decl>)
    ensures r.Ok? <==> DefinitionKey(env, info).Ok?
    ensures r.Ok? ==> r.value.info == info && r.value.key == DefinitionKey(env, info).value
  {
    var key :- DefinitionKey(env, info);
    Ok(Decl(info, key))
  }

  /** findDeclInfoForPackage followed by newDeclInfo. */
  function FindDecl(env: Env, pkg: Package, hint: Option<nat>, name: string): (r: Result<Decl>)
    ensures r.Ok? ==> r.value.info.spec.name == name && r.value.info.pkg == pkg && !r.value.info.isRoot
    ensures FindDeclInPackage(pkg, hint, name).Fail? ==> r.IsError()
  {
    var info :- FindDeclInPackage(pkg, hint, name);
    NewDecl(env, info)
  }

  // ----- the ref-or-inline decision -----

  /** shouldReturnRef: a named, exported, non-root type becomes a `$ref` to a definition
      when definitions are created automatically or its annotation names one. */
  function ShouldReturnRef(env: Env, d: Decl): (r: Result<bool>)
    ensures d.info.isRoot || !IsExported(d.info.spec.name) ==> r == Ok(false)
    ensures !d.info.isRoot && IsExported(d.info.spec.name) ==>
      (r.Fail? <==> DeclAnno(env.ext, d.info).Fail? && DeclAnno(env.ext, d.info).failure.Aborts())
    ensures r.Ok? && r.value <==>
      && !d.info.isRoot
      && IsExported(d.info.spec.name)
      && (DeclAnno(env.ext, d.info).Ok? || DeclAnno(env.ext, d.info).IsError())
      && (env.opts.autoCreateDefs || AnnoText(IgnoreError(DeclAnno(env.ext, d.info)).value, Definition) != "")
  {
    if d.info.isRoot then Ok(false)
    else if !IsUpper(FirstRune(d.info.spec.name)) then Ok(false)
    else
      var anno :- IgnoreError(DeclAnno(env.ext, d.info));
      Ok(env.opts.autoCreateDefs || (anno.Some? && anno.value.Text(Definition) != ""))
  }

  // ----- titles and descriptions -----

  /** The text has no words, or its first word is an identifier (the empty word counts as
      one). */
  predicate IdentLed(s: string) {
    IsIdent(FirstField(s))
  }

  /** A doc-derived text is dropped when its first word is not an identifier. */
  function KeepIfIdent(s: string): (r: string)
    ensures r == s || r == ""
    ensures r != "" ==> IdentLed(r)
    ensures IdentLed(s) ==> r == s
    ensures !IdentLed(s) ==> r == ""
  {
    if IdentLed(s) then s else ""
  }

  /** The synopsis of a comment and the text after it up to the first blank line.
      The program slices the comment after the synopsis, which crashes when the synopsis
      is longer than the comment less one. */
  function DocParts(ext: Foreign, text: string): (r: Result<(string, string)>)
    ensures r.Ok? <==> |ext.synopsis(text)| + 1 <= |text|
    ensures r.Fail? ==> r.failure.Panic?
    ensures r.Ok? ==> r.value.0 == ext.synopsis(text)
    ensures r.Ok? ==> HasPrefix(text[|r.value.0| + 1..], r.value.1) && !Contains(r.value.1, "\n\n")
  {
    var title := ext.synopsis(text);
    if |title| + 1 > |text| then Fail(Panic("slice bounds out of range"))
    else Ok((title, BeforeFirst(text[|title| + 1..], "\n\n")))
  }

  /** getTitleAndDescriptionForObject: the title and description of a declaration, from its
      doc comment, overridden by its annotation. */
  function ObjectTitleAndDescription(env: Env, decl: Option<Decl>): (r: Result<(string, string)>)
    ensures decl.None? ==> r == Ok(("", ""))
    ensures decl.Some? && r.Ok? ==> DeclAnno(env.ext, decl.value.info).Ok? || DeclAnno(env.ext, decl.value.info).IsError()
    ensures decl.Some? && r.Ok? && AnnoText(IgnoreError(DeclAnno(env.ext, decl.value.info)).value, Title) != ""
            ==> r.value.0 == AnnoText(IgnoreError(DeclAnno(env.ext, decl.value.info)).value, Title)
    ensures decl.Some? && r.Ok? && AnnoText(IgnoreError(DeclAnno(env.ext, decl.value.info)).value, Description) != ""
            ==> r.value.1 == AnnoText(IgnoreError(DeclAnno(env.ext, decl.value.info)).value, Description)
    ensures decl.Some? && r.Ok? && AnnoText(IgnoreError(DeclAnno(env.ext, decl.value.info)).value, Title) == ""
            ==> r.value.0 == "" || IdentLed(r.value.0)
    ensures decl.Some? && r.Ok? && DocText(DeclDoc(decl.value.info)) == "" ==>
      r.value == (AnnoText(IgnoreError(DeclAnno(env.ext, decl.value.info)).value, Title),
                  AnnoText(IgnoreError(DeclAnno(env.ext, decl.value.info)).value, Description))
    ensures decl.Some? && r.Ok? && DocText(DeclDoc(decl.value.info)) != ""
            && AnnoText(IgnoreError(DeclAnno(env.ext, decl.value.info)).value, Title) == "" ==>
      var t := DocText(DeclDoc(decl.value.info));
      var s := env.ext.synopsis(t);
      r.value.0 == (if IdentLed(s) then s else "")
    ensures decl.Some? && r.Ok? && DocText(DeclDoc(decl.value.info)) != ""
            && AnnoText(IgnoreError(DeclAnno(env.ext, decl.value.info)).value, Description) == "" ==>
      var t := DocText(DeclDoc(decl.value.info));
      var s := env.ext.synopsis(t);
      |s| + 1 <= |t| &&
      var d := BeforeFirst(t[|s| + 1..], "\n\n");
      r.value.1 == (if IdentLed(d) then d else "")
    ensures decl.Some? && IgnoreError(DeclAnno(env.ext, decl.value.info)).Ok? && DocText(DeclDoc(decl.value.info)) != ""
            && |env.ext.synopsis(DocText(DeclDoc(decl.value.info)))| + 1 > |DocText(DeclDoc(decl.value.info))| ==>
      r.Fail? && r.failure.Panic?
  {
    if decl.None? then Ok(("", ""))
    else
      var anno :- IgnoreError(DeclAnno(env.ext, decl.value.info));
      var text := DocText(DeclDoc(decl.value.info));
      var fromDoc :- if text != "" then DocParts(env.ext, text) else Ok(("", ""));
      var title := if AnnoText(anno, Title) != "" then AnnoText(anno, Title) else KeepIfIdent(fromDoc.0);
      var desc := if AnnoText(anno, Description) != "" then AnnoText(anno, Description) else KeepIfIdent(fromDoc.1);
      Ok((title, desc))
  }

  /** The field's own doc comment applied over a title and description: a synopsis that
      starts with an identifier replaces the title, and then the text after it replaces the
      description when that too starts with an identifier. */
  function FieldDocOverride(ext: Foreign, f: Field, title: string, desc: string): (r: Result<(string, string)>)
    ensures f.doc.None? ==> r == Ok((title, desc))
    ensures r.Fail? ==> r.failure.Panic?
    ensures r.Ok? && r.value.0 != title ==> r.value.0 == ext.synopsis(DocText(f.doc)) && IdentLed(r.value.0)
    ensures r.Ok? && r.value.1 != desc ==> r.value.0 != title || ext.synopsis(DocText(f.doc)) == title
    ensures r.Ok? && r.value.1 != desc ==> r.value.1 != "" && IdentLed(r.value.1)
  {
    if f.doc.None? then Ok((title, desc))
    else
      var text := DocText(f.doc);
      var fieldTitle := KeepIfIdent(ext.synopsis(text));
      if fieldTitle == "" then Ok((title, desc))
      else if |fieldTitle| + 1 > |text| then Fail(Panic("slice bounds out of range"))
      else
        var fieldDesc := KeepIfIdent(BeforeFirst(text[|fieldTitle| + 1..], "\n\n"));
        Ok((fieldTitle, if fieldDesc != "" then fieldDesc else desc))
  }

  /** What a field's doc comment does: a synopsis that is empty, or whose first word is not
      an identifier, changes nothing; any other synopsis becomes the title, and the text after
      it up to the first blank line becomes the description when it is non-empty and starts
      with an identifier.  The slice after the synopsis crashes when the comment is too short. */
  lemma FieldDocOverrideValue(ext: Foreign, f: Field, title: string, desc: string)
    requires f.doc.Some?
    ensures var s := ext.synopsis(DocText(f.doc));
      s == "" || !IdentLed(s) ==> FieldDocOverride(ext, f, title, desc) == Ok((title, desc))
    ensures var t := DocText(f.doc); var s := ext.synopsis(t); var r := FieldDocOverride(ext, f, title, desc);
      s != "" && IdentLed(s) ==>
        (r.Ok? <==> |s| + 1 <= |t|) &&
        (r.Ok? ==> var d := BeforeFirst(t[|s| + 1..], "\n\n");
                   r.value == (s, if d != "" && IdentLed(d) then d else desc))
  {
  }

  /** getTitleAndDescriptionForField: the declaration's title and description, then the
      field's doc comment, then the field's annotation, each overriding the one before. */
  function FieldTitleAndDescription(env: Env, decl: Option<Decl>, f: Field): (r: Result<(string, string)>)
    ensures |f.names| == 0 ==> r.Fail?
    ensures r.Ok? ==> IgnoreError(FieldAnno(env.ext, f)).Ok? && ObjectTitleAndDescription(env, decl).Ok?
    ensures r.Ok? && AnnoText(IgnoreError(FieldAnno(env.ext, f)).value, Title) != ""
            ==> r.value.0 == AnnoText(IgnoreError(FieldAnno(env.ext, f)).value, Title)
    ensures r.Ok? && AnnoText(IgnoreError(FieldAnno(env.ext, f)).value, Description) != ""
            ==> r.value.1 == AnnoText(IgnoreError(FieldAnno(env.ext, f)).value, Description)
    ensures r.Ok? && f.doc.None? && AnnoText(IgnoreError(FieldAnno(env.ext, f)).value, Title) == ""
            ==> r.value.0 == ObjectTitleAndDescription(env, decl).value.0
    ensures r.Ok? ==> var od := ObjectTitleAndDescription(env, decl).value;
      FieldDocOverride(env.ext, f, od.0, od.1).Ok? &&
      (AnnoText(IgnoreError(FieldAnno(env.ext, f)).value, Title) == "" ==> r.value.0 == FieldDocOverride(env.ext, f, od.0, od.1).value.0) &&
      (AnnoText(IgnoreError(FieldAnno(env.ext, f)).value, Description) == "" ==> r.value.1 == FieldDocOverride(env.ext, f, od.0, od.1).value.1)
  {
    var fromDecl :- ObjectTitleAndDescription(env, decl);
    if |f.names| == 0 then Fail(Panic("index out of range"))
    else
      var fromDoc :- FieldDocOverride(env.ext, f, fromDecl.0, fromDecl.1);
      var anno :- IgnoreError(FieldAnno(env.ext, f));
      Ok((if AnnoText(anno, Title) != "" then AnnoText(anno, Title) else fromDoc.0,
          if AnnoText(anno, Description) != "" then AnnoText(anno, Description) else fromDoc.1))
  }

  /** A field's doc comment decides its title unless its annotation has one: a synopsis
      led by an identifier becomes the title, and any other synopsis leaves the
      declaration's title in place. */
  lemma FieldDocTitle(env: Env, decl: Option<Decl>, f: Field)
    requires f.doc.Some?
    ensures var r := FieldTitleAndDescription(env, decl, f); var s := env.ext.synopsis(DocText(f.doc));
      r.Ok? && AnnoText(IgnoreError(FieldAnno(env.ext, f)).value, Title) == "" ==>
        r.value.0 == (if s != "" && IdentLed(s) then s else ObjectTitleAndDescription(env, decl).value.0)
  {
    var r := FieldTitleAndDescription(env, decl, f);
    if r.Ok? {
      var od := ObjectTitleAndDescription(env, decl).value;
      FieldDocOverrideValue(env.ext, f, od.0, od.1);
    }
  }

  /** addDocsForField: the field's title and description, when non-empty, set on its schema. */
  function AddDocsForField(env: Env, s: Schema, decl: Option<Decl>, field: Option<Field>): (r: Result<Schema>)
    requires !s.Nil?
    ensures field.None? ==> r == Ok(s)
    ensures r.Ok? ==> !r.value.Nil? && r.value == WithCore(s, s.core.(title := r.value.core.title, description := r.value.core.description))
    ensures r.Ok? && field.Some? ==> FieldTitleAndDescription(env, decl, field.value).Ok?
    ensures r.Ok? && field.Some? ==>
      r.value.core.title == (if FieldTitleAndDescription(env, decl, field.value).value.0 != ""
                             then FieldTitleAndDescription(env, decl, field.value).value.0 else s.core.title)
    ensures r.Ok? && field.Some? ==>
      r.value.core.description == (if FieldTitleAndDescription(env, decl, field.value).value.1 != ""
                                   then FieldTitleAndDescription(env, decl, field.value).value.1 else s.core.description)
  {
    if field.None? then Ok(s)
    else
      var td :- FieldTitleAndDescription(env, decl, field.value);
      var title := if td.0 != "" then td.0 else s.core.title;
      var desc := if td.1 != "" then td.1 else s.core.description;
      Ok(WithCore(s, s.core.(title := title, description := desc)))
  }

  // ----- bounds copied from an annotation -----

  /** populateStringAttrs: format and pattern when non-empty, both lengths when above -1. */
  function PopulateStringAttrs(s: Schema, a: SchemaAnno): (r: Schema)
    requires s.IsStr()
    ensures r.IsStr() && r.core == s.core
    ensures r.kind.format == (if a.Text(Format) != "" then a.Text(Format) else s.kind.format)
    ensures r.kind.pattern == (if a.Text(Pattern) != "" then a.Text(Pattern) else s.kind.pattern)
    ensures r.kind.maxLength == (if a.Int(MaxLength) > -1 then a.Int(MaxLength) else s.kind.maxLength)
    ensures r.kind.minLength == (if a.Int(MinLength) > -1 then a.Int(MinLength) else s.kind.minLength)
  {
    var k := s.kind;
    Node(s.core, Str(
      if a.Text(Format) != "" then a.Text(Format) else k.format,
      if a.Text(Pattern) != "" then a.Text(Pattern) else k.pattern,
      if a.Int(MaxLength) > -1 then a.Int(MaxLength) else k.maxLength,
      if a.Int(MinLength) > -1 then a.Int(MinLength) else k.minLength))
  }

  /** populateNumericAttrs: each bound together with its exclusivity flag, and multipleOf,
      when above -1. */
  function PopulateNumericAttrs(s: Schema, a: SchemaAnno): (r: Schema)
    requires s.IsNumeric()
    ensures r.IsNumeric() && r.core == s.core && r.kind.format == s.kind.format
    ensures a.Real(Maximum) > -1.0 ==> r.kind.maximum == a.Real(Maximum) && r.kind.exclusiveMaximum == a.Bool(ExclusiveMaximum)
    ensures a.Real(Maximum) <= -1.0 ==> r.kind.maximum == s.kind.maximum && r.kind.exclusiveMaximum == s.kind.exclusiveMaximum
    ensures a.Real(Minimum) > -1.0 ==> r.kind.minimum == a.Real(Minimum) && r.kind.exclusiveMinimum == a.Bool(ExclusiveMinimum)
    ensures a.Real(Minimum) <= -1.0 ==> r.kind.minimum == s.kind.minimum && r.kind.exclusiveMinimum == s.kind.exclusiveMinimum
    ensures r.kind.multipleOf == (if a.Real(MultipleOf) > -1.0 then a.Real(MultipleOf) else s.kind.multipleOf)
  {
    var k := s.kind;
    var hasMax := a.Real(Maximum) > -1.0;
    var hasMin := a.Real(Minimum) > -1.0;
    Node(s.core, Numeric(
      k.format,
      if hasMax then a.Real(Maximum) else k.maximum,
      if hasMin then a.Real(Minimum) else k.minimum,
      if a.Real(MultipleOf) > -1.0 then a.Real(MultipleOf) else k.multipleOf,
      if hasMax then a.Bool(ExclusiveMaximum) else k.exclusiveMaximum,
      if hasMin then a.Bool(ExclusiveMinimum) else k.exclusiveMinimum))
  }

  /** The validator starts every number at 0, never at -1, so an annotation that does not
      mention a length or bound still overwrites it with 0. */
  lemma SentinelAlwaysFires(s: Schema, t: Schema, a: SchemaAnno)
    requires s.IsStr() && t.IsNumeric()
    requires MaxLength !in a.values && MinLength !in a.values
    requires Maximum !in a.values && Minimum !in a.values && MultipleOf !in a.values
    ensures PopulateStringAttrs(s, a).kind.maxLength == 0 && PopulateStringAttrs(s, a).kind.minLength == 0
    ensures PopulateNumericAttrs(t, a).kind.maximum == 0.0 && PopulateNumericAttrs(t, a).kind.exclusiveMaximum == a.Bool(ExclusiveMaximum)
    ensures PopulateNumericAttrs(t, a).kind.minimum == 0.0 && PopulateNumericAttrs(t, a).kind.multipleOf == 0.0
  {
  }

  /** The annotation of an optional field, with the field's first name read first, as the
      add*AttrsForField helpers do (a crash for a nameless field). */
  function OptionalFieldAnno(env: Env, field: Option<Field>): (r: Result<Option<SchemaAnno>>)
    ensures field.None? ==> r == Ok(None)
    ensures field.Some? && |field.value.names| > 0 ==> r == FieldAnno(env.ext, field.value)
    ensures field.Some? && |field.value.names| == 0 ==> r.Fail? && r.failure.Panic?
  {
    if field.None? then Ok(None)
    else if |field.value.names| == 0 then Fail(Panic("index out of range"))
    else FieldAnno(env.ext, field.value)
  }

  /** addStringAttrsForField. */
  function AddStringAttrsForField(env: Env, s: Schema, field: Option<Field>): (r: Result<Schema>)
    requires s.IsStr()
    ensures r.Ok? <==> OptionalFieldAnno(env, field).Ok?
    ensures r.Ok? && OptionalFieldAnno(env, field).value.None? ==> r.value == s
    ensures r.Ok? && OptionalFieldAnno(env, field).value.Some? ==> r.value == PopulateStringAttrs(s, OptionalFieldAnno(env, field).value.value)
  {
    var anno :- OptionalFieldAnno(env, field);
    Ok(if anno.Some? then PopulateStringAttrs(s, anno.value) else s)
  }

  /** addNumericAttrsForField. */
  function AddNumericAttrsForField(env: Env, s: Schema, field: Option<Field>): (r: Result<Schema>)
    requires s.IsNumeric()
    ensures r.Ok? <==> OptionalFieldAnno(env, field).Ok?
    ensures r.Ok? && OptionalFieldAnno(env, field).value.None? ==> r.value == s
    ensures r.Ok? && OptionalFieldAnno(env, field).value.Some? ==> r.value == PopulateNumericAttrs(s, OptionalFieldAnno(env, field).value.value)
  {
    var anno :- OptionalFieldAnno(env, field);
    Ok(if anno.Some? then PopulateNumericAttrs(s, anno.value) else s)
  }

  /** addArrayAttrsForField: maxItems when positive, minItems when above -1, and both item
      flags always, from the field's annotation. */
  function AddArrayAttrsForField(env: Env, s: Schema, field: Option<Field>): (r: Result<Schema>)
    requires s.IsArray()
    ensures r.Ok? <==> OptionalFieldAnno(env, field).Ok?
    ensures r.Ok? ==> r.value.IsArray() && r.value.core == s.core && r.value.kind.items == s.kind.items
    ensures r.Ok? && OptionalFieldAnno(env, field).value.None? ==> r.value == s
    ensures r.Ok? && OptionalFieldAnno(env, field).value.Some? ==>
      var a := OptionalFieldAnno(env, field).value.value;
      && r.value.kind.maxItems == (if a.Int(MaxItems) > 0 then a.Int(MaxItems) else s.kind.maxItems)
      && r.value.kind.minItems == (if a.Int(MinItems) > -1 then a.Int(MinItems) else s.kind.minItems)
      && r.value.kind.additionalItems == a.Bool(AdditionalItems)
      && r.value.kind.uniqueItems == a.Bool(UniqueItems)
  {
    var anno :- OptionalFieldAnno(env, field);
    if anno.None? then Ok(s)
    else
      var a := anno.value;
      var k := s.kind;
      Ok(Node(s.core, Array(
        k.items,
        if a.Int(MaxItems) > 0 then a.Int(MaxItems) else k.maxItems,
        if a.Int(MinItems) > -1 then a.Int(MinItems) else k.minItems,
        a.Bool(AdditionalItems),
        a.Bool(UniqueItems))))
  }

  // ----- annotation queries -----

  /** hasXofAnnotation: some allOf, anyOf or oneOf target is named (`not` does not count). */
  predicate HasXof(a: SchemaAnno) {
    |a.List(AllOf)| > 0 || |a.List(AnyOf)| > 0 || |a.List(OneOf)| > 0
  }

  /** fieldHasXofAnnotation. */
  function FieldHasXof(env: Env, f: Field): (r: Result<bool>)
    ensures r.Fail? <==> FieldAnno(env.ext, f).Fail?
    ensures r.Ok? ==> (r.value <==> FieldAnno(env.ext, f).value.Some? && HasXof(FieldAnno(env.ext, f).value.value))
  {
    var anno :- FieldAnno(env.ext, f);
    Ok(anno.Some? && HasXof(anno.value))
  }

  /** declHasSchemaAnnotation. */
  function DeclHasAnnotation(env: Env, d: Decl): (r: Result<bool>)
    ensures r.Fail? <==> DeclAnno(env.ext, d.info).Fail?
    ensures r.Ok? ==> (r.value <==> DeclAnno(env.ext, d.info).value.Some?)
  {
    var anno :- DeclAnno(env.ext, d.info);
    Ok(anno.Some?)
  }
}

=== FILE: strs.dfy ===
/** The functions of Go's `strings` package that the program uses, on rune sequences. */
module Strs {
  import opened Runes

  /** `pat` occurs in `s` starting at index `i`. */
  predicate OccursAt(s: string, pat: string, i: int) {
    0 <= i && i + |pat| <= |s| && s[i..i + |pat|] == pat
  }

  predicate Contains(s: string, pat: string) {
    exists i :: 0 <= i <= |s| && OccursAt(s, pat, i)
  }

  predicate HasPrefix(s: string, p: string) {
    p <= s
  }

  predicate HasSuffix(s: string, p: string) {
    |p| <= |s| && s[|s| - |p|..] == p
  }

  /** strings.Index: the first occurrence of `pat` in `s`, or -1. */
  function IndexOf(s: string, pat: string): (r: int)
    ensures r == -1 || OccursAt(s, pat, r)
    ensures forall j :: 0 <= j && (r == -1 || j < r) ==> !OccursAt(s, pat, j)
    ensures r == -1 <==> !Contains(s, pat)
  {
    IndexFrom(s, pat, 0)
  }

  function IndexFrom(s: string, pat: string, from: nat): (r: int)
    requires from <= |s| + 1
    ensures r == -1 || (from <= r && OccursAt(s, pat, r))
    ensures forall j :: from <= j && (r == -1 || j < r) ==> !OccursAt(s, pat, j)
    decreases |s| + 1 - from
  {
    if from + |pat| > |s| then -1
    else if s[from..from + |pat|] == pat then from
    else IndexFrom(s, pat, from + 1)
  }

  /** strings.LastIndex: the last occurrence of `pat` in `s`, or -1. */
  function LastIndexOf(s: string, pat: string): (r: int)
    ensures r == -1 || OccursAt(s, pat, r)
    ensures forall j :: r < j ==> !OccursAt(s, pat, j)
    ensures r == -1 <==> !Contains(s, pat)
  {
    if |pat| > |s| then -1 else LastIndexFrom(s, pat, |s| - |pat|)
  }

  function LastIndexFrom(s: string, pat: string, upto: int): (r: int)
    requires upto + |pat| <= |s|
    ensures r == -1 || (r <= upto && OccursAt(s, pat, r))
    ensures forall j :: r < j <= upto ==> !OccursAt(s, pat, j)
    decreases upto + 1
  {
    if upto < 0 then -1
    else if s[upto..upto + |pat|] == pat then upto
    else LastIndexFrom(s, pat, upto - 1)
  }

  /** The last occurrence of a one-rune pattern is the last position holding that rune. */
  lemma LastRune(s: string, c: char)
    ensures LastIndexOf(s, [c]) == -1 <==> c !in s
    ensures LastIndexOf(s, [c]) != -1 ==> s[LastIndexOf(s, [c])] == c && c !in s[LastIndexOf(s, [c]) + 1..]
  {
    var i := LastIndexOf(s, [c]);
    forall j | 0 <= j < |s| ensures OccursAt(s, [c], j) <==> s[j] == c {
      assert s[j..j + 1] == [s[j]];
    }
    if c in s {
      var j :| 0 <= j < |s| && s[j] == c;
      assert OccursAt(s, [c], j);
    }
    if i != -1 {
      forall j | i + 1 <= j < |s| ensures s[j] != c {
        assert !OccursAt(s, [c], j);
      }
    }
  }

  /** strings.Replace(s, pat, rep, -1): every non-overlapping occurrence of `pat`,
      found left to right, replaced by `rep`. */
  function ReplaceAll(s: string, pat: string, rep: string): (r: string)
    requires |pat| > 0
    ensures !Contains(s, pat) ==> r == s
    decreases |s|
  {
    if |s| < |pat| then s
    else if s[..|pat|] == pat then
      assert OccursAt(s, pat, 0);
      rep + ReplaceAll(s[|pat|..], pat, rep)
    else
      var r := [s[0]] + ReplaceAll(s[1..], pat, rep);
      assert !Contains(s, pat) ==> !Contains(s[1..], pat) by {
        forall i | OccursAt(s[1..], pat, i) ensures OccursAt(s, pat, i + 1) {
          assert s[i + 1..i + 1 + |pat|] == s[1..][i..i + |pat|];
        }
      }
      r
  }

  /** Every occurrence of the rune `a` replaced by `b`. */
  function MapChar(s: string, a: char, b: char): (r: string)
    ensures |r| == |s|
    ensures forall i :: 0 <= i < |s| ==> r[i] == (if s[i] == a then b else s[i])
  {
    if |s| == 0 then [] else [if s[0] == a then b else s[0]] + MapChar(s[1..], a, b)
  }

  /** A one-rune replacement with strings.Replace is a rune-wise map. */
  lemma {:induction false} ReplaceRuneIsMap(s: string, a: char, b: char)
    ensures ReplaceAll(s, [a], [b]) == MapChar(s, a, b)
    decreases |s|
  {
    if |s| > 0 {
      ReplaceRuneIsMap(s[1..], a, b);
      assert s[..1] == [s[0]];
      assert s[|[a]|..] == s[1..];
    }
  }

  function TrimSuffix(s: string, suffix: string): (r: string)
    ensures HasSuffix(s, suffix) ==> r + suffix == s
    ensures !HasSuffix(s, suffix) ==> r == s
  {
    if HasSuffix(s, suffix) then s[..|s| - |suffix|] else s
  }

  /** strings.Split(s, sep)[0]: the text before the first `sep`, or all of `s`. */
  function BeforeFirst(s: string, sep: string): (r: string)
    requires |sep| > 0
    ensures r <= s
    ensures !Contains(r, sep)
    ensures r == s || OccursAt(s, sep, |r|)
  {
    var i := IndexOf(s, sep);
    if i == -1 then s
    else
      assert !Contains(s[..i], sep) by {
        forall j | OccursAt(s[..i], sep, j) ensures false {
          assert s[..i][j..j + |sep|] == s[j..j + |sep|];
          assert OccursAt(s, sep, j);
        }
      }
      s[..i]
  }

  /** The number of space runes `s` starts with. */
  function SpacePrefix(s: string): (k: nat)
    ensures k <= |s|
    ensures forall i :: 0 <= i < k ==> IsSpace(s[i])
    ensures k < |s| ==> !IsSpace(s[k])
  {
    if |s| == 0 || !IsSpace(s[0]) then 0 else 1 + SpacePrefix(s[1..])
  }

  /** The first element of strings.Fields(s): the first maximal run of non-space runes. */
  function FirstField(s: string): (r: string)
    ensures forall i :: 0 <= i < |r| ==> !IsSpace(r[i])
    ensures r == [] <==> forall i :: 0 <= i < |s| ==> IsSpace(s[i])
    ensures SpacePrefix(s) + |r| <= |s| && s[SpacePrefix(s)..SpacePrefix(s) + |r|] == r
    ensures SpacePrefix(s) + |r| == |s| || IsSpace(s[SpacePrefix(s) + |r|])
  {
    if |s| == 0 then []
    else if IsSpace(s[0]) then
      var r := FirstField(s[1..]);
      assert s[1..][SpacePrefix(s[1..])..SpacePrefix(s[1..]) + |r|] == s[SpacePrefix(s)..SpacePrefix(s) + |r|];
      r
    else TakeWord(s)
  }

  /** The longest space-free prefix of `s`. */
  function TakeWord(s: string): (r: string)
    ensures r <= s
    ensures forall i :: 0 <= i < |r| ==> !IsSpace(r[i])
    ensures |s| > 0 && !IsSpace(s[0]) ==> |r| > 0
    ensures |r| == |s| || IsSpace(s[|r|])
  {
    if |s| == 0 || IsSpace(s[0]) then [] else [s[0]] + TakeWord(s[1..])
  }

  /** strings.Map dropping every space rune. */
  function StripSpaces(s: string): (r: string)
    ensures forall i :: 0 <= i < |r| ==> !IsSpace(r[i])
    ensures forall i :: 0 <= i < |r| ==> r[i] in s
    ensures |r| <= |s|
    ensures (forall i :: 0 <= i < |s| ==> !IsSpace(s[i])) ==> r == s
    ensures (forall i :: 0 <= i < |s| ==> IsSpace(s[i])) ==> r == []
  {
    if |s| == 0 then []
    else if IsSpace(s[0]) then StripSpaces(s[1..])
    else [s[0]] + StripSpaces(s[1..])
  }

  /** Dropping spaces works piece by piece: with the single-rune case of StripSpaces's
      contract, every non-space rune is kept, in order. */
  lemma {:induction false} StripSpacesAppend(a: string, b: string)
    ensures StripSpaces(a + b) == StripSpaces(a) + StripSpaces(b)
    decreases |a|
  {
    if |a| > 0 {
      assert (a + b)[1..] == a[1..] + b;
      StripSpacesAppend(a[1..], b);
    } else {
      assert a + b == b;
    }
  }

  /** The word-boundary test of strings.Title. */
  predicate IsSeparator(c: char) {
    if c <= '\U{007F}' then !(IsDigit(c) || IsAsciiLetter(c) || c == '_')
    else if IsLetter(c) || IsDigit(c) then false
    else IsSpace(c)
  }

  /** strings.Title: every rune that follows a separator (or starts the string) in title case. */
  function Title(s: string): (r: string)
    ensures |r| == |s|
    ensures |s| > 0 ==> r[0] == ToTitle(s[0])
    ensures forall i :: 0 < i < |s| ==> r[i] == (if IsSeparator(s[i - 1]) then ToTitle(s[i]) else s[i])
  {
    TitleAfter(' ', s)
  }

  function TitleAfter(prev: char, s: string): (r: string)
    ensures |r| == |s|
    ensures |s| > 0 ==> r[0] == (if IsSeparator(prev) then ToTitle(s[0]) else s[0])
    ensures forall i :: 0 < i < |s| ==> r[i] == (if IsSeparator(s[i - 1]) then ToTitle(s[i]) else s[i])
    decreases |s|
  {
    if |s| == 0 then []
    else
      [if IsSeparator(prev) then ToTitle(s[0]) else s[0]] + TitleAfter(s[0], s[1..])
  }
}

=== FILE: type_helper.dfy ===
/** Name tables and lookups over the parsed program: the Go types the generator
    treats as JSON built-ins, identifier and package-type-path syntax, struct tags,
    and the search for a type declaration in a package. */
module TypeHelper {
  import opened Results
  import opened Runes
  import opened Strs
  import opened Decls

  /** Go type name to JSON type, for the types the generator maps directly. */
  const BuiltinTypes: map<string, string> := map[
    "string" := "string",
    "bool" := "boolean",
    "float32" := "number",
    "float64" := "number",
    "int" := "integer",
    "int8" := "integer",
    "int16" := "integer",
    "int32" := "integer",
    "int64" := "integer",
    "uint" := "integer",
    "uint8" := "integer",
    "uint16" := "integer",
    "uint32" := "integer",
    "uint64" := "integer",
    "time.Time" := "string",
    "net.IP" := "string",
    "url.URL" := "string",
    "[]byte" := "string"
  ]

  /** JSON type to the Go type names that map to it. */
  const JsonTypes: map<string, seq<string>> := map[
    "string" := ["string", "time.Time", "net.IP", "url.URL", "[]byte"],
    "boolean" := ["bool"],
    "number" := ["float32", "float64"],
    "integer" := ["int", "int8", "int16", "int32", "int64", "uint", "uint8", "uint16", "uint32", "uint64"],
    "array" := []
  ]

  /** The two tables describe the same relation, read in opposite directions. */
  lemma TablesAgree()
    ensures forall g :: g in BuiltinTypes ==> BuiltinTypes[g] in JsonTypes && g in JsonTypes[BuiltinTypes[g]]
    ensures forall j, g :: j in JsonTypes && g in JsonTypes[j] ==> g in BuiltinTypes && BuiltinTypes[g] == j
  {
    BuiltinsListed();
    forall j, g | j in JsonTypes && g in JsonTypes[j]
      ensures g in BuiltinTypes && BuiltinTypes[g] == j
    {
      JsonTypeListed(j);
    }
  }

  lemma BuiltinsListed()
    ensures forall g :: g in BuiltinTypes ==> BuiltinTypes[g] in JsonTypes && g in JsonTypes[BuiltinTypes[g]]
  {
    forall g | g in BuiltinTypes
      ensures BuiltinTypes[g] in JsonTypes && g in JsonTypes[BuiltinTypes[g]]
    {
      var j := BuiltinTypes[g];
      assert j == "string" || j == "boolean" || j == "number" || j == "integer";
    }
  }

  lemma JsonTypeListed(j: string)
    requires j in JsonTypes
    ensures forall g :: g in JsonTypes[j] ==> g in BuiltinTypes && BuiltinTypes[g] == j
  {
    if j == "string" {
    } else if j == "boolean" {
    } else if j == "number" {
    } else if j == "integer" {
    } else {
      assert j == "array";
    }
  }

  predicate IsJsonType(name: string) {
    name in JsonTypes
  }

  predicate IsIdentRune(c: char) {
    IsLetter(c) || IsDigit(c) || c == '_'
  }

  /** isIdent: every rune is a letter, a digit or an underscore (so "" qualifies). */
  function IsIdent(name: string): (b: bool)
    ensures b <==> forall i :: 0 <= i < |name| ==> IsIdentRune(name[i])
  {
    if |name| == 0 then true
    else if !IsIdentRune(name[0]) then false
    else
      var b := IsIdent(name[1..]);
      assert forall i :: 1 <= i < |name| ==> name[i] == name[1..][i - 1];
      b
  }

  /** The text after the last "/" (the last chunk of strings.SplitAfter). */
  function LastSegment(name: string): string {
    name[LastIndexOf(name, "/") + 1..]
  }

  /** isPackageType: a path such as "github.com/x/pkg/Type" whose last segment is an
      exported identifier and which neither starts with "/" nor lacks one. */
  function IsPackageType(name: string): (b: bool)
    ensures b ==> Contains(name, "/") && !HasPrefix(name, "/")
    ensures b ==> IsIdent(LastSegment(name)) && IsExported(LastSegment(name))
  {
    if HasPrefix(name, "/") then false
    else if !Contains(name, "/") then false
    else
      var typeName := LastSegment(name);
      IsIdent(typeName) && IsUpper(FirstRune(typeName))
  }

  /** splitPackageTypePath: the package path and the type name of a package type path,
      or two empty strings for anything else. */
  function SplitPackageTypePath(path: string): (r: (string, string))
    ensures !IsPackageType(path) ==> r == ("", "")
    ensures IsPackageType(path) ==> r.0 + "/" + r.1 == path
    ensures IsPackageType(path) ==> r.0 != "" && r.0[0] != '/' && '/' !in r.1 && IsIdent(r.1) && IsExported(r.1)
  {
    if !IsPackageType(path) then ("", "")
    else
      var i := LastIndexOf(path, "/");
      assert path[i..i + 1] == "/";
      assert path == path[..i] + "/" + path[i + 1..];
      assert '/' !in path[i + 1..] by {
        forall j | i + 1 <= j < |path| ensures path[j] != '/' {
          assert path[j..j + 1] == [path[j]];
        }
      }
      (path[..i], path[i + 1..])
  }

  /** Joining a package path and an exported type name gives a package type path that
      splits back into the same two parts. */
  lemma SplitJoin(p: string, t: string)
    requires p != "" && p[0] != '/' && '/' !in t && IsIdent(t) && IsExported(t)
    ensures IsPackageType(p + "/" + t)
    ensures SplitPackageTypePath(p + "/" + t) == (p, t)
  {
    var path := p + "/" + t;
    assert OccursAt(path, "/", |p|);
    forall j | |p| < j < |path| ensures !OccursAt(path, "/", j) {
      assert path[j..j + 1] == [t[j - |p| - 1]];
    }
    var i := LastIndexOf(path, "/");
    assert i == |p|;
    assert LastSegment(path) == t;
    assert !HasPrefix(path, "/") by {
      assert path[0] == p[0];
    }
  }

  /** jsonTagInfo: the JSON property name of a named field and whether the field is
      left out of the schema (`json:"-"`). */
  function JsonTagInfo(f: Field): (r: (string, bool))
    requires |f.names| > 0
    ensures r.1 <==> f.tag == Tag("-")
    ensures r.1 ==> r.0 == ""
    ensures !r.1 && r.0 != f.names[0] ==> f.tag.Tag? && r.0 != "" && (r.0 == f.tag.json || HasPrefix(f.tag.json, r.0 + ","))
    ensures !r.1 && r.0 != f.names[0] ==> ',' !in r.0
    ensures f.tag.Tag? && f.tag.json != "-" && !Contains(f.tag.json, ",") && f.tag.json != "" ==> r == (f.tag.json, false)
    ensures f.tag.Tag? && f.tag.json != "-" && BeforeFirst(f.tag.json, ",") != "" ==> r == (BeforeFirst(f.tag.json, ","), false)
    ensures f.tag.NoTag? || f.tag.Unquotable? || (f.tag.json != "-" && BeforeFirst(f.tag.json, ",") == "") ==> r == (f.names[0], false)
  {
    var name := f.names[0];
    match f.tag
    case NoTag => (name, false)
    case Unquotable => (name, false)
    case Tag(json) =>
      if json == "-" then ("", true)
      else
        var jsonName := BeforeFirst(json, ",");
        assert ',' !in jsonName by {
          if ',' in jsonName {
            var k :| 0 <= k < |jsonName| && jsonName[k] == ',';
            assert OccursAt(jsonName, ",", k);
          }
        }
        assert jsonName != json ==> HasPrefix(json, jsonName + ",") by {
          if jsonName != json {
            assert json[|jsonName|..|jsonName| + 1] == ",";
            assert json[..|jsonName| + 1] == jsonName + ",";
          }
        }
        if jsonName != "" then (jsonName, false) else (name, false)
  }

  /** The first spec of a declaration list that declares `name`, with its declaration. */
  function FindSpec(decls: seq<GenDecl>, name: string): (r: Option<(GenDecl, TypeSpec)>)
    ensures r.Some? ==> r.value.1.name == name && r.value.0 in decls && r.value.1 in r.value.0.specs
    ensures r.None? <==> forall d, s :: d in decls && s in d.specs ==> s.name != name
  {
    if |decls| == 0 then None
    else
      match FindSpecIn(decls[0].specs, name)
      case Some(s) => Some((decls[0], s))
      case None =>
        assert forall d :: d in decls ==> d == decls[0] || d in decls[1..];
        FindSpec(decls[1..], name)
  }

  function FindSpecIn(specs: seq<TypeSpec>, name: string): (r: Option<TypeSpec>)
    ensures r.Some? ==> r.value.name == name && r.value in specs
    ensures r.None? <==> forall s :: s in specs ==> s.name != name
  {
    if |specs| == 0 then None
    else if specs[0].name == name then Some(specs[0])
    else
      assert forall s :: s in specs ==> s == specs[0] || s in specs[1..];
      FindSpecIn(specs[1..], name)
  }

  /** The file declares a type called `name`. */
  predicate Declares(f: File, name: string) {
    exists d, s :: d in f.decls && s in d.specs && s.name == name
  }

  /** findDeclInFile: the first declaration of `name` in file `i` of the package. */
  function FindDeclInFile(pkg: Package, i: nat, name: string): (r: Option<DeclInfo>)
    ensures r.Some? <==> i < |pkg.files| && Declares(pkg.files[i], name)
    ensures r.Some? ==> r.value.spec.name == name && r.value.pkg == pkg && r.value.fileIdx == i && !r.value.isRoot
  {
    if i >= |pkg.files| then None
    else
      match FindSpec(pkg.files[i].decls, name)
      case Some((d, s)) => Some(DeclInfo(pkg, i, d, s, false))
      case None => None
  }

  /** findDeclInfoForPackage: look in the hinted file first, then in every other file of
      the package in order; an error if no file declares the type. */
  function FindDeclInPackage(pkg: Package, hint: Option<nat>, name: string): (r: Result<DeclInfo>)
    ensures r.Ok? ==> r.value.spec.name == name && r.value.pkg == pkg && r.value.fileIdx < |pkg.files| && !r.value.isRoot
    ensures r.Ok? ==> Declares(pkg.files[r.value.fileIdx], name)
    ensures r.Fail? <==> forall i :: 0 <= i < |pkg.files| ==> !Declares(pkg.files[i], name)
    ensures r.Fail? ==> r.failure.Error?
    ensures hint.Some? && hint.value < |pkg.files| && Declares(pkg.files[hint.value], name) ==> r.Ok? && r.value.fileIdx == hint.value
  {
    var inHint := if hint.Some? then FindDeclInFile(pkg, hint.value, name) else None;
    if inHint.Some? then Ok(inHint.value)
    else FindInOtherFiles(pkg, hint, name, 0)
  }

  function FindInOtherFiles(pkg: Package, skip: Option<nat>, name: string, i: nat): (r: Result<DeclInfo>)
    requires skip.Some? && skip.value < |pkg.files| ==> !Declares(pkg.files[skip.value], name)
    ensures r.Ok? ==> r.value.spec.name == name && r.value.pkg == pkg && i <= r.value.fileIdx < |pkg.files| && !r.value.isRoot
    ensures r.Ok? ==> Declares(pkg.files[r.value.fileIdx], name)
    ensures r.Fail? <==> forall j :: i <= j < |pkg.files| ==> !Declares(pkg.files[j], name)
    ensures r.Fail? ==> r.failure.Error?
    decreases |pkg.files| - i
  {
    if i >= |pkg.files| then Fail(Error("could not find type '" + name + "' in package " + pkg.path))
    else if skip == Some(i) then FindInOtherFiles(pkg, skip, name, i + 1)
    else match FindDeclInFile(pkg, i, name)
      case Some(d) => Ok(d)
      case None => FindInOtherFiles(pkg, skip, name, i + 1)
  }
}
